=== FILE: README.md ===
# Media date fixer — a Dafny model

The application stamps a capture date and time into the metadata of photos
and videos. The date and time come from the file's name or are typed in by
the user. There are two front ends:

- a desktop window (`main_webview.py` with `web/renderer.js`): it works on
  local paths through a Python bridge;
- a Flask web server (`app.py` with `static/app.js`): it receives uploads
  into a per-session folder, processes a batch and offers the result as a
  ZIP download.

Both rest on `extract_datetime_from_filename` in `media_utils.py`. That
function reads an EXIF date (`YYYY:MM:DD`) and time (`HH:MM:SS`) out of a
file name. It uses a fixed cascade of regular expressions and a heuristic
that decides whether an eight-digit group is a Persian (Jalali) date.

The model has these modules:

| file | module | models |
|---|---|---|
| `wrappers.dfy` | `Wrappers` | `Option` and `Result` |
| `text.dfy` | `Text` | character classes, Python's `int()` on a slice, `str.strip`, `str.lower`, `split(c).pop()` |
| `paths.dfy` | `Paths` | `os.path.basename`, `splitext`, `dirname` and `join`, in the POSIX and the Windows flavour |
| `filename_date.dfy` | `FilenameDate` | the regular-expression cascade, the Persian heuristic, the Gregorian formatting, `extract_datetime_from_filename` |
| `file_types.dfy` | `FileTypes` | `allowed_file`, `get_file_type`, `detect_file_type_from_content`, the client file name rules of the upload, the upload's type decision |
| `server.dfy` | `Server` | the `/api/upload` handler, `process_batch`, `catch_all` |
| `desktop_api.dfy` | `DesktopApi` | `procesar_archivo`, `_procesar_archivo_auto`, `extraer_metadata_batch`, `procesar_batch` |
| `desktop_ui.dfy` | `DesktopUi` | `web/renderer.js`: the manual date picker, icons, the batch payload, the path dedup of the click handler, success counting, the `batchMeta` state |
| `web_ui.dfy` | `WebUi` | `static/app.js`: icons, the pre-filled table, the `processBatch` request, the result counts and the download link, `clearBatch` |

The model treats everything outside the program as data:

- The desktop backend's calls to exiftool, ffmpeg and `os.makedirs` are
  values of a `Call` datatype. Every desktop operation that makes such calls
  returns them next to its reply.
- In the web backend, the copies and stamps of one batch item are values of
  an `Effect` datatype. `process_batch` keeps only the results of the
  items; the upload's saved files are not modelled.
- The host decides which calls and effects raise. PIL's thumbnails are
  reduced to whether they raise.
- The clock, `uuid4`, Werkzeug's `secure_filename` and the Persian→Gregorian
  conversion are parameters.
- The DOM is a sequence of row inputs.

The desktop batch table posts the `type="date"` and `type="time"` input
values unchanged (`web/renderer.js:258-259`). So a date the user types there
reaches Python as `YYYY-MM-DD`, not as `YYYY:MM:DD`. Only the single file
picker (`getManualFechaHora`) swaps `-` for `:`.

## Model

| member | source | states |
|---|---|---|
| FilenameDate.Search | media_utils.py:61 | `re.search` as a scan: the position found matches, no earlier position matches, and no result means no position matches |
| FilenameDate.FindIsLeftmost | media_utils.py:61 | the scan from 0 returns exactly the leftmost match, and returns nothing iff the pattern occurs nowhere |
| FilenameDate.Run | media_utils.py:71 | a fixed-width run of a character class: it succeeds with the slice iff every character fits and the string is long enough |
| FilenameDate.ShortDigits | media_utils.py:71 | `\d{1,2}` takes one or two digits and fails exactly when no digit is at the position |
| FilenameDate.Char | media_utils.py:71 | a one-character class such as `[-_]` or `[.]` matches iff the next character is in it |
| FilenameDate.Literal | media_utils.py:81 | a literal such as `Status_` matches iff it is a prefix of the rest |
| FilenameDate.EightAt | media_utils.py:61 | `(\d{8})` yields the eight digits at the position |
| FilenameDate.YmdAt | media_utils.py:77 | a match of `(\d{4})[-_](\d{1,2})[-_](\d{1,2})` has four year digits and one- or two-digit month and day groups |
| FilenameDate.HmsAt | media_utils.py:90 | a match of `(\d{1,2})[.](\d{1,2})[.](\d{1,2})` has three one- or two-digit groups |
| FilenameDate.StampAt | media_utils.py:70-71 | a timestamp match carries a well-formed date part and a well-formed time part |
| FilenameDate.StatusAt | media_utils.py:81 | a `Status_Mon_D_YYYY` match has a three-character month, a short day group and four year digits |
| FilenameDate.TailNineAt | media_utils.py:95 | `_(\d{9})$` yields nine digits (Python's `$` also accepts one trailing newline) |
| FilenameDate.SixAt | media_utils.py:100 | `_(\d{6})[-\.]` yields six digits |
| FilenameDate.GregorianToExif | media_utils.py:49-56 | an eight-character group becomes ten characters with `:` at positions 4 and 7, and dropping the colons gives the group back |
| FilenameDate.IsPersianDate | media_utils.py:13-30 | `is_persian_date`; it has no contract of its own, and its behaviour is stated by PersianHeuristic, PersianOfParts, LetterIsNotPersian and ShortIsNotPersian |
| FilenameDate.EightDigitDate | media_utils.py:61-67 | the date of the first eight-digit run, through the Persian test; no contract of its own, stated by DatePrecedence (last branch) and GregorianShape |
| FilenameDate.FallbackDate | media_utils.py:61-89 | the date when no full timestamp matched; no contract of its own, stated by DatePrecedence and DateIsExif |
| FilenameDate.FallbackTime | media_utils.py:90-106 | the time when no full timestamp matched; no contract of its own, stated by TimePrecedence and TimeIsClock |
| FilenameDate.FromStem | media_utils.py:61-106 | the date and time of a stem; no contract of its own, stated by TimestampWins, DatePrecedence, TimePrecedence, TimeIffPattern, TimeIsClock and DateIsExif |
| FilenameDate.ExtractDateTime | media_utils.py:59-106 | every time it returns is a well-formed `HH:MM:SS`; which date and time it picks is stated on the stem by TimestampWins, DatePrecedence and TimePrecedence, and FolderAndExtensionIgnored reduces a path to its stem |
| FilenameDate.PadShortGroup | media_utils.py:74 | `zfill(2)` of a one- or two-digit group is two digits |
| FilenameDate.PadKeepsDigits | media_utils.py:74 | `zfill(2)` keeps the group's digits and pads a single digit with a leading `0` |
| FilenameDate.HmsClockShape | media_utils.py:92-93 | the time built from a dotted match is a well-formed `HH:MM:SS` |
| FilenameDate.DigitsClockShape | media_utils.py:97-98 | the time cut out of a nine- or six-digit run is a well-formed `HH:MM:SS` |
| FilenameDate.YmdExifShape | media_utils.py:79-80 | the date built from a `Y-M-D` match is a well-formed `YYYY:MM:DD` |
| FilenameDate.MonthTable | media_utils.py:83-86 | the month code is always two digits, and an unknown abbreviation gives `01` |
| FilenameDate.MonthOrder | media_utils.py:83-85 | `Jan`…`Dec` map to `01`…`12` in calendar order |
| FilenameDate.GregorianShape | media_utils.py:67 | an eight-digit Gregorian group becomes a well-formed EXIF date |
| FilenameDate.TimeIsClock | media_utils.py:70-106 | every time the extractor returns is a well-formed `HH:MM:SS` |
| FilenameDate.DateIsExif | media_utils.py:59-106 | if the Persian conversion yields EXIF dates, every date the extractor returns is a well-formed `YYYY:MM:DD` |
| FilenameDate.TimeIffPattern | media_utils.py:70-106 | a time is found iff one of the four time patterns occurs in the name |
| FilenameDate.TimestampWins | media_utils.py:70-76 | the leftmost full `Y-M-D-h.m.s` timestamp decides both date and time, whatever else the name holds |
| FilenameDate.DatePrecedence | media_utils.py:61-89 | without a timestamp, the date comes from `Status_`, else from `Y-M-D`, else from eight digits through the Persian test, else there is none |
| FilenameDate.TimePrecedence | media_utils.py:90-106 | without a timestamp, the time comes from `h.m.s`, else `_NNNNNNNNN` at the end, else `_NNNNNN` before `-`/`.`, else there is none |
| FilenameDate.FolderAndExtensionIgnored | media_utils.py:60 | for `dir/stem.ext` (a separator-free stem with a non-dot character and a simple extension) the result is the stem's: folders and extension are never read |
| FilenameDate.PersianHeuristic | media_utils.py:13-30 | for eight digits: a year in 1300–1500 with a plausible month and day is Persian unless month > 6 and day 31; otherwise years 2000–2050 are Gregorian and all other years Persian |
| FilenameDate.PersianOfParts | media_utils.py:15-28 | the heuristic stated on the three parsed integers |
| FilenameDate.LetterIsNotPersian | media_utils.py:29-30 | a letter among the first eight characters makes `int()` fail, and the string is not Persian |
| FilenameDate.ShortIsNotPersian | media_utils.py:15-30 | a string of six characters or fewer has an empty day slice and is not Persian |
| FileTypes.Extension | app.py:36-38 | the extension exists iff the name has a `.`, and it contains no `.` (text after the last dot) |
| FileTypes.AllowedFile | app.py:35-45 | `allowed_file`; no contract of its own, stated by AllowedFileCategories (no dot or unknown category refuses; no or empty category means image or video) and AllowedByExtension |
| FileTypes.GetFileType | app.py:47-60 | `image` iff the name is allowed as an image, `video` iff allowed as a video, `unknown` iff not allowed at all |
| FileTypes.AllowedFileCategories | app.py:35-45 | no dot or an unknown category refuses; with no category, allowed iff allowed as an image or as a video; an empty category means none |
| FileTypes.CategoriesDisjoint | app.py:30-33 | no extension is both an image and a video |
| FileTypes.AllowedByExtension | app.py:38-45 | for `stem.ext`, allowed iff `ext`, lower-cased, is in the category's set (or in either set) |
| FileTypes.DetectFromContent | app.py:62-99 | JPEG, PNG or GIF signature → image; an `ftyp`/`moov`/`mdat` box → video; otherwise video iff larger than 5 MiB; an unreadable file → unknown |
| FileTypes.SignaturesBeatSize | app.py:70-83 | a JPEG header is an image and an `ftyp` box a video, whatever the size |
| FileTypes.ClientBasename | app.py:185-188 | the kept name is the tail after the last `/` or `\`, and contains neither |
| FileTypes.ClientBasenameIsWindowsBasename | app.py:185-188 | cutting at `/` and then at `\` is exactly `ntpath.basename` |
| FileTypes.ClientBasenameOfPath | app.py:185-188 | a client path `folder/leaf` keeps `leaf` |
| FileTypes.MobileRename | app.py:191-195 | iOS names `image.*` and `video.*` are renamed to `mobile_…`; every other name is kept unchanged |
| FileTypes.MobileRenameKeepsExtension | app.py:194-195 | the rename keeps the text after the last dot |
| FileTypes.StoredName | app.py:200-208 | the stored name has at least three characters: the `secure_filename` result when that is long enough, else `mobile_upload_…` |
| FileTypes.UploadType | app.py:214-228 | the MIME type decides first (`image/`, then `video/`), then the extension; when neither settles it, the type is the one read from the content |
| FileTypes.ContentIsLastResort | app.py:214-228 | two uploads that differ only in content get different types only when the MIME type and the extension say nothing |
| Server.Named | app.py:177-178 | the parts kept are exactly those with a non-empty name |
| Server.UploadFiles | app.py:157-264 | no `files` field → 400; only empty names → 400; otherwise one record per named part, in order, all in the new session |
| Server.UploadOne | app.py:182-257 | the record keeps the session id and a stored name of three or more characters; its `fecha` and `hora` are what the extractor finds in the stored name, or empty, and the `hora` is a well-formed `HH:MM:SS` when present; a MIME type with `image/` makes it an image, else one with `video/` a video, else the stored name's extension decides when it is allowed, else the content |
| Server.NamedKeepsOrder | app.py:177-178 | filtering the parts commutes with concatenation, so order is kept |
| Server.UploadedInSession | app.py:210-257 | each record's path ends in its stored file name, and it carries the session id |
| Server.StoredNameHasNoSlash | app.py:200-208 | the stored name never contains `/`, so the file stays inside the session folder |
| Server.MissingKey | app.py:285-290 | an entry is complete iff it has `path`, `filename`, `fecha`, `hora` and `file_type` (`accion` is optional) |
| Server.ExifDateTimeSplits | app.py:311-312 | the EXIF string splits back into the date and the time, with noon for an empty time |
| Server.ProcessItem | app.py:283-344 | an item succeeds iff it is complete, exists, has a date, is an image or video, and the copy and the stamping both succeed; a missing file fails with "Archivo no encontrado" and an empty date with "Fecha requerida"; missing, absent or undated items touch nothing; the stamp goes on the copy, never on the original |
| Server.UnsupportedNeverSucceeds | app.py:325-331 | a type other than image or video fails with "Tipo de archivo no soportado" after the copy |
| Server.ActionIgnored | app.py:289 | `accion` is read but never changes the outcome |
| Server.ProcessAll | app.py:283-344 | one result per entry, in order; one failing entry does not stop the rest |
| Server.ProcessBatch | app.py:266-350 | no body or no `files` → 400; no session → 400; otherwise one result per entry, and the download URL ends with the session id |
| Server.ResultPerItem | app.py:283-344 | an entry's result depends only on the entry, not on its neighbours |
| Server.CatchAll | app.py:422-437 | a path redirects to a download iff it looks like a session id, or ends in `.txt` or `.json` with a stem that does; the session id is the path or that stem; every other path goes to the index |
| Server.LooksLikeUuid | app.py:426 | the uuid test: 36 characters with four dashes; no contract of its own, used by the CatchAll contract |
| Server.SessionFileRoutes | app.py:426-434 | a session id, or `dir/<id>.txt` or `.json`, redirects to that session's download |
| Paths.Basename | media_utils.py:60 | `os.path.basename`: the tail after the last separator, free of separators |
| Paths.BasenameAt | media_utils.py:60 | the basename starts right after the last separator |
| Paths.SplitExt | media_utils.py:60 | `os.path.splitext`: the two parts concatenate back to the path, and the extension is a dot followed by dot- and separator-free text |
| Paths.SplitExtSpec | media_utils.py:60 | an extension is split off only behind a non-dot character of the basename, and always when the basename has a dot after a non-dot |
| Paths.StemOfComposed | media_utils.py:60 | for `dir/stem.ext`, the stem read is `stem` |
| Paths.SplitSimpleName | main_webview.py:227 | `stem.ext` with dot-free parts splits into `stem` and `.ext` |
| Paths.BasenameOfJoin | main_webview.py:254-255 | `join(dir, name)` has basename `name` |
| Text.AfterLast | web/renderer.js:116 | `split(c).pop()`: the tail after the last `c`, free of `c` (the whole string when there is none) |
| Text.TrimStart | main_webview.py:236 | the left half of `strip()`: only whitespace is removed, and the result starts with a non-space |
| Text.TrimEnd | main_webview.py:236 | the right half of `strip()`: only whitespace is removed, and the result ends with a non-space |
| Text.ParseDigits | media_utils.py:15-17 | `int()` of a run of ASCII digits is its decimal value |
| Text.LetterIsNotInt | media_utils.py:29 | `int()` of a string containing a letter raises |
| DesktopApi.Modify | main_webview.py:104-108 | one metadata call is made; the reply is a success naming the input file, or the tool's exception escapes |
| DesktopApi.DateTimeFor | main_webview.py:91-115 | exactly the date, one space and the time: in mode `extraida` the date and time found in the name, noon when no time is found; otherwise the manual date and the manual time, or noon when that is missing or empty |
| DesktopApi.DateTimeSources | main_webview.py:91-97 | in mode `extraida` the manual fields are ignored; in any other mode the file name is |
| DesktopApi.ExtractedTimeDefaults | main_webview.py:94 | a name without a time gets noon |
| DesktopApi.ProcesarArchivo | main_webview.py:89-122 | unknown type → refused, no call; an action other than the type's modify → refused, no call; the modify makes one call on the input file with the date and time of its mode, and the reply raises iff that call fails, succeeds naming the file otherwise |
| DesktopApi.MissingActionModifies | main_webview.py:100-114 | a missing or empty action is the type's modify action |
| DesktopApi.ManualStamp | main_webview.py:95-117 | in manual mode the one call made stamps the input file with exactly the typed date, a space and the typed time, or noon when no time is typed |
| DesktopApi.AutoTipo | main_webview.py:125-133 | image type iff one of five image extensions, video iff one of three video extensions, none otherwise |
| DesktopApi.ProcesarAuto | main_webview.py:124-134 | an unknown extension is refused with its name and makes no call; a known one goes through `procesar_archivo` with the default action |
| DesktopApi.AutoAcceptedIsModified | main_webview.py:124-134 | every accepted file gets one call, on itself, with the date and time of its mode, a video call iff the extension is a video one; it succeeds or the tool's exception escapes |
| DesktopApi.MetaFor | main_webview.py:159-215 | a record keeps its path, carries the extractor's date and time, and has a preview exactly for the eight previewable extensions |
| DesktopApi.ExtraerMetadataBatch | main_webview.py:149-217 | one record per path, in order, each with the extractor's date and time for that path |
| DesktopApi.ResolveDateTime | main_webview.py:231-237 | no date → the clock's date and time; a date and a blank time → noon; otherwise the given pair |
| DesktopApi.ResolvedIsComplete | main_webview.py:231-238 | after the defaults both date and time are non-blank |
| DesktopApi.FrameNamedAfterVideo | main_webview.py:251-255 | the frame is written beside the video as `<stem>.jpg` |
| DesktopApi.FrameResultado | main_webview.py:248-265 | extracting a frame never modifies the video |
| DesktopApi.BatchItem | main_webview.py:239-276 | an unsupported extension calls nothing; any action but `extraer_frame` on a video modifies the video; an image is stamped in place; every metadata call writes the item's date and time |
| DesktopApi.BatchDispatch | main_webview.py:239-276 | on the extension: unsupported calls nothing and gives the refusal message; a video with any action but `extraer_frame` makes one video call; an image makes one image call; every call stamps the item's date and time |
| DesktopApi.FrameSteps | main_webview.py:248-263 | the frame steps never call the video tool on the original, and every metadata call stamps the item's date and time |
| DesktopApi.CheckMarkIffDone | main_webview.py:239-276 | `resultado` starts with ✓ iff the extension is supported and every call made succeeded |
| DesktopApi.BatchRefusesBmpAndGif | main_webview.py:239-276 | `.bmp` and `.gif` are accepted one by one but refused in a batch |
| DesktopApi.OtherActionsModifyVideo | main_webview.py:246-274 | on a video, `extraer_imagen` does what `modificar_video` does; only `extraer_frame` leaves the video alone |
| DesktopApi.BatchEntry | main_webview.py:222-279 | an entry yields a record iff it has a path; the record carries that path, and the record's `resultado` and the calls are those of the item run with the defaulted date and time and the default action |
| DesktopApi.UndatedEntryUsesClock | main_webview.py:231-238 | an entry without a date is stamped with the clock's date and time |
| DesktopApi.DatedEntryStamp | main_webview.py:235-242 | an entry with a date is stamped with it and its own time, or noon for a blank time; an image gets exactly one call |
| DesktopApi.ProcesarBatch | main_webview.py:219-280 | the call raises iff some entry has no path, at the first such entry; the records before it are the entries' records, in order; without a raise there is one record per entry |
| DesktopApi.Entries | main_webview.py:222-278 | one result per entry, in order; its only contract is the per-index definition, and what each entry gives is stated by BatchEntry, ProcesarBatchOfOne and ProcesarBatchAppend |
| DesktopApi.RunEntries | main_webview.py:222-279 | the loop stops at the first entry without a path; each record before it is that entry's record |
| DesktopApi.RunEntriesAppend | main_webview.py:222-279 | a run over two parts, the first all with paths, is the first run followed by the second: records, calls and the raise |
| DesktopApi.ProcesarBatchAppend | main_webview.py:222-279 | a batch splits after any prefix of entries with paths, records and calls concatenated |
| DesktopApi.ProcesarBatchOfOne | main_webview.py:222-279 | a single entry gives its own record and calls, or raises with no call |
| DesktopApi.RaiseKeepsEarlierCalls | main_webview.py:222-279 | when an entry without a path raises, the calls of every entry before it have been made and no later entry runs |
| DesktopUi.SplitAtT | web/renderer.js:427 | the two first pieces of `split("T")`: the first is the prefix up to the first `T` (or all of the text), the second exists iff there is a `T` and runs from after it up to the next `T` or the end |
| DesktopUi.ManualFechaHora | web/renderer.js:423-432 | empty input → two empty strings; otherwise the date is the first piece with each `-` turned into `:` and every other character kept, and the time is the second piece, with `:00` added when it has five characters, or empty when there is none |
| DesktopUi.ManualIsExif | web/renderer.js:423-432 | a `datetime-local` value yields an EXIF date and an `HH:MM:00` time that give the value back |
| DesktopUi.SecondsPassThrough | web/renderer.js:427-430 | a value with seconds (`YYYY-MM-DDTHH:MM:SS`) keeps its time unchanged and gives the same EXIF date as its minute prefix |
| DesktopUi.DatetimeLocalRoundTrip | web/renderer.js:423-432 | an EXIF date and minute time written into the picker are read back unchanged |
| DesktopUi.FileIcon | web/renderer.js:385-399 | image, video, audio and document icons exactly for their lists of extensions in any case, the generic icon otherwise |
| DesktopUi.FileIconIgnoresCase | web/renderer.js:386 | the icon depends only on the lower-cased extension |
| DesktopUi.RowExt | web/renderer.js:116 | the row's extension is dot-free and no longer than the path |
| DesktopUi.Rendered | web/renderer.js:115-219 | the table starts with empty date and time inputs, and a select exactly on `mp4`/`mov`/`avi` rows |
| DesktopUi.RowAction | web/renderer.js:261-266 | non-video rows send `modificar_imagen`; video rows send their select's value |
| DesktopUi.Payload | web/renderer.js:257-274 | one entry per row, in order, with the row's path, its own date and time inputs and its action |
| DesktopUi.NoFrameRequested | web/renderer.js:146-150 | the desktop table never asks for `extraer_frame` |
| DesktopUi.VideoRowsModifyVideo | web/renderer.js:146-150 | every video row of the button payload ends up modifying the video, whatever the select shows |
| DesktopUi.PayloadIsProcessed | web/renderer.js:257-279 | the button payload never makes `procesar_batch` raise, and it yields one record per row with the row's path |
| DesktopUi.KeptAreFirsts | web/renderer.js:522-527 | the `seen`-set filter keeps exactly the first occurrence of each path, in increasing order |
| DesktopUi.FirstOccurrences | web/renderer.js:522-527 | the kept indices are increasing, are first occurrences, and include every first occurrence |
| DesktopUi.Dedup | web/renderer.js:520-528 | the deduplicated rows are the original rows at the first occurrences, in order |
| DesktopUi.DedupNoDuplicates | web/renderer.js:520-528 | no two deduplicated rows share a path |
| DesktopUi.DedupKeepsEveryPath | web/renderer.js:520-528 | every path of the table survives deduplication |
| DesktopUi.DedupIdempotent | web/renderer.js:520-528 | deduplicating twice is deduplicating once |
| DesktopUi.AllFirst | web/renderer.js:520-528 | a table without repeated paths is left unchanged |
| DesktopUi.SubmitRowsAsWritten | web/renderer.js:537-543 | deduplicated row `k` carries its own path, no action, and the date and time of table row `k` (empty when that row does not exist) |
| DesktopUi.SubmitRowsMisaligned | web/renderer.js:537-543 | with paths `a, a, b` the entry for `b` carries the date typed on the second `a` row |
| DesktopUi.SubmitRows | web/renderer.js:520-543 | the corrected handler: one entry per distinct path, in order |
| DesktopUi.SubmitRowsCarryOwnInputs | web/renderer.js:520-543 | in the corrected handler every entry carries the date and time of the first table row showing its path, the row deduplication keeps |
| DesktopUi.AsWrittenAgreesWithoutRepeats | web/renderer.js:520-543 | when no path is repeated, the handler as written sends what the corrected one does |
| DesktopUi.OutcomeOf | web/renderer.js:317-322 | a backend record is seen with its path, no error, and its `resultado` |
| DesktopUi.IsSuccessfulAsWritten | web/renderer.js:319-322 | `esExitoso` as written; no contract of its own, stated by RefusalCounted, RefusedCountsAsSuccess and SummaryOfOne |
| DesktopUi.RefusedCountsAsSuccess | web/renderer.js:319-322 | a batch item with a `.bmp` or `.gif` extension, on any path without `Error` in it, is counted as a success as written, and not by the corrected test |
| DesktopUi.RefusalCounted | web/renderer.js:319-322 | the refusal message never starts with ✓, and it counts as a success as written iff the path has no `Error` in it |
| DesktopUi.SuccessIffDone | web/renderer.js:319-325 | the corrected test counts an item iff its extension is supported and every call it made succeeded |
| DesktopUi.SuccessIffMarked | web/renderer.js:319-322 | the corrected test is exactly "the `resultado` starts with ✓" |
| DesktopUi.Tally | web/renderer.js:314-325 | the two counters add up to the number of flags and are the numbers of true and of false flags; each is 0 iff the other kind is absent |
| DesktopUi.TallyAdds | web/renderer.js:314-325 | counting over two lists adds the counts |
| DesktopUi.Summary | web/renderer.js:314-325 | as written: `exitosos` plus `fallidos` is the number of results; no success iff no result passes the `Error`-free test; no failure iff all pass it |
| DesktopUi.SummaryCorrected | web/renderer.js:314-325 | the same counters with the corrected test, a `resultado` that starts with ✓ |
| DesktopUi.SummaryOfOne | web/renderer.js:318-325 | one result adds one to `exitosos` iff it passes the test, and one to `fallidos` otherwise |
| DesktopUi.SummaryAdds | web/renderer.js:317-325 | both tallies add up over concatenated result lists, so `exitosos` counts the results that pass |
| DesktopUi.GifMiscounted | web/renderer.js:319-325 | the refusal of `x.gif` counts as (1 success, 0 failures) as written, and (0, 1) corrected |
| DesktopUi.ClickProcesar | web/renderer.js:518-549 | the button handler always sends the payload of all rows; the document handler acts only when the click lands on the button itself: it deduplicates `batchMeta`, writes each kept entry's inputs into it, and sends exactly those entries |
| DesktopUi.WriteInputs | web/renderer.js:537-542 | kept entry `k` keeps its path and preview and gets the date and time of table row `k` |
| DesktopUi.WrittenRowsAreSent | web/renderer.js:528-543 | the rows sent are the kept `batchMeta` entries with their inputs written in |
| DesktopUi.Sent | web/renderer.js:543 | a sent entry carries its path, date and time, and no action |
| DesktopUi.ShowResults | web/renderer.js:297-369 | showing results empties `batchMeta`; the counters cover all results and are the as-written tally |
| DesktopUi.Clear | web/renderer.js:2-4 | clearing empties `batchMeta`, and the table renders no rows |
| WebUi.FileIcon | static/app.js:227-240 | image icon exactly for five extensions, video icon for three, file icon otherwise, with no case folding |
| WebUi.RowIcon | static/app.js:129 | the row icon depends on the lower-cased text after the last dot |
| WebUi.IconIsCaseSensitive | static/app.js:239 | `JPG` gets the generic icon here but the image icon in the desktop front end |
| WebUi.IconsAgree | static/app.js:227-240 | where this front end shows an image or video icon, the desktop one shows the same kind |
| WebUi.AfterUpload | static/app.js:72-78 | a successful upload replaces the batch and the session; an error leaves both unchanged |
| WebUi.Prefill | static/app.js:160-207 | the inputs start with the extracted date and time, and a select appears exactly on video rows |
| WebUi.Entry | static/app.js:249-262 | a row sends its path, name, type, its own inputs, and `modificar` when it has no select |
| WebUi.ProcessBatch | static/app.js:242-277 | an empty batch gives the error and no request; otherwise one entry per row, in order, under the current session |
| WebUi.UneditedSendsExtracted | static/app.js:249-262 | an untouched table sends the dates and times extracted at upload |
| WebUi.ActionsSent | static/app.js:160-165 | video rows send `modificar_video` or `extraer_frame`; other rows send `modificar` |
| WebUi.OneResultPerRow | static/app.js:274-283 | with a session, the server answers with one result per row, in order, under the row's file name |
| WebUi.SelectIgnored | static/app.js:252-260 | the chosen action never changes what the server does |
| WebUi.CountWhere | static/app.js:310-311 | a filter count is at most the length, and is 0 iff no result has the wanted flag |
| WebUi.CountsCoverAll | static/app.js:310-311 | successes plus errors are all the results |
| WebUi.ShowBatchResults | static/app.js:307-356 | the two counts cover all results; the download link appears iff some result succeeded, and it is the server's URL |
| WebUi.ClearBatch | static/app.js:365-367 | clearing empties the batch and forgets the session |
| WebUi.ClearedSendsNothing | static/app.js:243-246 | after clearing, processing shows the error and sends nothing |

## Left out

- `persian_date_to_gregorian` (media_utils.py:33-46) is a parameter of the extractor. The JalaliDate conversion and its 1404/1 one-day adjustment are not modelled.
- Digits, letters and word characters are ASCII only. Python's `\d`, `\w` and `int()` also accept other Unicode digits.
- `os.path` is modelled without Windows drive letters or UNC prefixes.
- Thumbnail generation (PIL, ffmpeg) is reduced to whether it raises. The previews and the server's SVG fallback are not modelled. Neither is the `thumb` field of an upload record.
- exiftool, ffmpeg, `shutil.copy2` and `os.makedirs` are reduced to which calls are made and whether each raises. What they write is not modelled.
- The clock, `uuid4` and Werkzeug's `secure_filename` are parameters. The upload's calls to them are not modelled.
- The `except` that turns an extractor exception into empty strings (main_webview.py:160-163, app.py:233-238) cannot trigger in the model, because extraction on a string never fails.
- JavaScript property lookups that hit the object prototype (`iconMap["constructor"]`) are not modelled. The icon map is a plain map.
- The two `procesar_batch` calls of one click in the desktop front end run concurrently. The model returns both requests and does not interleave their effects.
- The target of a desktop click is reduced to one flag: on the button itself, or on the icon inside it. Clicks elsewhere run neither handler and are not modelled.
- The button handler's spinner, the disabled button and its error message (web/renderer.js:251-289) are not modelled.
- The download route, `get_file_path`, the single-file listeners and the service worker are outside the modelled core.
- DesktopApi.ProcesarBatch: an entry whose path is present but not a string is not modelled. Paths are strings or absent.
- DesktopApi.ProcesarBatch: the exception raised for an entry without a path is a flag. Its message is not modelled.
- DesktopApi.ProcesarBatch: a `fecha` or `hora` that is not a string is not modelled. Such a `hora` would make `hora.strip()` raise inside the item's `try`, giving `❌ Error: …`. The values are strings or absent.
- Server.ProcessAll: returns the results of the items only. The effects of each item are stated by Server.ProcessItem.
- Server.ProcessItem: a `fecha` or `hora` that is not a string is not modelled. The values are strings or absent.

## Findings

| source | as written | input that shows it | evidently intended | confidence | as-written member | corrected member |
|---|---|---|---|---|---|---|
| web/renderer.js:319-322 | a result counts as a success when its `resultado` does not contain `Error` | batch item `photo.gif`: `procesar_batch` answers "Tipo de archivo no soportado: photo.gif", which is counted as a success | count only results that report the work done, i.e. that start with ✓ | not executed | DesktopUi.GifMiscounted | DesktopUi.SummaryCorrected |
| web/renderer.js:537-543 | after deduplication, row `k` reads the inputs `fecha-k` and `hora-k` of table row `k` | rows `a.jpg, a.jpg, b.jpg`: `b.jpg` is sent with the date typed on the second `a.jpg` row | each kept row reads the inputs of the table row it came from | not executed | DesktopUi.SubmitRowsMisaligned | DesktopUi.SubmitRowsCarryOwnInputs |

=== FILE: desktop_api.dfy ===
/** The Python side of the desktop application (main_webview.py, class `Api`):
    single-file processing, the batch preview and the batch processing. Calls
    into exiftool and ffmpeg are returned as data and their failures come from
    the host; the clock and the Persian calendar conversion are parameters. */
module DesktopApi {
  import opened Wrappers
  import opened Text
  import Paths
  import FilenameDate

  const DefaultTime: string := "12:00:00"
  const CheckMark: string := "\U{2713}"
  const CrossMark: string := "\U{274C}"
  const WarningSign: string := "\U{26A0}\U{FE0F}"

  /** Calls into the external tools and the file system. */
  datatype Call =
    | ApplyImage(target: string, datetime: string)
    | ApplyVideo(target: string, datetime: string)
    | ExtractFrame(video: string, image: string)
    | MakeDirs(dir: string)
    | Thumbnail(source: string)

  /** The host: its `os.path` flavour, which folders exist, the message of the
      exception each call raises (if any), and the Persian conversion. */
  datatype Tools = Tools(flavor: Paths.Flavor, dirExists: string -> bool, fails: Call -> Option<string>,
                         toGregorian: string -> Option<string>)

  /** What a bridged method gives JavaScript: a `{success, msg}` value, or an
      exception that escapes to the caller. */
  datatype Reply = Reply(success: bool, msg: string) | Raised(error: string)

  /** Python's `f"{x}"` of a string that may be `None`. */
  function Show(x: Option<string>): string {
    match x
    case Some(s) => s
    case None => "None"
  }

  /** `x or "12:00:00"`. */
  function TimeOrDefault(x: Option<string>): string {
    if x.None? || x.value == "" then DefaultTime else x.value
  }

  /** The lower-cased extension, dot included (`os.path.splitext(p)[1].lower()`). */
  function Ext(f: Paths.Flavor, path: string): string {
    Lower(Paths.SplitExt(f, path).1)
  }

  // ---------------------------------------------------------------------
  // procesar_archivo and _procesar_archivo_auto
  // ---------------------------------------------------------------------

  /** The `"fecha hora"` string `procesar_archivo` writes: from the file name in
      mode `extraida`, from the manual fields otherwise. */
  function DateTimeFor(inputPath: string, modo: string, fechaManual: Option<string>,
                       horaManual: Option<string>, tools: Tools): (r: string)
    ensures var found := FilenameDate.ExtractDateTime(tools.flavor, inputPath, tools.toGregorian);
            modo == "extraida" ==> StartsWith(r, Show(found.0) + " ")
    ensures var found := FilenameDate.ExtractDateTime(tools.flavor, inputPath, tools.toGregorian);
            modo == "extraida" && found.1.Some? && found.1.value != "" ==> EndsWith(r, " " + found.1.value)
    ensures modo != "extraida" ==> StartsWith(r, Show(fechaManual) + " ")
    ensures modo != "extraida" && (horaManual.None? || horaManual.value == "") ==> EndsWith(r, " " + DefaultTime)
    ensures modo != "extraida" && horaManual.Some? && horaManual.value != "" ==> EndsWith(r, " " + horaManual.value)
    ensures var found := FilenameDate.ExtractDateTime(tools.flavor, inputPath, tools.toGregorian);
            modo == "extraida" && (found.1.None? || found.1.value == "") ==> EndsWith(r, " " + DefaultTime)
    // a single space between the two: nothing else is written
    ensures var found := FilenameDate.ExtractDateTime(tools.flavor, inputPath, tools.toGregorian);
            modo == "extraida" ==> |r| == |Show(found.0)| + 1 + |TimeOrDefault(found.1)|
    ensures modo != "extraida" ==> |r| == |Show(fechaManual)| + 1 + |TimeOrDefault(horaManual)|
  {
    var pair := if modo == "extraida" then FilenameDate.ExtractDateTime(tools.flavor, inputPath, tools.toGregorian)
                else (fechaManual, horaManual);
    DatePlusTime(Show(pair.0), TimeOrDefault(pair.1))
  }

  /** `f"{fecha} {hora}"`. */
  function DatePlusTime(fecha: string, hora: string): (r: string)
    ensures StartsWith(r, fecha + " ")
    ensures EndsWith(r, " " + hora)
    ensures |r| == |fecha| + 1 + |hora|
  {
    var r := fecha + " " + hora;
    assert r[..|fecha| + 1] == fecha + " ";
    assert r[|r| - |hora| - 1..] == " " + hora;
    r
  }

  /** In mode `extraida` the manual fields are ignored; in any other mode the
      file name is. */
  lemma DateTimeSources(p1: string, p2: string, modo: string, f1: Option<string>, h1: Option<string>,
                        f2: Option<string>, h2: Option<string>, tools: Tools)
    ensures modo == "extraida" ==> DateTimeFor(p1, modo, f1, h1, tools) == DateTimeFor(p1, modo, f2, h2, tools)
    ensures modo != "extraida" ==> DateTimeFor(p1, modo, f1, h1, tools) == DateTimeFor(p2, modo, f1, h1, tools)
  {
  }

  /** In mode `extraida` a name without a time still gets noon. */
  lemma ExtractedTimeDefaults(inputPath: string, tools: Tools)
    requires FilenameDate.ExtractDateTime(tools.flavor, inputPath, tools.toGregorian).1.None?
    ensures EndsWith(DateTimeFor(inputPath, "extraida", None, None, tools), " " + DefaultTime)
  {
  }

  /** The action that runs when none is given. */
  function ActionOrDefault(accion: Option<string>, default: string): string {
    if accion.None? || accion.value == "" then default else accion.value
  }

  /** Runs one metadata call: success naming the file, or the call's
      exception escapes. The call is made either way. */
  function Modify(call: Call, kind: string, inputPath: string, tools: Tools): (r: (Reply, seq<Call>))
    ensures r.1 == [call]
    ensures r.0.Raised? <==> tools.fails(call).Some?
    ensures r.0.Reply? ==> r.0.success && EndsWith(r.0.msg, inputPath)
  {
    match tools.fails(call)
    case Some(e) => (Raised(e), [call])
    case None => (Reply(true, CheckMark + " Metadatos aplicados a " + kind + ": " + inputPath), [call])
  }

  /** `Api.procesar_archivo`: the reply and the calls it made. */
  function ProcesarArchivo(inputPath: string, tipo: string, modo: string, fechaManual: Option<string>,
                           horaManual: Option<string>, accion: Option<string>, tools: Tools): (r: (Reply, seq<Call>))
    ensures tipo != "video" && tipo != "imagen" ==> r == (Reply(false, CrossMark + " Tipo de archivo no soportado."), [])
    ensures tipo == "video" && ActionOrDefault(accion, "modificar_video") != "modificar_video" ==>
              r == (Reply(false, CrossMark + " Acción no soportada para video."), [])
    ensures tipo == "imagen" && ActionOrDefault(accion, "modificar_imagen") != "modificar_imagen" ==>
              r == (Reply(false, CrossMark + " Acción no soportada para imagen."), [])
    ensures tipo == "video" && ActionOrDefault(accion, "modificar_video") == "modificar_video" ==>
              r.1 == [ApplyVideo(inputPath, DateTimeFor(inputPath, modo, fechaManual, horaManual, tools))]
    ensures tipo == "imagen" && ActionOrDefault(accion, "modificar_imagen") == "modificar_imagen" ==>
              r.1 == [ApplyImage(inputPath, DateTimeFor(inputPath, modo, fechaManual, horaManual, tools))]
    ensures r.0.Raised? <==> r.1 != [] && tools.fails(r.1[0]).Some?
    ensures r.0.Reply? && r.0.success <==> r.1 != [] && tools.fails(r.1[0]).None?
    ensures r.0.Reply? && r.0.success ==> EndsWith(r.0.msg, inputPath)
  {
    var datetime := DateTimeFor(inputPath, modo, fechaManual, horaManual, tools);
    if tipo == "video" then
      if ActionOrDefault(accion, "modificar_video") == "modificar_video" then
        Modify(ApplyVideo(inputPath, datetime), "video", inputPath, tools)
      else (Reply(false, CrossMark + " Acción no soportada para video."), [])
    else if tipo == "imagen" then
      if ActionOrDefault(accion, "modificar_imagen") == "modificar_imagen" then
        Modify(ApplyImage(inputPath, datetime), "imagen", inputPath, tools)
      else (Reply(false, CrossMark + " Acción no soportada para imagen."), [])
    else (Reply(false, CrossMark + " Tipo de archivo no soportado."), [])
  }

  /** A missing or empty action is the modify action of the type. */
  lemma MissingActionModifies(inputPath: string, tipo: string, modo: string, fm: Option<string>,
                              hm: Option<string>, tools: Tools)
    requires tipo == "video" || tipo == "imagen"
    ensures var act := if tipo == "video" then "modificar_video" else "modificar_imagen";
            ProcesarArchivo(inputPath, tipo, modo, fm, hm, None, tools)
              == ProcesarArchivo(inputPath, tipo, modo, fm, hm, Some(""), tools)
              == ProcesarArchivo(inputPath, tipo, modo, fm, hm, Some(act), tools)
  {
  }

  /** In manual mode the file is stamped with the typed date and time, or
      with noon when no time was typed. */
  lemma ManualStamp(inputPath: string, tipo: string, fm: string, hm: Option<string>, tools: Tools)
    requires tipo == "video" || tipo == "imagen"
    ensures var r := ProcesarArchivo(inputPath, tipo, "manual", Some(fm), hm, None, tools);
            && |r.1| == 1 && r.1[0].target == inputPath
            && r.1[0].datetime == fm + " " + (if hm.None? || hm.value == "" then DefaultTime else hm.value)
  {
  }

  const AutoImageExtensions: set<string> := {".jpg", ".jpeg", ".png", ".bmp", ".gif"}
  const AutoVideoExtensions: set<string> := {".mp4", ".mov", ".avi"}

  /** The `tipo` `_procesar_archivo_auto` passes on for an extension, if any. */
  function AutoTipo(ext: string): (r: Option<string>)
    ensures r == Some("imagen") <==> ext in AutoImageExtensions
    ensures r == Some("video") <==> ext in AutoVideoExtensions
    ensures r.None? <==> ext !in AutoImageExtensions + AutoVideoExtensions
  {
    if ext in AutoImageExtensions then Some("imagen")
    else if ext in AutoVideoExtensions then Some("video")
    else None
  }

  /** `Api._procesar_archivo_auto`: the type comes from the extension; an
      unknown extension is refused before anything is called. */
  function ProcesarAuto(inputPath: string, modo: string, fechaManual: Option<string>,
                        horaManual: Option<string>, tools: Tools): (r: (Reply, seq<Call>))
    ensures var tipo := AutoTipo(Ext(tools.flavor, inputPath));
            tipo.None? ==> r == (Reply(false, CrossMark + " Extensión no soportada: " + Ext(tools.flavor, inputPath)), [])
    ensures var tipo := AutoTipo(Ext(tools.flavor, inputPath));
            tipo.Some? ==> r == ProcesarArchivo(inputPath, tipo.value, modo, fechaManual, horaManual, None, tools)
  {
    var ext := Ext(tools.flavor, inputPath);
    match AutoTipo(ext)
    case None => (Reply(false, CrossMark + " Extensión no soportada: " + ext), [])
    case Some(tipo) => ProcesarArchivo(inputPath, tipo, modo, fechaManual, horaManual, None, tools)
  }

  /** Every file the automatic path accepts is stamped (never refused as an
      unsupported action) with the date and time of its mode: it either
      succeeds or the tool's exception escapes. */
  lemma AutoAcceptedIsModified(inputPath: string, modo: string, fm: Option<string>, hm: Option<string>, tools: Tools)
    requires Ext(tools.flavor, inputPath) in AutoImageExtensions + AutoVideoExtensions
    ensures var r := ProcesarAuto(inputPath, modo, fm, hm, tools);
            && (r.0.Raised? || (r.0.success && EndsWith(r.0.msg, inputPath)))
            && |r.1| == 1 && r.1[0].target == inputPath
            && r.1[0].datetime == DateTimeFor(inputPath, modo, fm, hm, tools)
            && (r.1[0].ApplyVideo? <==> Ext(tools.flavor, inputPath) in AutoVideoExtensions)
  {
  }

  // ---------------------------------------------------------------------
  // extraer_metadata_batch
  // ---------------------------------------------------------------------

  /** A preview: a generated JPEG thumbnail or a labelled placeholder. */
  datatype Thumb = Generated | Placeholder(caption: string)

  /** One record of `extraer_metadata_batch`; `fecha` and `hora` may be `None`. */
  datatype MetaRecord = MetaRecord(path: string, fecha: Option<string>, hora: Option<string>,
                                   thumb: Option<Thumb>, thumbLog: string)

  const PreviewVideoExtensions: set<string> := {".mp4", ".mov", ".avi"}
  const PreviewImageExtensions: set<string> := {".jpg", ".jpeg", ".png", ".bmp", ".gif"}

  /** The record of one path (main_webview.py:159-215). */
  function MetaFor(path: string, tools: Tools): (r: MetaRecord)
    ensures r.path == path
    ensures r.thumb.None? <==> Ext(tools.flavor, path) !in PreviewVideoExtensions + PreviewImageExtensions
    ensures r.thumb.None? ==> r.thumbLog == ""
    ensures (r.fecha, r.hora) == FilenameDate.ExtractDateTime(tools.flavor, path, tools.toGregorian)
  {
    var found := FilenameDate.ExtractDateTime(tools.flavor, path, tools.toGregorian);
    var ext := Ext(tools.flavor, path);
    var (thumb, log) :=
      if ext in PreviewVideoExtensions || ext in PreviewImageExtensions then
        match tools.fails(Thumbnail(path))
        case None => (Some(Generated), "Imagen lista para previsualizar.")
        case Some(e) =>
          (Some(Placeholder(if ext in PreviewVideoExtensions then "Sin miniatura" else "Sin preview")),
           CrossMark + " Error leyendo imagen: " + e)
      else (None, "");
    MetaRecord(path, found.0, found.1, thumb, log)
  }

  /** `Api.extraer_metadata_batch`: one record per path, in order. */
  function ExtraerMetadataBatch(paths: seq<string>, tools: Tools): (r: seq<MetaRecord>)
    ensures |r| == |paths|
    ensures forall i :: 0 <= i < |paths| ==> r[i].path == paths[i]
    ensures forall i :: 0 <= i < |paths| ==>
              (r[i].fecha, r[i].hora) == FilenameDate.ExtractDateTime(tools.flavor, paths[i], tools.toGregorian)
  {
    seq(|paths|, i requires 0 <= i < |paths| => MetaFor(paths[i], tools))
  }

  // ---------------------------------------------------------------------
  // procesar_batch
  // ---------------------------------------------------------------------

  /** The date and the time read from the clock (two `datetime.now()` calls). */
  datatype Clock = Clock(date: string, time: string) {
    /** What `strftime` yields: a non-empty date and a non-blank time. */
    predicate Valid() {
      date != "" && Strip(time) != ""
    }
  }

  /** One entry of `archivos`; absent keys are `None`. */
  datatype Archivo = Archivo(path: Option<string>, fecha: Option<string>, hora: Option<string>,
                             accion: Option<string>)

  datatype BatchRecord = BatchRecord(path: string, resultado: string)

  predicate Blank(x: Option<string>) {
    x.None? || x.value == "" || Strip(x.value) == ""
  }

  /** `fecha` and `hora` after the defaults of main_webview.py:231-237. */
  function ResolveDateTime(fecha: Option<string>, hora: Option<string>, clock: Clock): (r: (string, Option<string>))
    ensures clock.Valid() && (fecha.None? || fecha.value == "") ==> r == (clock.date, Some(clock.time))
    ensures fecha.Some? && fecha.value != "" && Blank(hora) ==> r == (fecha.value, Some(DefaultTime))
    ensures fecha.Some? && fecha.value != "" && !Blank(hora) ==> r == (fecha.value, hora)
  {
    var (f, h) := if fecha.None? || fecha.value == "" then (clock.date, Some(clock.time)) else (fecha.value, hora);
    if f != "" && Blank(h) then (f, Some(DefaultTime)) else (f, h)
  }

  /** Once a valid clock is at hand, the date and the time are both filled in. */
  lemma ResolvedIsComplete(fecha: Option<string>, hora: Option<string>, clock: Clock)
    requires clock.Valid()
    ensures var r := ResolveDateTime(fecha, hora, clock);
            r.0 != "" && r.1.Some? && Strip(r.1.value) != ""
  {
    TrimOfDefault();
  }

  lemma TrimOfDefault()
    ensures Strip(DefaultTime) == DefaultTime
  {
    TrimOfNoSpace(DefaultTime);
  }

  const BatchImageExtensions: set<string> := {".jpg", ".jpeg", ".png"}
  const BatchVideoExtensions: set<string> := {".mp4", ".mov", ".avi", ".mkv", ".wmv", ".flv", ".webm"}

  /** Where `extraer_frame` writes the frame: `<dirname>/<stem>.jpg`. */
  function FrameOutput(f: Paths.Flavor, path: string): string {
    Paths.Join(f, Paths.Dirname(f, path), Paths.Stem(f, path) + ".jpg")
  }

  /** The frame is a JPEG named after the video. */
  lemma FrameNamedAfterVideo(f: Paths.Flavor, path: string)
    ensures Paths.Basename(f, FrameOutput(f, path)) == Paths.Stem(f, path) + ".jpg"
  {
    Paths.StemNoSep(f, path);
    JpgBeside(f, Paths.Dirname(f, path), Paths.Stem(f, path));
  }

  lemma JpgBeside(f: Paths.Flavor, dir: string, stem: string)
    requires Paths.NoSep(f, stem)
    ensures Paths.Basename(f, Paths.Join(f, dir, stem + ".jpg")) == stem + ".jpg"
  {
    assert ".jpg" == ['.', 'j', 'p', 'g'];
    Paths.JoinNoSep(f, stem, ".jpg");
    Paths.BasenameOfJoin(f, dir, stem + ".jpg");
  }

  /** Every metadata call in `calls` writes `datetime`. */
  predicate StampsWith(calls: seq<Call>, datetime: string) {
    forall c :: c in calls && (c.ApplyImage? || c.ApplyVideo?) ==> c.datetime == datetime
  }

  /** Frame extraction: create the folder if needed, extract, then stamp the frame. */
  function FrameResultado(path: string, datetime: string, tools: Tools): (r: (string, seq<Call>))
    ensures ApplyVideo(path, datetime) !in r.1
    ensures StampsWith(r.1, datetime)
  {
    FrameSteps(path, Paths.Dirname(tools.flavor, path), FrameOutput(tools.flavor, path), datetime, tools)
  }

  /** The steps of frame extraction into folder `dir` and file `out`. */
  function FrameSteps(path: string, dir: string, out: string, datetime: string, tools: Tools)
    : (r: (string, seq<Call>))
    ensures ApplyVideo(path, datetime) !in r.1
    ensures StampsWith(r.1, datetime)
  {
    var mk := if tools.dirExists(dir) then [] else [MakeDirs(dir)];
    var mkError := if tools.dirExists(dir) then None else tools.fails(MakeDirs(dir));
    match mkError
    case Some(e) => (CrossMark + " Error extrayendo frame: " + e, mk)
    case None =>
      match tools.fails(ExtractFrame(path, out))
      case Some(e) => (CrossMark + " Error extrayendo frame: " + e, mk + [ExtractFrame(path, out)])
      case None =>
        var calls := mk + [ExtractFrame(path, out), ApplyImage(out, datetime)];
        match tools.fails(ApplyImage(out, datetime))
        case Some(e) => (CrossMark + " Error metadatos frame: " + e, calls)
        case None => (CheckMark + " Frame extraído y metadatos aplicados: " + out, calls)
  }

  /** The `resultado` of one item whose path is known, and the calls it made. */
  function BatchItem(path: string, accion: string, datetime: string, tools: Tools): (r: (string, seq<Call>))
    ensures Ext(tools.flavor, path) !in BatchImageExtensions + BatchVideoExtensions ==>
              r == ("Tipo de archivo no soportado: " + path, [])
    ensures Ext(tools.flavor, path) in BatchVideoExtensions && accion != "extraer_frame" ==>
              r.1 == [ApplyVideo(path, datetime)]
    ensures Ext(tools.flavor, path) in BatchImageExtensions ==> r.1 == [ApplyImage(path, datetime)]
    ensures StampsWith(r.1, datetime)
  {
    BatchDispatch(Ext(tools.flavor, path), path, accion, datetime, tools)
  }

  /** The dispatch of one batch item once its extension `ext` is known. */
  function BatchDispatch(ext: string, path: string, accion: string, datetime: string, tools: Tools)
    : (r: (string, seq<Call>))
    ensures ext !in BatchImageExtensions + BatchVideoExtensions ==>
              r == ("Tipo de archivo no soportado: " + path, [])
    ensures ext in BatchVideoExtensions && accion != "extraer_frame" ==> r.1 == [ApplyVideo(path, datetime)]
    ensures ext in BatchImageExtensions ==> r.1 == [ApplyImage(path, datetime)]
    ensures StampsWith(r.1, datetime)
  {
    if ext in BatchImageExtensions then
      var call := ApplyImage(path, datetime);
      match tools.fails(call)
      case Some(e) => (CrossMark + " Error metadatos imagen: " + e, [call])
      case None => (CheckMark + " Metadatos aplicados a imagen: " + path, [call])
    else if ext in BatchVideoExtensions then
      if accion == "extraer_frame" then FrameResultado(path, datetime, tools)
      else
        var call := ApplyVideo(path, datetime);
        match tools.fails(call)
        case Some(e) => (WarningSign + " No se pudieron modificar los metadatos del video: " + e, [call])
        case None => (CheckMark + " Metadatos aplicados a video: " + path, [call])
    else ("Tipo de archivo no soportado: " + path, [])
  }

  /** A `resultado` starts with the check mark exactly when the extension is
      handled and every call it made succeeded. */
  lemma CheckMarkIffDone(path: string, accion: string, datetime: string, tools: Tools)
    ensures var r := BatchItem(path, accion, datetime, tools);
            StartsWith(r.0, CheckMark) <==>
              Ext(tools.flavor, path) in BatchImageExtensions + BatchVideoExtensions
              && forall c :: c in r.1 ==> tools.fails(c).None?
  {
    DispatchCheckMark(Ext(tools.flavor, path), path, accion, datetime, tools);
  }

  lemma DispatchCheckMark(ext: string, path: string, accion: string, datetime: string, tools: Tools)
    ensures var r := BatchDispatch(ext, path, accion, datetime, tools);
            StartsWith(r.0, CheckMark) <==>
              ext in BatchImageExtensions + BatchVideoExtensions && forall c :: c in r.1 ==> tools.fails(c).None?
  {
    MarksDiffer();
    if ext in BatchImageExtensions {
      SingleCallCheckMark(BatchDispatch(ext, path, accion, datetime, tools), ApplyImage(path, datetime), tools);
    } else if ext in BatchVideoExtensions && accion == "extraer_frame" {
      FrameCheckMark(path, datetime, tools);
    } else if ext in BatchVideoExtensions {
      SingleCallCheckMark(BatchDispatch(ext, path, accion, datetime, tools), ApplyVideo(path, datetime), tools);
    }
  }

  /** The three marks and the refusal message start with different characters. */
  lemma MarksDiffer()
    ensures CrossMark[0] != CheckMark[0] && WarningSign[0] != CheckMark[0] && "T"[0] != CheckMark[0]
  {
  }

  /** An outcome of one call is marked exactly when that call succeeded. */
  lemma SingleCallCheckMark(r: (string, seq<Call>), call: Call, tools: Tools)
    requires r.1 == [call]
    requires tools.fails(call).None? ==> StartsWith(r.0, CheckMark)
    requires tools.fails(call).Some? ==> !StartsWith(r.0, CheckMark)
    ensures StartsWith(r.0, CheckMark) <==> forall c :: c in r.1 ==> tools.fails(c).None?
  {
    assert call in r.1;
  }

  /** Frame extraction is marked exactly when every step it took succeeded. */
  lemma FrameCheckMark(path: string, datetime: string, tools: Tools)
    ensures var r := FrameResultado(path, datetime, tools);
            StartsWith(r.0, CheckMark) <==> forall c :: c in r.1 ==> tools.fails(c).None?
  {
    FrameStepsCheckMark(path, Paths.Dirname(tools.flavor, path), FrameOutput(tools.flavor, path), datetime, tools);
  }

  lemma FrameStepsCheckMark(path: string, dir: string, out: string, datetime: string, tools: Tools)
    ensures var r := FrameSteps(path, dir, out, datetime, tools);
            StartsWith(r.0, CheckMark) <==> forall c :: c in r.1 ==> tools.fails(c).None?
  {
    MarksDiffer();
    assert MakeDirs(dir) in [MakeDirs(dir)];
    assert ExtractFrame(path, out) in [ExtractFrame(path, out)];
    assert ApplyImage(out, datetime) in [ExtractFrame(path, out), ApplyImage(out, datetime)];
  }

  /** `.bmp` and `.gif` files, which the single-file path accepts as images,
      are reported as unsupported by the batch. */
  lemma BatchRefusesBmpAndGif(stem: string, ext: string, accion: string, datetime: string, tools: Tools)
    requires ext == "bmp" || ext == "gif"
    requires '.' !in stem && stem != [] && Paths.NoSep(tools.flavor, stem)
    ensures var path := stem + "." + ext;
            && Ext(tools.flavor, path) in AutoImageExtensions
            && BatchItem(path, accion, datetime, tools) == ("Tipo de archivo no soportado: " + path, [])
  {
    BmpOrGifExt(stem, ext, tools.flavor);
    RefusedExt(stem + "." + ext, accion, datetime, tools);
  }

  lemma RefusedExt(path: string, accion: string, datetime: string, tools: Tools)
    requires Ext(tools.flavor, path) == ".bmp" || Ext(tools.flavor, path) == ".gif"
    ensures Ext(tools.flavor, path) in AutoImageExtensions
    ensures BatchItem(path, accion, datetime, tools) == ("Tipo de archivo no soportado: " + path, [])
  {
    assert Ext(tools.flavor, path) !in BatchImageExtensions + BatchVideoExtensions;
  }

  lemma BmpOrGifExt(stem: string, ext: string, f: Paths.Flavor)
    requires ext == "bmp" || ext == "gif"
    requires '.' !in stem && stem != [] && Paths.NoSep(f, stem)
    ensures Ext(f, stem + "." + ext) == "." + ext
  {
    PlainExtension(f, ext);
    Paths.SplitSimpleName(f, stem, ext);
    LowerDotted(ext);
  }

  lemma PlainExtension(f: Paths.Flavor, ext: string)
    requires ext == "bmp" || ext == "gif"
    ensures '.' !in ext && Paths.NoSep(f, ext)
  {
  }

  lemma LowerDotted(ext: string)
    requires ext == "bmp" || ext == "gif"
    ensures Lower("." + ext) == "." + ext
  {
    if ext == "bmp" {
      assert "." + ext == ".bmp";
    } else {
      assert "." + ext == ".gif";
    }
  }

  /** Only `extraer_frame` extracts a frame: any other action on a video,
      `extraer_imagen` included, rewrites the video's own metadata. */
  lemma OtherActionsModifyVideo(path: string, accion: string, datetime: string, tools: Tools)
    requires Ext(tools.flavor, path) in BatchVideoExtensions
    ensures accion != "extraer_frame" ==> BatchItem(path, accion, datetime, tools).1 == [ApplyVideo(path, datetime)]
    ensures accion == "extraer_frame" ==> ApplyVideo(path, datetime) !in BatchItem(path, accion, datetime, tools).1
    ensures BatchItem(path, "extraer_imagen", datetime, tools) == BatchItem(path, "modificar_video", datetime, tools)
  {
  }

  /** One entry of `procesar_batch`: its record and the calls it made, or
      `None` when its path is missing (the `splitext(None)` raises before the
      `try`, so the entry makes no call). */
  function BatchEntry(a: Archivo, clock: Clock, tools: Tools): (r: Option<(BatchRecord, seq<Call>)>)
    ensures r.Some? <==> a.path.Some?
    ensures r.Some? ==> r.value.0.path == a.path.value
    ensures r.Some? ==> var (fecha, hora) := ResolveDateTime(a.fecha, a.hora, clock);
            (r.value.0.resultado, r.value.1)
              == BatchItem(a.path.value, a.accion.OrElse("modificar_imagen"), fecha + " " + Show(hora), tools)
  {
    match a.path
    case None => None
    case Some(path) =>
      var (fecha, hora) := ResolveDateTime(a.fecha, a.hora, clock);
      var item := BatchItem(path, a.accion.OrElse("modificar_imagen"), fecha + " " + Show(hora), tools);
      Some((BatchRecord(path, item.0), item.1))
  }

  /** An entry without a date is stamped with the clock's date and time. */
  lemma UndatedEntryUsesClock(a: Archivo, clock: Clock, tools: Tools)
    requires a.path.Some? && clock.Valid() && (a.fecha.None? || a.fecha.value == "")
    ensures StampsWith(BatchEntry(a, clock, tools).value.1, clock.date + " " + clock.time)
  {
  }

  /** An entry with a date is stamped with it and its own time, or with noon
      when its time is blank; an image is stamped exactly once. */
  lemma DatedEntryStamp(a: Archivo, clock: Clock, tools: Tools)
    requires a.path.Some? && a.fecha.Some? && a.fecha.value != ""
    ensures var datetime := a.fecha.value + " " + (if Blank(a.hora) then DefaultTime else a.hora.value);
            && StampsWith(BatchEntry(a, clock, tools).value.1, datetime)
            && (Ext(tools.flavor, a.path.value) in BatchImageExtensions ==>
                  BatchEntry(a, clock, tools).value.1 == [ApplyImage(a.path.value, datetime)])
  {
  }

  /** What a `procesar_batch` call leaves behind: the records of the entries
      processed, every call made, and whether the call raised. */
  datatype BatchRun = BatchRun(records: seq<BatchRecord>, calls: seq<Call>, raised: bool)

  /** `Api.procesar_batch`: the entries in order until one without a path
      raises; the calls of the entries before it have been made. */
  function ProcesarBatch(archivos: seq<Archivo>, clock: Clock, tools: Tools): (r: BatchRun)
    ensures r.raised <==> exists i :: 0 <= i < |archivos| && archivos[i].path.None?
    ensures !r.raised ==> |r.records| == |archivos|
    ensures r.raised ==> |r.records| < |archivos| && archivos[|r.records|].path.None?
    ensures forall i :: 0 <= i < |r.records| ==>
              BatchEntry(archivos[i], clock, tools).Some? && BatchEntry(archivos[i], clock, tools).value.0 == r.records[i]
  {
    RunEntries(Entries(archivos, clock, tools))
  }

  /** The outcome of every entry, computed independently. */
  function Entries(archivos: seq<Archivo>, clock: Clock, tools: Tools): (r: seq<Option<(BatchRecord, seq<Call>)>>)
    ensures |r| == |archivos|
    ensures forall i :: 0 <= i < |archivos| ==> r[i] == BatchEntry(archivos[i], clock, tools)
  {
    seq(|archivos|, i requires 0 <= i < |archivos| => BatchEntry(archivos[i], clock, tools))
  }

  /** The `for` loop of `procesar_batch` over the entries' outcomes: the
      first `None` ends the run. */
  function RunEntries(es: seq<Option<(BatchRecord, seq<Call>)>>): (r: BatchRun)
    ensures r.raised <==> exists i :: 0 <= i < |es| && es[i].None?
    ensures !r.raised ==> |r.records| == |es|
    ensures r.raised ==> |r.records| < |es| && es[|r.records|].None?
    ensures forall i :: 0 <= i < |r.records| ==> es[i].Some? && es[i].value.0 == r.records[i]
  {
    if es == [] then BatchRun([], [], false)
    else if es[0].None? then BatchRun([], [], true)
    else
      var rest := RunEntries(es[1..]);
      assert forall i :: 1 <= i < |es| ==> es[i] == es[1..][i - 1];
      BatchRun([es[0].value.0] + rest.records, es[0].value.1 + rest.calls, rest.raised)
  }

  /** A run splits at any point where the outcomes so far are all records:
      the records and the calls of the two parts are concatenated. */
  lemma {:induction false} RunEntriesAppend(xs: seq<Option<(BatchRecord, seq<Call>)>>,
                                            ys: seq<Option<(BatchRecord, seq<Call>)>>)
    requires forall i :: 0 <= i < |xs| ==> xs[i].Some?
    ensures RunEntries(xs + ys)
              == BatchRun(RunEntries(xs).records + RunEntries(ys).records,
                          RunEntries(xs).calls + RunEntries(ys).calls, RunEntries(ys).raised)
  {
    if xs == [] {
      assert xs + ys == ys;
    } else {
      var e := xs[0];
      var (tail, zs) := (xs[1..], xs + ys);
      assert zs == [e] + (tail + ys) && xs == [e] + tail;
      RunEntriesAppend(tail, ys);
      var (a, b) := (RunEntries(tail), RunEntries(ys));
      RunEntriesCons(e, tail + ys);
      RunEntriesCons(e, tail);
      var (r, z) := (RunEntries(xs), RunEntries(zs));
      assert r.records == [e.value.0] + a.records && r.calls == e.value.1 + a.calls;
      ConcatAssoc([e.value.0], a.records, b.records);
      ConcatAssoc(e.value.1, a.calls, b.calls);
    }
  }

  lemma ConcatAssoc<T>(x: seq<T>, y: seq<T>, z: seq<T>)
    ensures x + (y + z) == (x + y) + z
  {
  }

  /** A record in front of a run is processed first. */
  lemma RunEntriesCons(e: Option<(BatchRecord, seq<Call>)>, es: seq<Option<(BatchRecord, seq<Call>)>>)
    requires e.Some?
    ensures RunEntries([e] + es)
              == BatchRun([e.value.0] + RunEntries(es).records, e.value.1 + RunEntries(es).calls, RunEntries(es).raised)
  {
    assert ([e] + es)[0] == e && ([e] + es)[1..] == es;
  }

  /** A batch splits at any point where the entries so far all have paths. */
  lemma ProcesarBatchAppend(xs: seq<Archivo>, ys: seq<Archivo>, clock: Clock, tools: Tools)
    requires forall i :: 0 <= i < |xs| ==> xs[i].path.Some?
    ensures var run := ProcesarBatch(xs + ys, clock, tools);
            var (left, right) := (ProcesarBatch(xs, clock, tools), ProcesarBatch(ys, clock, tools));
            run == BatchRun(left.records + right.records, left.calls + right.calls, right.raised)
  {
    var (ex, ey) := (Entries(xs, clock, tools), Entries(ys, clock, tools));
    EntriesAppend(xs, ys, ex, ey, Entries(xs + ys, clock, tools), clock, tools);
    RunEntriesAppend(Entries(xs, clock, tools), Entries(ys, clock, tools));
  }

  /** A batch of one entry: its record and its calls, or a raise that makes
      no call. With `ProcesarBatchAppend` this fixes the calls of any batch. */
  lemma ProcesarBatchOfOne(a: Archivo, clock: Clock, tools: Tools)
    ensures a.path.Some? ==>
              ProcesarBatch([a], clock, tools)
                == BatchRun([BatchEntry(a, clock, tools).value.0], BatchEntry(a, clock, tools).value.1, false)
    ensures a.path.None? ==> ProcesarBatch([a], clock, tools) == BatchRun([], [], true)
  {
    var e := BatchEntry(a, clock, tools);
    assert Entries([a], clock, tools) == [e];
    if a.path.Some? {
      RunEntriesCons(e, []);
      assert [e] + [] == [e];
      assert [e.value.0] + [] == [e.value.0] && e.value.1 + [] == e.value.1;
    }
  }

  lemma EntriesAppend(xs: seq<Archivo>, ys: seq<Archivo>, ex: seq<Option<(BatchRecord, seq<Call>)>>,
                      ey: seq<Option<(BatchRecord, seq<Call>)>>, exy: seq<Option<(BatchRecord, seq<Call>)>>,
                      clock: Clock, tools: Tools)
    requires |ex| == |xs| && forall i :: 0 <= i < |xs| ==> ex[i] == BatchEntry(xs[i], clock, tools)
    requires |ey| == |ys| && forall i :: 0 <= i < |ys| ==> ey[i] == BatchEntry(ys[i], clock, tools)
    requires |exy| == |xs + ys| && forall i :: 0 <= i < |xs + ys| ==> exy[i] == BatchEntry((xs + ys)[i], clock, tools)
    ensures exy == ex + ey
  {
    forall i | 0 <= i < |exy|
      ensures exy[i] == (ex + ey)[i]
    {
      if i < |xs| {
        assert (xs + ys)[i] == xs[i];
      } else {
        assert (xs + ys)[i] == ys[i - |xs|];
      }
    }
  }

  /** When the first entry without a path raises, every call of the entries
      before it has already been made, and nothing after it runs. */
  lemma RaiseKeepsEarlierCalls(archivos: seq<Archivo>, k: nat, clock: Clock, tools: Tools)
    requires k < |archivos| && archivos[k].path.None?
    requires forall i :: 0 <= i < k ==> archivos[i].path.Some?
    ensures var run := ProcesarBatch(archivos, clock, tools);
            && run.raised
            && run.records == ProcesarBatch(archivos[..k], clock, tools).records
            && run.calls == ProcesarBatch(archivos[..k], clock, tools).calls
  {
    assert archivos == archivos[..k] + archivos[k..];
    ProcesarBatchAppend(archivos[..k], archivos[k..], clock, tools);
    assert archivos[k..][0] == archivos[k];
  }
}

=== FILE: desktop_ui.dfy ===
/** The desktop front end (`web/renderer.js`): the manual date and time
    picker, file icons, the batch payload, the deduplication of batch rows,
    the success count of the results, and the `batchMeta` state. The DOM is
    reduced to the values of the cells the handlers read. */
module DesktopUi {
  import opened Wrappers
  import opened Text
  import Paths
  import DesktopApi
  import FilenameDate

  // ---------------------------------------------------------------------
  // getManualFechaHora
  // ---------------------------------------------------------------------

  /** The first two pieces of `val.split("T")`: the text before the first
      'T', and the text between the first and the second 'T' (`None` when
      there is no 'T', where JavaScript yields `undefined`). */
  function SplitAtT(val: string): (r: (string, Option<string>))
    ensures 'T' !in r.0 && r.0 <= val
    ensures r.1.None? <==> 'T' !in val
    ensures r.1.Some? ==> 'T' !in r.1.value && |r.0| + 1 + |r.1.value| <= |val|
    // each piece runs up to the next 'T' or to the end of `val`
    ensures |r.0| < |val| ==> val[|r.0|] == 'T'
    ensures r.1.Some? ==> r.1.value <= val[|r.0| + 1..]
    ensures r.1.Some? && |r.0| + 1 + |r.1.value| < |val| ==> val[|r.0| + 1 + |r.1.value|] == 'T'
  {
    var i := FirstIndex(val, 'T');
    if i < 0 then (val, None)
    else
      var rest := val[i + 1..];
      var j := FirstIndex(rest, 'T');
      (val[..i], Some(if j < 0 then rest else rest[..j]))
  }

  /** `getManualFechaHora` on the value of the `datetime-local` input: the
      date with every '-' turned into ':', and the time with ":00" added when
      it has five characters (`HH:MM`). An empty value gives two empty
      strings, and so does a missing piece. */
  function ManualFechaHora(val: string): (r: (string, string))
    ensures val == "" ==> r == ("", "")
    ensures '-' !in r.0 && 'T' !in r.0 && |r.0| <= |val|
    ensures 'T' !in val ==> r.1 == ""
    // the date is the first piece with '-' mapped to ':', and nothing else changed
    ensures val != "" ==> |r.0| == |SplitAtT(val).0|
    ensures val != "" ==> forall k :: 0 <= k < |r.0| ==>
      r.0[k] == (if SplitAtT(val).0[k] == '-' then ':' else SplitAtT(val).0[k])
    // the time is the second piece, padded with ":00" when it is `HH:MM`
    ensures val != "" && SplitAtT(val).1.None? ==> r.1 == ""
    ensures val != "" && SplitAtT(val).1.Some? && |SplitAtT(val).1.value| == 5 ==>
      r.1 == SplitAtT(val).1.value + ":00"
    ensures val != "" && SplitAtT(val).1.Some? && |SplitAtT(val).1.value| != 5 ==>
      r.1 == SplitAtT(val).1.value
  {
    if val == "" then ("", "")
    else
      var (fecha, hora) := SplitAtT(val);
      var fechaFmt := ReplaceAll(fecha, '-', ':');
      var horaFmt := match hora
        case None => ""
        case Some(h) => if |h| == 5 then h + ":00" else h;
      (fechaFmt, horaFmt)
  }

  /** What a `datetime-local` input holds once a minute is picked:
      `YYYY-MM-DDTHH:MM`. */
  predicate IsDatetimeLocal(v: string) {
    && |v| == 16 && v[4] == '-' && v[7] == '-' && v[10] == 'T' && v[13] == ':'
    && IsDigit(v[0]) && IsDigit(v[1]) && IsDigit(v[2]) && IsDigit(v[3])
    && IsDigit(v[5]) && IsDigit(v[6]) && IsDigit(v[8]) && IsDigit(v[9])
    && IsDigit(v[11]) && IsDigit(v[12]) && IsDigit(v[14]) && IsDigit(v[15])
  }

  /** `HH:MM:00`, a time to the minute. */
  predicate IsMinuteTime(t: string) {
    && |t| == 8 && t[2] == ':' && t[5] == ':' && t[6] == '0' && t[7] == '0'
    && IsDigit(t[0]) && IsDigit(t[1]) && IsDigit(t[3]) && IsDigit(t[4])
  }

  /** The `datetime-local` value showing an EXIF date and a time to the minute. */
  function ToDatetimeLocal(fecha: string, hora: string): (r: string)
    requires FilenameDate.IsExifDate(fecha) && IsMinuteTime(hora)
    ensures IsDatetimeLocal(r)
  {
    ReplaceAll(fecha, ':', '-') + "T" + hora[..5]
  }

  /** A picked `datetime-local` value becomes an EXIF date and a time whose
      seconds are zero. */
  lemma ManualIsExif(v: string)
    requires IsDatetimeLocal(v)
    ensures FilenameDate.IsExifDate(ManualFechaHora(v).0) && IsMinuteTime(ManualFechaHora(v).1)
    ensures ToDatetimeLocal(ManualFechaHora(v).0, ManualFechaHora(v).1) == v
  {
    PickedPieces(v);
    var r := ManualFechaHora(v);
    assert r == (ReplaceAll(v[..10], '-', ':'), v[11..16] + ":00");
    var back := ToDatetimeLocal(r.0, r.1);
    assert back[..10] == v[..10];
    assert back == v[..10] + [v[10]] + v[11..16];
    assert v == v[..10] + [v[10]] + v[11..16];
  }

  /** The two pieces of a picked value: the date before the 'T', the time after it. */
  lemma PickedPieces(v: string)
    requires IsDatetimeLocal(v)
    ensures SplitAtT(v) == (v[..10], Some(v[11..16]))
  {
    assert FirstIndex(v, 'T') == 10;
    var rest := v[11..];
    assert forall k :: 0 <= k < |rest| ==> rest[k] == v[11 + k];
    assert FirstIndex(rest, 'T') == -1;
    assert rest == v[11..16];
  }

  /** What the input holds when its step allows seconds: `YYYY-MM-DDTHH:MM:SS`. */
  predicate IsDatetimeLocalSeconds(v: string) {
    && |v| == 19 && IsDatetimeLocal(v[..16]) && v[16] == ':'
    && IsDigit(v[17]) && IsDigit(v[18])
  }

  /** A value with seconds keeps its time as it is: only a five-character
      time is padded. */
  lemma SecondsPassThrough(v: string)
    requires IsDatetimeLocalSeconds(v)
    ensures ManualFechaHora(v).1 == v[11..]
    ensures ManualFechaHora(v).0 == ManualFechaHora(v[..16]).0
    ensures FilenameDate.IsExifDate(ManualFechaHora(v).0)
  {
    var m := v[..16];
    assert forall k :: 0 <= k < 16 ==> m[k] == v[k];
    assert FirstIndex(v, 'T') == 10;
    var rest := v[11..];
    assert forall k :: 0 <= k < |rest| ==> rest[k] == v[11 + k];
    assert FirstIndex(rest, 'T') == -1;
    assert SplitAtT(v) == (v[..10], Some(rest));
    PickedPieces(m);
    assert m[..10] == v[..10];
    ManualIsExif(m);
  }

  /** An EXIF date and a time to the minute survive the trip through the
      `datetime-local` input unchanged. */
  lemma DatetimeLocalRoundTrip(fecha: string, hora: string)
    requires FilenameDate.IsExifDate(fecha) && IsMinuteTime(hora)
    ensures ManualFechaHora(ToDatetimeLocal(fecha, hora)) == (fecha, hora)
  {
    var v := ToDatetimeLocal(fecha, hora);
    PickedPieces(v);
    assert ReplaceAll(v[..10], '-', ':') == fecha;
    assert v[11..16] + ":00" == hora;
  }

  // ---------------------------------------------------------------------
  // getFileIcon
  // ---------------------------------------------------------------------

  const ImageIconExtensions: set<string> := {"jpg", "jpeg", "png", "bmp", "gif", "tiff", "webp"}
  const VideoIconExtensions: set<string> := {"mp4", "mov", "avi", "mkv", "wmv", "flv", "webm"}
  const AudioIconExtensions: set<string> := {"mp3", "wav", "ogg", "flac", "aac"}
  const DocumentIconExtensions: set<string> := {"doc", "docx", "txt", "pdf", "rtf"}

  /** `getFileIcon`: the icon of an extension, compared in lower case. */
  function FileIcon(extension: string): (r: string)
    ensures r == "fa-file-image" <==> Lower(extension) in ImageIconExtensions
    ensures r == "fa-file-video" <==> Lower(extension) in VideoIconExtensions
    ensures r == "fa-file-audio" <==> Lower(extension) in AudioIconExtensions
    ensures r == "fa-file-lines" <==> Lower(extension) in DocumentIconExtensions
    ensures r == "fa-file" <==>
              Lower(extension) !in ImageIconExtensions + VideoIconExtensions + AudioIconExtensions + DocumentIconExtensions
  {
    var ext := Lower(extension);
    if ext in ImageIconExtensions then "fa-file-image"
    else if ext in VideoIconExtensions then "fa-file-video"
    else if ext in AudioIconExtensions then "fa-file-audio"
    else if ext in DocumentIconExtensions then "fa-file-lines"
    else "fa-file"
  }

  /** The icon does not depend on the case of the extension. */
  lemma FileIconIgnoresCase(extension: string)
    ensures FileIcon(extension) == FileIcon(Lower(extension))
  {
    LowerIdempotent(extension);
  }

  // ---------------------------------------------------------------------
  // The batch table and its payload
  // ---------------------------------------------------------------------

  /** `path.split(".").pop().toLowerCase()`: the lower-cased text after the
      last '.', or the whole path when it has none. */
  function RowExt(path: string): (r: string)
    ensures |r| <= |path| && '.' !in r
  {
    Lower(AfterLast(path, '.'))
  }

  /** The rows whose action cell is a select. */
  const SelectExtensions: set<string> := {"mp4", "mov", "avi"}

  /** The options the select offers; the first is selected when drawn. */
  const SelectOptions: set<string> := {"extraer_imagen", "modificar_video"}

  /** The cells of one table row the handlers read: the new date, the new
      time, and the action select's value when the row has a select. */
  datatype RowInputs = RowInputs(fecha: string, hora: string, accion: Option<string>)

  /** The table as `renderBatchTable` draws it: empty date and time inputs,
      and a select on its first option on the rows of videos. */
  function Rendered(meta: seq<DesktopApi.MetaRecord>): (r: seq<RowInputs>)
    ensures |r| == |meta|
    ensures forall i :: 0 <= i < |meta| ==> r[i].fecha == "" && r[i].hora == ""
    ensures forall i :: 0 <= i < |meta| ==>
              (r[i].accion.Some? <==> RowExt(meta[i].path) in SelectExtensions)
              && (r[i].accion.Some? ==> r[i].accion.value in SelectOptions)
  {
    seq(|meta|, i requires 0 <= i < |meta| =>
      RowInputs("", "", if RowExt(meta[i].path) in SelectExtensions then Some("extraer_imagen") else None))
  }

  /** A table the user has edited: same rows, selects where they were drawn,
      each showing one of its options. */
  predicate Edited(meta: seq<DesktopApi.MetaRecord>, table: seq<RowInputs>) {
    && |table| == |meta|
    && forall i :: 0 <= i < |meta| ==>
         (table[i].accion.Some? <==> RowExt(meta[i].path) in SelectExtensions)
         && (table[i].accion.Some? ==> table[i].accion.value in SelectOptions)
  }

  /** The action sent for one row. */
  function RowAction(path: string, row: RowInputs): (r: string)
    ensures RowExt(path) !in SelectExtensions ==> r == "modificar_imagen"
    ensures RowExt(path) in SelectExtensions ==> r == row.accion.OrElse("modificar_video")
  {
    if RowExt(path) in SelectExtensions then row.accion.OrElse("modificar_video")
    else "modificar_imagen"
  }

  /** The `archivos` the "Procesar todos" button sends: one entry per row of
      `batchMeta`, in order, reading the inputs of that row's index. */
  function Payload(meta: seq<DesktopApi.MetaRecord>, table: seq<RowInputs>): (r: seq<DesktopApi.Archivo>)
    requires |meta| <= |table|
    ensures |r| == |meta|
    ensures forall i :: 0 <= i < |meta| ==>
              && r[i].path == Some(meta[i].path)
              && r[i].fecha == Some(table[i].fecha) && r[i].hora == Some(table[i].hora)
              && r[i].accion == Some(RowAction(meta[i].path, table[i]))
  {
    seq(|meta|, i requires 0 <= i < |meta| =>
      DesktopApi.Archivo(Some(meta[i].path), Some(table[i].fecha), Some(table[i].hora),
                         Some(RowAction(meta[i].path, table[i]))))
  }

  /** The desktop front end never asks for a frame: on an edited table every
      action sent is an image or video modification or `extraer_imagen`,
      which the backend treats as a video modification. */
  lemma NoFrameRequested(meta: seq<DesktopApi.MetaRecord>, table: seq<RowInputs>, i: nat)
    requires Edited(meta, table) && i < |meta|
    ensures Payload(meta, table)[i].accion.value in SelectOptions + {"modificar_imagen"}
    ensures Payload(meta, table)[i].accion.value != "extraer_frame"
  {
  }

  /** A video row sent from an edited table has its own metadata rewritten by
      the backend, never a frame extracted. */
  lemma VideoRowsModifyVideo(meta: seq<DesktopApi.MetaRecord>, table: seq<RowInputs>, i: nat,
                             datetime: string, tools: DesktopApi.Tools)
    requires Edited(meta, table) && i < |meta|
    requires DesktopApi.Ext(tools.flavor, meta[i].path) in DesktopApi.BatchVideoExtensions
    ensures var a := Payload(meta, table)[i];
            DesktopApi.BatchItem(a.path.value, a.accion.value, datetime, tools).1
              == [DesktopApi.ApplyVideo(meta[i].path, datetime)]
  {
    NoFrameRequested(meta, table, i);
    var a := Payload(meta, table)[i];
    DesktopApi.OtherActionsModifyVideo(a.path.value, a.accion.value, datetime, tools);
  }

  /** Every entry of the payload has a path, so `procesar_batch` answers
      with one record per row, in order, each with its row's path. */
  lemma PayloadIsProcessed(meta: seq<DesktopApi.MetaRecord>, table: seq<RowInputs>,
                           clock: DesktopApi.Clock, tools: DesktopApi.Tools)
    requires |meta| <= |table|
    ensures var r := DesktopApi.ProcesarBatch(Payload(meta, table), clock, tools);
            !r.raised && |r.records| == |meta| && forall i :: 0 <= i < |meta| ==> r.records[i].path == meta[i].path
  {
    var payload := Payload(meta, table);
    var r := DesktopApi.ProcesarBatch(payload, clock, tools);
    forall i | 0 <= i < |meta| ensures r.records[i].path == meta[i].path {
      assert DesktopApi.BatchEntry(payload[i], clock, tools).value.0.path == meta[i].path;
    }
  }

  // ---------------------------------------------------------------------
  // Deduplication by path
  // ---------------------------------------------------------------------

  function PathsOf(meta: seq<DesktopApi.MetaRecord>): (r: seq<string>)
    ensures |r| == |meta| && forall i :: 0 <= i < |meta| ==> r[i] == meta[i].path
  {
    seq(|meta|, i requires 0 <= i < |meta| => meta[i].path)
  }

  /** No key before index `i` equals the key at `i`. */
  predicate IsFirst(keys: seq<string>, i: nat)
    requires i < |keys|
  {
    forall j :: 0 <= j < i ==> keys[j] != keys[i]
  }

  /** The keys before index `i`: the `seen` set after `i` steps. */
  function SeenBefore(keys: seq<string>, i: nat): set<string>
    requires i <= |keys|
  {
    set j | 0 <= j < i :: keys[j]
  }

  /** The `filter` with its `seen` set, from index `i` on: the indices it
      keeps, in order. */
  function Kept(keys: seq<string>, i: nat, seen: set<string>): seq<nat>
    requires i <= |keys|
    decreases |keys| - i
  {
    if i == |keys| then []
    else if keys[i] in seen then Kept(keys, i + 1, seen)
    else [i] + Kept(keys, i + 1, seen + {keys[i]})
  }

  predicate Increasing(r: seq<nat>) {
    forall a, b :: 0 <= a < b < |r| ==> r[a] < r[b]
  }

  /** `r` lists, in increasing order, exactly the first occurrences at or
      after index `i`. */
  predicate FirstsFrom(keys: seq<string>, i: nat, r: seq<nat>) {
    && Increasing(r)
    && (forall k :: 0 <= k < |r| ==> i <= r[k] < |keys| && IsFirst(keys, r[k]))
    && (forall j :: i <= j < |keys| && IsFirst(keys, j) ==> j in r)
  }

  /** Started with the keys before `i` as `seen`, the filter keeps exactly
      the first occurrences from `i` on, in increasing order. */
  lemma {:induction false} KeptAreFirsts(keys: seq<string>, i: nat)
    requires i <= |keys|
    ensures FirstsFrom(keys, i, Kept(keys, i, SeenBefore(keys, i)))
    decreases |keys| - i
  {
    if i < |keys| {
      var seen := SeenBefore(keys, i);
      assert SeenBefore(keys, i + 1) == seen + {keys[i]};
      KeptAreFirsts(keys, i + 1);
      var rest := Kept(keys, i + 1, SeenBefore(keys, i + 1));
      if keys[i] in seen {
        var j :| 0 <= j < i && keys[j] == keys[i];
        assert seen + {keys[i]} == seen;
        SkipStep(keys, i, rest);
      } else {
        KeepStep(keys, i, rest);
      }
    }
  }

  lemma SkipStep(keys: seq<string>, i: nat, rest: seq<nat>)
    requires i < |keys| && !IsFirst(keys, i) && FirstsFrom(keys, i + 1, rest)
    ensures FirstsFrom(keys, i, rest)
  {
  }

  lemma KeepStep(keys: seq<string>, i: nat, rest: seq<nat>)
    requires i < |keys| && IsFirst(keys, i) && FirstsFrom(keys, i + 1, rest)
    ensures FirstsFrom(keys, i, [i] + rest)
  {
    var r := [i] + rest;
    assert forall k :: 1 <= k < |r| ==> r[k] == rest[k - 1];
  }

  /** The indices `filter` keeps: the first occurrence of each path. */
  function FirstOccurrences(keys: seq<string>): (r: seq<nat>)
    ensures Increasing(r)
    ensures forall k :: 0 <= k < |r| ==> r[k] < |keys| && IsFirst(keys, r[k])
    ensures forall j :: 0 <= j < |keys| && IsFirst(keys, j) ==> j in r
  {
    KeptAreFirsts(keys, 0);
    assert SeenBefore(keys, 0) == {};
    Kept(keys, 0, {})
  }

  /** The rows of `batchMeta` that survive deduplication. */
  function Dedup(meta: seq<DesktopApi.MetaRecord>): (r: seq<DesktopApi.MetaRecord>)
    ensures var idx := FirstOccurrences(PathsOf(meta));
            |r| == |idx| && forall k :: 0 <= k < |r| ==> r[k] == meta[idx[k]]
  {
    var idx := FirstOccurrences(PathsOf(meta));
    seq(|idx|, k requires 0 <= k < |idx| => meta[idx[k]])
  }

  /** After deduplication no path appears twice. */
  lemma DedupNoDuplicates(meta: seq<DesktopApi.MetaRecord>)
    ensures var r := Dedup(meta);
            forall a, b :: 0 <= a < b < |r| ==> r[a].path != r[b].path
  {
    var keys := PathsOf(meta);
    var idx := FirstOccurrences(keys);
    forall a, b | 0 <= a < b < |idx| ensures keys[idx[a]] != keys[idx[b]] {
      assert idx[a] < idx[b] && IsFirst(keys, idx[b]);
    }
  }

  /** The first occurrence of a key that occurs at `i`. */
  lemma FirstOccurrenceOf(keys: seq<string>, i: nat) returns (j: nat)
    requires i < |keys|
    ensures j <= i && keys[j] == keys[i] && IsFirst(keys, j)
  {
    j := i;
    while !IsFirst(keys, j)
      invariant j <= i && keys[j] == keys[i]
      decreases j
    {
      var j' :| 0 <= j' < j && keys[j'] == keys[j];
      j := j';
    }
  }

  /** Every path of `batchMeta` is still there after deduplication, and the
      rows kept are the first rows of their paths, in their original order. */
  lemma DedupKeepsEveryPath(meta: seq<DesktopApi.MetaRecord>)
    ensures var r := Dedup(meta);
            forall i :: 0 <= i < |meta| ==> exists k :: 0 <= k < |r| && r[k].path == meta[i].path
  {
    var keys := PathsOf(meta);
    var idx := FirstOccurrences(keys);
    var r := Dedup(meta);
    forall i | 0 <= i < |meta| ensures exists k :: 0 <= k < |r| && r[k].path == meta[i].path {
      var j := FirstOccurrenceOf(keys, i);
      assert j in idx;
      var k :| 0 <= k < |idx| && idx[k] == j;
      assert r[k].path == meta[i].path;
    }
  }

  /** Deduplicating twice changes nothing more. */
  lemma DedupIdempotent(meta: seq<DesktopApi.MetaRecord>)
    ensures Dedup(Dedup(meta)) == Dedup(meta)
  {
    DedupNoDuplicates(meta);
    AllFirst(Dedup(meta));
  }

  /** On rows with distinct paths deduplication is the identity. */
  lemma AllFirst(r: seq<DesktopApi.MetaRecord>)
    requires forall a, b :: 0 <= a < b < |r| ==> r[a].path != r[b].path
    ensures Dedup(r) == r
  {
    var keys := PathsOf(r);
    KeepAllDistinct(keys, 0);
    assert SeenBefore(keys, 0) == {};
  }

  /** With distinct keys the filter keeps every index from `i` on. */
  lemma {:induction false} KeepAllDistinct(keys: seq<string>, i: nat)
    requires i <= |keys|
    requires forall a, b :: 0 <= a < b < |keys| ==> keys[a] != keys[b]
    ensures var r := Kept(keys, i, SeenBefore(keys, i));
            |r| == |keys| - i && forall k :: 0 <= k < |r| ==> r[k] == i + k
    decreases |keys| - i
  {
    if i < |keys| {
      assert keys[i] !in SeenBefore(keys, i);
      assert SeenBefore(keys, i + 1) == SeenBefore(keys, i) + {keys[i]};
      KeepAllDistinct(keys, i + 1);
    }
  }

  // ---------------------------------------------------------------------
  // The document click handler on "procesar-batch-btn"
  // ---------------------------------------------------------------------

  /** The inputs of row `idx`, or empty values when the row does not exist
      (`fechaInput && fechaInput.value ? fechaInput.value : ""`). */
  function CellsAt(table: seq<RowInputs>, idx: nat): (r: RowInputs)
    ensures idx < |table| ==> r.fecha == table[idx].fecha && r.hora == table[idx].hora
    ensures idx >= |table| ==> r.fecha == "" && r.hora == ""
  {
    if idx < |table| then table[idx] else RowInputs("", "", None)
  }

  /** The rows the document-level handler sends, as written: the rows are
      deduplicated, and row `k` of the result then reads the inputs of table
      row `k`, whichever row of `batchMeta` that was drawn for. The rows
      carry no `accion`. */
  function SubmitRowsAsWritten(meta: seq<DesktopApi.MetaRecord>, table: seq<RowInputs>)
    : (r: seq<DesktopApi.Archivo>)
    ensures |r| == |Dedup(meta)|
    ensures forall k :: 0 <= k < |r| ==>
              && r[k].path == Some(Dedup(meta)[k].path) && r[k].accion.None?
              && r[k].fecha == Some(CellsAt(table, k).fecha) && r[k].hora == Some(CellsAt(table, k).hora)
  {
    var rows := Dedup(meta);
    seq(|rows|, k requires 0 <= k < |rows| =>
      DesktopApi.Archivo(Some(rows[k].path), Some(CellsAt(table, k).fecha), Some(CellsAt(table, k).hora), None))
  }

  /** The rows the document-level handler should send: each kept row reads
      the inputs of the table row it was drawn in. */
  function SubmitRows(meta: seq<DesktopApi.MetaRecord>, table: seq<RowInputs>): (r: seq<DesktopApi.Archivo>)
    ensures |r| == |Dedup(meta)|
    ensures forall k :: 0 <= k < |r| ==> r[k].path == Some(Dedup(meta)[k].path)
  {
    var idx := FirstOccurrences(PathsOf(meta));
    seq(|idx|, k requires 0 <= k < |idx| =>
      DesktopApi.Archivo(Some(meta[idx[k]].path), Some(CellsAt(table, idx[k]).fecha),
                         Some(CellsAt(table, idx[k]).hora), None))
  }

  /** Every row sent carries the date and time typed in the first table row
      that shows its path, the row deduplication keeps. */
  predicate CarriesOwnInputs(meta: seq<DesktopApi.MetaRecord>, table: seq<RowInputs>, rows: seq<DesktopApi.Archivo>) {
    |meta| == |table|
    && forall k :: 0 <= k < |rows| ==>
         exists i :: 0 <= i < |meta| && IsFirst(PathsOf(meta), i) && rows[k].path == Some(meta[i].path)
                     && rows[k].fecha == Some(table[i].fecha) && rows[k].hora == Some(table[i].hora)
  }

  lemma SubmitRowsCarryOwnInputs(meta: seq<DesktopApi.MetaRecord>, table: seq<RowInputs>)
    requires |table| == |meta|
    ensures CarriesOwnInputs(meta, table, SubmitRows(meta, table))
  {
    var idx := FirstOccurrences(PathsOf(meta));
    var rows := SubmitRows(meta, table);
    forall k | 0 <= k < |rows|
      ensures exists i :: 0 <= i < |meta| && IsFirst(PathsOf(meta), i) && rows[k].path == Some(meta[i].path)
                          && rows[k].fecha == Some(table[i].fecha) && rows[k].hora == Some(table[i].hora)
    {
      var i := idx[k];
      assert IsFirst(PathsOf(meta), i);
      assert rows[k].path == Some(meta[i].path) && rows[k].fecha == Some(table[i].fecha);
    }
  }

  /** Without repeated paths the handler as written sends what it should. */
  lemma AsWrittenAgreesWithoutRepeats(meta: seq<DesktopApi.MetaRecord>, table: seq<RowInputs>)
    requires forall a, b :: 0 <= a < b < |meta| ==> meta[a].path != meta[b].path
    ensures SubmitRowsAsWritten(meta, table) == SubmitRows(meta, table)
  {
    var keys := PathsOf(meta);
    KeepAllDistinct(keys, 0);
    assert SeenBefore(keys, 0) == {};
    var idx := FirstOccurrences(keys);
    assert forall k :: 0 <= k < |idx| ==> idx[k] == k;
  }

  /** When a path is listed twice, the handler as written sends the next
      path with the date typed in the duplicate's row. */
  lemma SubmitRowsMisaligned()
    ensures var meta := [Meta("a.jpg"), Meta("a.jpg"), Meta("b.jpg")];
            var table := [RowInputs("2020-01-01", "", None), RowInputs("2021-02-02", "", None),
                          RowInputs("2022-03-03", "", None)];
            && SubmitRowsAsWritten(meta, table)[1] == DesktopApi.Archivo(Some("b.jpg"), Some("2021-02-02"), Some(""), None)
            && !CarriesOwnInputs(meta, table, SubmitRowsAsWritten(meta, table))
  {
    var meta := [Meta("a.jpg"), Meta("a.jpg"), Meta("b.jpg")];
    var table := [RowInputs("2020-01-01", "", None), RowInputs("2021-02-02", "", None),
                  RowInputs("2022-03-03", "", None)];
    var keys := PathsOf(meta);
    assert keys == ["a.jpg", "a.jpg", "b.jpg"];
    assert SeenBefore(keys, 0) == {};
    assert Kept(keys, 3, {"a.jpg", "b.jpg"}) == [];
    assert Kept(keys, 2, {"a.jpg"}) == [2];
    assert Kept(keys, 1, {"a.jpg"}) == [2];
    assert {} + {"a.jpg"} == {"a.jpg"};
    assert Kept(keys, 0, {}) == [0, 2];
    var rows := SubmitRowsAsWritten(meta, table);
    assert rows[1] == DesktopApi.Archivo(Some("b.jpg"), Some("2021-02-02"), Some(""), None);
    forall i | 0 <= i < |meta| && rows[1].path == Some(meta[i].path)
      ensures rows[1].fecha != Some(table[i].fecha)
    {
      assert i == 2;
    }
  }

  /** A `batchMeta` entry with only its path known. */
  function Meta(path: string): (r: DesktopApi.MetaRecord)
    ensures r.path == path
  {
    DesktopApi.MetaRecord(path, None, None, None, "")
  }

  // ---------------------------------------------------------------------
  // mostrarResultadosBatch
  // ---------------------------------------------------------------------

  /** One element of `resultados` as the renderer reads it; a key that is
      absent is `None`. */
  datatype Outcome = Outcome(path: string, error: Option<string>, resultado: Option<string>)

  /** JavaScript truthiness of an optional string. */
  predicate Truthy(s: Option<string>) {
    s.Some? && s.value != ""
  }

  /** What `procesar_batch` hands back for one record. */
  function OutcomeOf(b: DesktopApi.BatchRecord): (r: Outcome)
    ensures r.path == b.path && r.error.None? && r.resultado == Some(b.resultado)
  {
    Outcome(b.path, None, Some(b.resultado))
  }

  /** `esExitoso` as written: no error, a non-empty `resultado`, and no
      "Error" inside it. */
  predicate IsSuccessfulAsWritten(o: Outcome) {
    !Truthy(o.error) && Truthy(o.resultado) && !Contains(o.resultado.value, "Error")
  }

  /** A result counts as a success when its `resultado` starts with the
      check mark the backend puts on finished work. */
  predicate IsSuccessful(o: Outcome) {
    !Truthy(o.error) && Truthy(o.resultado) && StartsWith(o.resultado.value, DesktopApi.CheckMark)
  }

  /** The message for a `.bmp` or `.gif` file, which the batch did not touch,
      counts as a success as written whenever the path itself has no "Error"
      in it. */
  lemma RefusedCountsAsSuccess(path: string, accion: string, datetime: string,
                               tools: DesktopApi.Tools)
    requires DesktopApi.Ext(tools.flavor, path) == ".bmp" || DesktopApi.Ext(tools.flavor, path) == ".gif"
    requires !Contains(path, "Error")
    ensures var o := OutcomeOf(DesktopApi.BatchRecord(path, DesktopApi.BatchItem(path, accion, datetime, tools).0));
            IsSuccessfulAsWritten(o) && !IsSuccessful(o)
  {
    DesktopApi.RefusedExt(path, accion, datetime, tools);
    RefusalCounted(path);
  }

  /** The refusal message has no check mark in front, and it contains
      "Error" exactly when the path does. */
  lemma RefusalCounted(path: string)
    ensures var o := Outcome(path, None, Some("Tipo de archivo no soportado: " + path));
            !IsSuccessful(o) && (IsSuccessfulAsWritten(o) <==> !Contains(path, "Error"))
  {
    var prefix := "Tipo de archivo no soportado: ";
    assert 'E' !in prefix;
    ContainsPastPrefix(prefix, path, "Error");
    assert (prefix + path)[0] != DesktopApi.CheckMark[0];
  }

  /** A result counts as a success exactly when the batch handled its file
      and every tool call it made succeeded. */
  lemma SuccessIffDone(path: string, accion: string, datetime: string, tools: DesktopApi.Tools)
    ensures var r := DesktopApi.BatchItem(path, accion, datetime, tools);
            IsSuccessful(OutcomeOf(DesktopApi.BatchRecord(path, r.0))) <==>
              DesktopApi.Ext(tools.flavor, path) in DesktopApi.BatchImageExtensions + DesktopApi.BatchVideoExtensions
              && forall c :: c in r.1 ==> tools.fails(c).None?
  {
    SuccessIffMarked(path, DesktopApi.BatchItem(path, accion, datetime, tools).0);
    DesktopApi.CheckMarkIffDone(path, accion, datetime, tools);
  }

  lemma SuccessIffMarked(path: string, resultado: string)
    ensures IsSuccessful(OutcomeOf(DesktopApi.BatchRecord(path, resultado))) <==>
              StartsWith(resultado, DesktopApi.CheckMark)
  {
  }

  /** The number of true and of false flags. */
  function Tally(flags: seq<bool>): (r: (nat, nat))
    ensures r.0 + r.1 == |flags|
    ensures r.0 == multiset(flags)[true] && r.1 == multiset(flags)[false]
    ensures r.0 == 0 <==> forall i :: 0 <= i < |flags| ==> !flags[i]
    ensures r.1 == 0 <==> false !in flags
  {
    if flags == [] then (0, 0)
    else
      var t := Tally(flags[1..]);
      assert flags == [flags[0]] + flags[1..];
      if flags[0] then (t.0 + 1, t.1) else (t.0, t.1 + 1)
  }

  /** Tallies add up over concatenation. */
  lemma TallyAdds(a: seq<bool>, b: seq<bool>)
    ensures Tally(a + b).0 == Tally(a).0 + Tally(b).0
    ensures Tally(a + b).1 == Tally(a).1 + Tally(b).1
  {
    CountAppend(a, b, true);
    CountAppend(a, b, false);
  }

  lemma CountAppend(a: seq<bool>, b: seq<bool>, x: bool)
    ensures multiset(a + b)[x] == multiset(a)[x] + multiset(b)[x]
  {
    assert multiset(a + b) == multiset(a) + multiset(b);
  }

  /** Which results pass the written test (`asWritten`) or the corrected one. */
  function Marks(resultados: seq<Outcome>, asWritten: bool): (r: seq<bool>)
    ensures |r| == |resultados|
    ensures forall i :: 0 <= i < |resultados| ==>
              r[i] == if asWritten then IsSuccessfulAsWritten(resultados[i]) else IsSuccessful(resultados[i])
  {
    seq(|resultados|, i requires 0 <= i < |resultados| =>
      if asWritten then IsSuccessfulAsWritten(resultados[i]) else IsSuccessful(resultados[i]))
  }

  lemma MarksAppend(a: seq<Outcome>, b: seq<Outcome>, asWritten: bool)
    ensures Marks(a + b, asWritten) == Marks(a, asWritten) + Marks(b, asWritten)
  {
    var (ma, mb, mab) := (Marks(a, asWritten), Marks(b, asWritten), Marks(a + b, asWritten));
    forall i | 0 <= i < |mab| ensures mab[i] == (ma + mb)[i] {
      if i < |a| {
        assert (a + b)[i] == a[i];
      } else {
        assert (a + b)[i] == b[i - |a|];
      }
    }
  }

  /** `exitosos` and `fallidos` as written: a result counts when it meets
      `IsSuccessfulAsWritten`. */
  function Summary(resultados: seq<Outcome>): (r: (nat, nat))
    ensures r.0 + r.1 == |resultados|
    ensures r.0 == 0 <==> forall i :: 0 <= i < |resultados| ==> !IsSuccessfulAsWritten(resultados[i])
    ensures r.1 == 0 <==> forall i :: 0 <= i < |resultados| ==> IsSuccessfulAsWritten(resultados[i])
  {
    Tally(Marks(resultados, true))
  }

  /** The tally the page should show: a result counts when its `resultado`
      carries the check mark. */
  function SummaryCorrected(resultados: seq<Outcome>): (r: (nat, nat))
    ensures r.0 + r.1 == |resultados|
    ensures r.0 == 0 <==> forall i :: 0 <= i < |resultados| ==> !IsSuccessful(resultados[i])
    ensures r.1 == 0 <==> forall i :: 0 <= i < |resultados| ==> IsSuccessful(resultados[i])
  {
    Tally(Marks(resultados, false))
  }

  /** One result adds one to `exitosos` exactly when it meets the written
      test, and one to `fallidos` otherwise. */
  lemma SummaryOfOne(o: Outcome)
    ensures Summary([o]) == (if IsSuccessfulAsWritten(o) then (1, 0) else (0, 1))
    ensures SummaryCorrected([o]) == (if IsSuccessful(o) then (1, 0) else (0, 1))
  {
    assert Marks([o], true) == [IsSuccessfulAsWritten(o)];
    assert Marks([o], false) == [IsSuccessful(o)];
  }

  /** Both tallies add up over concatenated result lists; with
      `SummaryOfOne`, `exitosos` is the number of results meeting the test. */
  lemma SummaryAdds(a: seq<Outcome>, b: seq<Outcome>)
    ensures Summary(a + b).0 == Summary(a).0 + Summary(b).0
    ensures Summary(a + b).1 == Summary(a).1 + Summary(b).1
    ensures SummaryCorrected(a + b).0 == SummaryCorrected(a).0 + SummaryCorrected(b).0
    ensures SummaryCorrected(a + b).1 == SummaryCorrected(a).1 + SummaryCorrected(b).1
  {
    MarksAppend(a, b, true);
    TallyAdds(Marks(a, true), Marks(b, true));
    MarksAppend(a, b, false);
    TallyAdds(Marks(a, false), Marks(b, false));
  }

  /** The refusal of a `.gif` is counted among `exitosos` as written, and
      among `fallidos` by the corrected tally. */
  lemma GifMiscounted(accion: string, datetime: string, tools: DesktopApi.Tools)
    ensures var o := OutcomeOf(DesktopApi.BatchRecord("x.gif", DesktopApi.BatchItem("x.gif", accion, datetime, tools).0));
            Summary([o]) == (1, 0) && SummaryCorrected([o]) == (0, 1)
  {
    assert "x" + "." + "gif" == "x.gif";
    DesktopApi.BmpOrGifExt("x", "gif", tools.flavor);
    ContainsNeedsHead("x.gif", "Error");
    RefusedCountsAsSuccess("x.gif", accion, datetime, tools);
    var o := OutcomeOf(DesktopApi.BatchRecord("x.gif", DesktopApi.BatchItem("x.gif", accion, datetime, tools).0));
    SummaryOfOne(o);
  }

  // ---------------------------------------------------------------------
  // The batchMeta state
  // ---------------------------------------------------------------------

  /** `window.batchMeta`. */
  datatype State = State(batchMeta: seq<DesktopApi.MetaRecord>)

  /** The row the document-level handler sends for a `batchMeta` entry: the
      entry itself, which has no `accion`. */
  function Sent(m: DesktopApi.MetaRecord): (r: DesktopApi.Archivo)
    ensures r.path == Some(m.path) && r.fecha == m.fecha && r.hora == m.hora && r.accion.None?
  {
    DesktopApi.Archivo(Some(m.path), m.fecha, m.hora, None)
  }

  /** The `forEach` that writes the inputs of table row `k` into the `k`-th
      kept entry, in place. */
  function WriteInputs(rows: seq<DesktopApi.MetaRecord>, table: seq<RowInputs>): (r: seq<DesktopApi.MetaRecord>)
    ensures |r| == |rows|
    ensures forall k :: 0 <= k < |rows| ==>
              r[k] == rows[k].(fecha := Some(CellsAt(table, k).fecha), hora := Some(CellsAt(table, k).hora))
  {
    seq(|rows|, k requires 0 <= k < |rows| =>
      rows[k].(fecha := Some(CellsAt(table, k).fecha), hora := Some(CellsAt(table, k).hora)))
  }

  /** The `procesar_batch` requests one click on "Procesar todos" makes. The
      button's own handler always sends the payload of the table as drawn.
      The document-level handler acts only when the click's target is the
      button itself (`onButton`), not the icon inside it: it deduplicates
      `batchMeta`, writes the inputs into the kept entries and sends them. */
  function ClickProcesar(s: State, table: seq<RowInputs>, onButton: bool): (r: (State, seq<seq<DesktopApi.Archivo>>))
    requires |s.batchMeta| <= |table|
    ensures |r.1| == (if onButton then 2 else 1)
    ensures r.1[0] == Payload(s.batchMeta, table)
    ensures !onButton ==> r.0 == s
    ensures onButton ==> r.1[1] == SubmitRowsAsWritten(s.batchMeta, table)
    ensures onButton ==> r.0.batchMeta == WriteInputs(Dedup(s.batchMeta), table)
    ensures onButton ==> |r.1[1]| == |r.0.batchMeta|
                         && forall k :: 0 <= k < |r.1[1]| ==> r.1[1][k] == Sent(r.0.batchMeta[k])
  {
    var payload := Payload(s.batchMeta, table);
    if !onButton then (s, [payload])
    else
      var (kept, sent) := (WriteInputs(Dedup(s.batchMeta), table), SubmitRowsAsWritten(s.batchMeta, table));
      WrittenRowsAreSent(s.batchMeta, table, kept, sent);
      (State(kept), [payload, sent])
  }

  /** The rows sent are the entries kept, with the inputs written into them. */
  lemma WrittenRowsAreSent(meta: seq<DesktopApi.MetaRecord>, table: seq<RowInputs>,
                           kept: seq<DesktopApi.MetaRecord>, sent: seq<DesktopApi.Archivo>)
    requires kept == WriteInputs(Dedup(meta), table) && sent == SubmitRowsAsWritten(meta, table)
    ensures |sent| == |kept| && forall k :: 0 <= k < |sent| ==> sent[k] == Sent(kept[k])
  {
    forall k | 0 <= k < |sent| ensures sent[k] == Sent(kept[k]) {
      var (a, b) := (sent[k], Sent(kept[k]));
      assert a.path == b.path && a.fecha == b.fecha && a.hora == b.hora && a.accion == b.accion;
    }
  }

  /** Showing the results empties `batchMeta` and reports the tally as
      written. */
  function ShowResults(s: State, resultados: seq<Outcome>): (r: (State, (nat, nat)))
    ensures r.0.batchMeta == []
    ensures r.1.0 + r.1.1 == |resultados|
    ensures r.1.0 == 0 <==> forall i :: 0 <= i < |resultados| ==> !IsSuccessfulAsWritten(resultados[i])
    ensures r.1.1 == 0 <==> forall i :: 0 <= i < |resultados| ==> IsSuccessfulAsWritten(resultados[i])
  {
    (State([]), Summary(resultados))
  }

  /** `limpiarBatchTable`. */
  function Clear(s: State): (r: State)
    ensures r.batchMeta == []
    ensures Rendered(r.batchMeta) == []
  {
    State([])
  }
}

=== FILE: file_types.dfy ===
/** How the web backend (app.py) decides whether an uploaded file is an image,
    a video or unknown: by extension, by MIME type, and by the first bytes of
    the file with its size as a last resort. */
module FileTypes {
  import opened Wrappers
  import opened Text
  import Paths

  datatype MediaType = Image | Video | Unknown {
    /** The string the backend stores in `file_type`. */
    function Name(): string {
      match this
      case Image => "image"
      case Video => "video"
      case Unknown => "unknown"
    }
  }

  newtype Byte = b: int | 0 <= b < 256

  /** `ALLOWED_EXTENSIONS` (app.py:30-33). */
  const ImageExtensions: set<string> := {"jpg", "jpeg", "png", "bmp", "gif"}
  const VideoExtensions: set<string> := {"mp4", "mov", "avi"}

  /** `ALLOWED_EXTENSIONS.get(category, set())`. */
  function CategoryExtensions(category: string): set<string> {
    if category == "image" then ImageExtensions
    else if category == "video" then VideoExtensions
    else {}
  }

  /** `filename.rsplit('.', 1)[1].lower()`, guarded by `'.' in filename`. */
  function Extension(filename: string): (r: Option<string>)
    ensures r.None? <==> '.' !in filename
    ensures r.Some? ==> '.' !in r.value
  {
    if '.' in filename then Some(Lower(AfterLast(filename, '.'))) else None
  }

  /** `allowed_file`: a falsy category (absent or empty) means any category. */
  function AllowedFile(filename: string, category: Option<string>): bool {
    match Extension(filename)
    case None => false
    case Some(ext) =>
      if category.Some? && category.value != "" then ext in CategoryExtensions(category.value)
      else ext in ImageExtensions + VideoExtensions
  }

  /** `get_file_type`: the extension alone decides, and it decides exactly as
      `allowed_file` does for the image and the video category. */
  function GetFileType(filename: string): (r: MediaType)
    ensures r == Unknown <==> !AllowedFile(filename, None)
    ensures r == Image <==> AllowedFile(filename, Some("image"))
    ensures r == Video <==> AllowedFile(filename, Some("video"))
  {
    match Extension(filename)
    case None => Unknown
    case Some(ext) =>
      if ext in ImageExtensions then Image
      else if ext in VideoExtensions then Video
      else Unknown
  }

  /** A name without a dot is never allowed; a category other than image and
      video allows nothing; no category allows what either category allows. */
  lemma AllowedFileCategories(filename: string, category: string)
    ensures '.' !in filename ==> !AllowedFile(filename, Some(category))
    ensures category !in {"", "image", "video"} ==> !AllowedFile(filename, Some(category))
    ensures AllowedFile(filename, None) <==>
              AllowedFile(filename, Some("image")) || AllowedFile(filename, Some("video"))
    ensures AllowedFile(filename, Some("")) == AllowedFile(filename, None)
  {
  }

  /** The image and video extension sets are disjoint, so no name is both. */
  lemma CategoriesDisjoint(filename: string)
    ensures ImageExtensions * VideoExtensions == {}
    ensures !(AllowedFile(filename, Some("image")) && AllowedFile(filename, Some("video")))
  {
  }

  /** Only the text after the last dot matters, in any letter case:
      `stem.EXT` is allowed exactly when `ext` lower-cased is in the category. */
  lemma AllowedByExtension(stem: string, ext: string, category: Option<string>)
    requires '.' !in ext
    ensures AllowedFile(stem + "." + ext, category) ==
              if category.Some? && category.value != "" then Lower(ext) in CategoryExtensions(category.value)
              else Lower(ext) in ImageExtensions + VideoExtensions
  {
    AfterLastOfJoin(stem, '.', ext);
    assert (stem + "." + ext)[|stem|] == '.';
  }

  /** JPEG, PNG and GIF signatures, and the MP4/QuickTime box names found at
      offset 4 (app.py:69-87). */
  const JpegSignature: seq<Byte> := [0xFF, 0xD8, 0xFF]
  const PngSignature: seq<Byte> := [0x89, 0x50, 0x4E, 0x47, 0x0D, 0x0A, 0x1A, 0x0A]
  const GifSignature: seq<Byte> := [0x47, 0x49, 0x46, 0x38]
  const FtypBox: seq<Byte> := [0x66, 0x74, 0x79, 0x70]
  const MoovBox: seq<Byte> := [0x6D, 0x6F, 0x6F, 0x76]
  const MdatBox: seq<Byte> := [0x6D, 0x64, 0x61, 0x74]

  /** Files above 5 MiB without a known signature count as video. */
  const VideoSizeThreshold: nat := 5 * 1024 * 1024

  predicate ImageSignature(data: seq<Byte>) {
    JpegSignature <= data || PngSignature <= data || GifSignature <= data
  }

  predicate VideoBox(data: seq<Byte>) {
    |data| >= 8 && (data[4..8] == FtypBox || data[4..8] == MoovBox || data[4..8] == MdatBox)
  }

  /** `detect_file_type_from_content` on the whole file, or `None` when it
      cannot be opened (the `except` branch). The header is the first twelve
      bytes, the size the length of the file. */
  function DetectFromContent(file: Option<seq<Byte>>): (r: MediaType)
    ensures r == Unknown <==> file.None?
    ensures file.Some? && ImageSignature(file.value) ==> r == Image
    ensures file.Some? && !ImageSignature(file.value) && VideoBox(file.value) ==> r == Video
    ensures file.Some? && !ImageSignature(file.value) && !VideoBox(file.value) ==>
              (r == Video <==> |file.value| > VideoSizeThreshold)
  {
    match file
    case None => Unknown
    case Some(data) =>
      var header := Slice(data, 0, 12);
      var box := Slice(header, 4, 8);
      assert (Slice(header, 0, 3) == JpegSignature) == (JpegSignature <= data);
      assert (Slice(header, 0, 8) == PngSignature) == (PngSignature <= data);
      assert (Slice(header, 0, 4) == GifSignature) == (GifSignature <= data);
      assert |data| < 8 ==> |box| < 4;
      assert |data| >= 8 ==> box == data[4..8];
      if Slice(header, 0, 3) == JpegSignature then Image
      else if Slice(header, 0, 8) == PngSignature then Image
      else if Slice(header, 0, 4) == GifSignature then Image
      else if box == FtypBox then Video
      else if box == MoovBox || box == MdatBox then Video
      else if |data| > VideoSizeThreshold then Video
      else Image
  }

  /** A signature decides regardless of size: a JPEG header wins even over
      an `ftyp` box, and a box wins over any size. */
  lemma SignaturesBeatSize(tail: seq<Byte>, lead: seq<Byte>, rest: seq<Byte>)
    requires |lead| == 4 && lead[0] == 0
    ensures DetectFromContent(Some(JpegSignature + tail)) == Image
    ensures DetectFromContent(Some(lead + FtypBox + rest)) == Video
  {
    assert JpegSignature <= JpegSignature + tail;
    var data := lead + FtypBox + rest;
    assert data[0] == 0 && data[4..8] == FtypBox;
  }

  predicate IsSlash(c: char) {
    c == '/' || c == '\\'
  }

  /** `r` is the end of `name` after its last slash of either kind: a
      slash-free suffix that is all of `name` or follows a slash. */
  predicate AfterLastSlash(name: string, r: string) {
    && '/' !in r && '\\' !in r
    && |r| <= |name| && r == name[|name| - |r|..]
    && (|r| < |name| ==> IsSlash(name[|name| - |r| - 1]))
  }

  /** The name the browser sent, cut after the last '/' and then after the last
      '\\' (app.py:185-188). */
  function ClientBasename(name: string): (r: string)
    ensures AfterLastSlash(name, r)
  {
    var a := AfterLast(name, '/');
    var b := AfterLast(a, '\\');
    CutTwice(name, a, b);
    b
  }

  /** Cutting a suffix of `name` that follows a '/' again after a '\\'. */
  lemma CutTwice(name: string, a: string, b: string)
    requires |a| <= |name| && a == name[|name| - |a|..] && '/' !in a
    requires |a| < |name| ==> name[|name| - |a| - 1] == '/'
    requires |b| <= |a| && b == a[|a| - |b|..] && '\\' !in b
    requires |b| < |a| ==> a[|a| - |b| - 1] == '\\'
    ensures AfterLastSlash(name, b)
  {
    forall k | 0 <= k < |b| ensures b[k] != '/' {
      assert b[k] == a[|a| - |b| + k];
    }
    if |b| < |a| {
      assert name[|name| - |b| - 1] == a[|a| - |b| - 1];
    }
  }

  /** Cutting at both slashes is what the Windows basename does. */
  lemma ClientBasenameIsWindowsBasename(name: string)
    ensures ClientBasename(name) == Paths.Basename(Paths.Windows, name)
  {
    WindowsTail(name, Paths.Basename(Paths.Windows, name));
    SameSlashFreeTail(name, ClientBasename(name), Paths.Basename(Paths.Windows, name));
  }

  /** The Windows basename is the end of the path after its last slash. */
  lemma WindowsTail(name: string, w: string)
    requires |w| <= |name| && name[|name| - |w|..] == w
    requires Paths.NoSep(Paths.Windows, w)
    requires |w| < |name| ==> Paths.IsSep(Paths.Windows, name[|name| - |w| - 1])
    ensures AfterLastSlash(name, w)
  {
    forall k | 0 <= k < |w| ensures !IsSlash(w[k]) {
      assert !Paths.IsSep(Paths.Windows, w[k]);
    }
  }

  /** There is only one end of `name` after its last slash. */
  lemma SameSlashFreeTail(name: string, r: string, w: string)
    requires AfterLastSlash(name, r) && AfterLastSlash(name, w)
    ensures r == w
  {
    SlashFreeTail(name, r);
    SlashFreeTail(name, w);
    if |w| < |name| {
      assert IsSlash(name[|name| - |w| - 1]);
    }
    if |r| < |name| {
      assert IsSlash(name[|name| - |r| - 1]);
    }
    assert |r| == |w|;
  }

  /** Every character of a slash-free suffix is a non-slash of the whole. */
  lemma SlashFreeTail(name: string, r: string)
    requires |r| <= |name| && r == name[|name| - |r|..]
    requires '/' !in r && '\\' !in r
    ensures forall m :: |name| - |r| <= m < |name| ==> !IsSlash(name[m])
  {
    forall m | |name| - |r| <= m < |name| ensures !IsSlash(name[m]) {
      assert name[m] == r[m - (|name| - |r|)];
    }
  }

  /** A file name sent with any folder in front of it comes back unchanged. */
  lemma ClientBasenameOfPath(folder: string, leaf: string)
    requires folder == [] || IsSlash(folder[|folder| - 1])
    requires '/' !in leaf && '\\' !in leaf
    ensures ClientBasename(folder + leaf) == leaf
  {
    NoSepOfSlashFree(leaf);
    ClientBasenameIsWindowsBasename(folder + leaf);
    Paths.BasenameOf(Paths.Windows, folder, leaf);
  }

  lemma NoSepOfSlashFree(w: string)
    requires '/' !in w && '\\' !in w
    ensures Paths.NoSep(Paths.Windows, w)
  {
    forall k | 0 <= k < |w| ensures !Paths.IsSep(Paths.Windows, w[k]) {
      assert w[k] != '/' && w[k] != '\\';
    }
  }

  /** iOS/Safari sends every photo as `image.jpg`: such names become
      `mobile_<stamp>.<ext>` (app.py:191-195). */
  function MobileRename(name: string, stamp: string): (r: string)
    ensures StartsWith(name, "image.") || StartsWith(name, "video.") ==> StartsWith(r, "mobile_")
    ensures !StartsWith(name, "image.") && !StartsWith(name, "video.") ==> r == name
  {
    if StartsWith(name, "image.") || StartsWith(name, "video.") then
      "mobile_" + stamp + "." + AfterLast(name, '.')
    else name
  }

  /** The renamed file keeps its extension, provided the time stamp has no dot. */
  lemma MobileRenameKeepsExtension(name: string, stamp: string)
    requires '.' !in stamp
    ensures AfterLast(MobileRename(name, stamp), '.') == AfterLast(name, '.')
  {
    if StartsWith(name, "image.") || StartsWith(name, "video.") {
      AfterLastOfJoin("mobile_" + stamp, '.', AfterLast(name, '.'));
    }
  }

  /** The stored name: `secure_filename` of the client name, or
      `mobile_upload_<stamp>.<ext or jpg>` when that leaves fewer than three
      characters (app.py:200-208). `secure` stands for the foreign
      `secure_filename`. */
  function StoredName(original: string, secure: string -> string, stamp: string): (r: string)
    ensures |r| >= 3
    ensures |secure(original)| >= 3 ==> r == secure(original)
    ensures |secure(original)| < 3 ==> StartsWith(r, "mobile_upload_")
  {
    var filename := secure(original);
    if |filename| < 3 then
      var ext := if '.' in original then AfterLast(original, '.') else "jpg";
      "mobile_upload_" + stamp + "." + ext
    else filename
  }

  /** The type recorded for an upload: a MIME type containing `image/` or
      `video/` decides, else the extension, else the content (app.py:213-228).
      `mime` is `file.content_type or ""`. */
  function UploadType(mime: string, filename: string, content: Option<seq<Byte>>): (r: MediaType)
    ensures Contains(mime, "image/") ==> r == Image
    ensures !Contains(mime, "image/") && Contains(mime, "video/") ==> r == Video
    ensures !Contains(mime, "image/") && !Contains(mime, "video/") && AllowedFile(filename, None) ==>
              r == GetFileType(filename)
    ensures !Contains(mime, "image/") && !Contains(mime, "video/") && !AllowedFile(filename, None) ==>
              r == DetectFromContent(content)
  {
    if Contains(mime, "image/") then Image
    else if Contains(mime, "video/") then Video
    else
      var byName := GetFileType(filename);
      if byName == Unknown then DetectFromContent(content) else byName
  }

  /** The content is read only as a last resort: if two contents give
      different types, neither the MIME type nor the extension decided. */
  lemma ContentIsLastResort(mime: string, filename: string, c1: Option<seq<Byte>>, c2: Option<seq<Byte>>)
    requires UploadType(mime, filename, c1) != UploadType(mime, filename, c2)
    ensures !Contains(mime, "image/") && !Contains(mime, "video/") && !AllowedFile(filename, None)
  {
  }
}

=== FILE: filename_date.dfy ===
/** Recovery of an EXIF date (`YYYY:MM:DD`) and time (`HH:MM:SS`) from a file
    name (media_utils.py). Every regular expression of the source is a
    matcher anchored at a start position; `Find` scans for the leftmost start
    the way `re.search` does. The Persian-to-Gregorian conversion is a
    parameter (`toGregorian`), since it belongs to a calendar library. */
module FilenameDate {
  import opened Wrappers
  import opened Text
  import Paths

  // ---------------------------------------------------------------------
  // Leftmost-match scanning
  // ---------------------------------------------------------------------

  /** The first start at or after `from` where `at` matches. */
  function Search<T>(s: string, at: (string, nat) -> Option<T>, from: nat): (r: Option<(nat, T)>)
    decreases |s| + 1 - from
    ensures r.Some? ==> from <= r.value.0 <= |s| && at(s, r.value.0) == Some(r.value.1)
    ensures r.Some? ==> forall k :: from <= k < r.value.0 ==> at(s, k).None?
    ensures r.None? ==> forall k :: from <= k <= |s| ==> at(s, k).None?
  {
    if from > |s| then None
    else match at(s, from)
      case Some(g) => Some((from, g))
      case None => Search(s, at, from + 1)
  }

  /** `re.search`: the match at the leftmost start position, if any. */
  function Find<T>(s: string, at: (string, nat) -> Option<T>): Option<(nat, T)> {
    Search(s, at, 0)
  }

  /** A match starts at `k` and at no earlier position. */
  predicate LeftmostAt<T>(s: string, at: (string, nat) -> Option<T>, k: nat) {
    k <= |s| && at(s, k).Some? && forall j :: 0 <= j < k ==> at(s, j).None?
  }

  /** The pattern matches somewhere in `s`. */
  predicate Occurs<T>(s: string, at: (string, nat) -> Option<T>) {
    exists k :: 0 <= k <= |s| && at(s, k).Some?
  }

  /** `Find` returns exactly the leftmost match, and nothing when there is none. */
  lemma FindIsLeftmost<T>(s: string, at: (string, nat) -> Option<T>)
    ensures forall k: nat :: LeftmostAt(s, at, k) ==> Find(s, at) == Some((k, at(s, k).value))
    ensures Find(s, at).Some? ==> LeftmostAt(s, at, Find(s, at).value.0)
    ensures Find(s, at).None? <==> !Occurs(s, at)
  {
    var r := Find(s, at);
    forall k: nat | LeftmostAt(s, at, k) ensures r == Some((k, at(s, k).value)) {
      if r.None? || r.value.0 != k {
        assert false;
      }
    }
  }

  // ---------------------------------------------------------------------
  // Pattern pieces
  // ---------------------------------------------------------------------

  /** Exactly `n` characters satisfying `ok` at `i` (`\d{n}`, `\w{3}`): the
      text and the position after it. */
  function Run(s: string, i: nat, n: nat, ok: char -> bool): (r: Option<(string, nat)>)
    ensures r.Some? ==> r.value.1 == i + n <= |s| && r.value.0 == s[i..i + n]
    ensures r.Some? ==> forall k :: 0 <= k < n ==> ok(r.value.0[k])
    ensures r.None? ==> i + n > |s| || exists k :: i <= k < i + n && !ok(s[k])
  {
    if i + n <= |s| && forall k :: i <= k < i + n ==> ok(s[k]) then Some((s[i..i + n], i + n)) else None
  }

  /** Greedy `\d{1,2}` at `i`. Wherever the source follows this group with a
      non-digit literal, backtracking from two digits to one cannot succeed
      (the character after one digit is the second digit), so the greedy
      choice is the one the regex engine reports. */
  function ShortDigits(s: string, i: nat): (r: Option<(string, nat)>)
    ensures r.Some? ==> i < r.value.1 <= i + 2 && r.value.1 <= |s| && r.value.0 == s[i..r.value.1]
    ensures r.Some? ==> AllDigits(r.value.0)
    ensures r.None? <==> i >= |s| || !IsDigit(s[i])
  {
    if i + 2 <= |s| && IsDigit(s[i]) && IsDigit(s[i + 1]) then Some((s[i..i + 2], i + 2))
    else if i < |s| && IsDigit(s[i]) then Some((s[i..i + 1], i + 1))
    else None
  }

  /** One character satisfying `ok` at `i`: the position after it. */
  function Char(s: string, i: nat, ok: char -> bool): (r: Option<nat>)
    ensures r.Some? <==> i < |s| && ok(s[i])
    ensures r.Some? ==> r.value == i + 1
  {
    if i < |s| && ok(s[i]) then Some(i + 1) else None
  }

  /** The literal `lit` at `i`: the position after it. */
  function Literal(s: string, i: nat, lit: string): (r: Option<nat>)
    ensures r.Some? <==> i <= |s| && lit <= s[i..]
    ensures r.Some? ==> r.value == i + |lit|
  {
    if i <= |s| && lit <= s[i..] then Some(i + |lit|) else None
  }

  predicate IsDashOrUnderscore(c: char) {
    c == '-' || c == '_'
  }

  predicate IsDot(c: char) {
    c == '.'
  }

  predicate IsUnderscore(c: char) {
    c == '_'
  }

  predicate IsDashOrDot(c: char) {
    c == '-' || c == '.'
  }

  // ---------------------------------------------------------------------
  // The source's patterns
  // ---------------------------------------------------------------------

  /** What `\d{1,2}` captures. */
  predicate ShortGroup(g: string) {
    1 <= |g| <= 2 && AllDigits(g)
  }

  datatype Ymd = Ymd(year: string, month: string, day: string) {
    predicate WellFormed() {
      |year| == 4 && AllDigits(year) && ShortGroup(month) && ShortGroup(day)
    }

    /** `f"{y}:{m.zfill(2)}:{d.zfill(2)}"` */
    function Exif(): string {
      year + ":" + ZeroPad2(month) + ":" + ZeroPad2(day)
    }
  }

  datatype Hms = Hms(hour: string, minute: string, second: string) {
    predicate WellFormed() {
      ShortGroup(hour) && ShortGroup(minute) && ShortGroup(second)
    }

    /** `f"{h.zfill(2)}:{mi.zfill(2)}:{s.zfill(2)}"` */
    function Clock(): string {
      ZeroPad2(hour) + ":" + ZeroPad2(minute) + ":" + ZeroPad2(second)
    }
  }

  datatype Stamp = Stamp(date: Ymd, time: Hms)

  datatype StatusDate = StatusDate(month: string, day: string, year: string)

  /** `(\d{8})` */
  function EightAt(s: string, i: nat): (r: Option<string>)
    ensures r.Some? ==> i + 8 <= |s| && r.value == s[i..i + 8] && AllDigits(r.value)
  {
    var g :- Run(s, i, 8, IsDigit);
    Some(g.0)
  }

  /** `(\d{4})[-_](\d{1,2})[-_](\d{1,2})`, with the position after the match. */
  function YmdAt(s: string, i: nat): (r: Option<(Ymd, nat)>)
    ensures r.Some? ==> r.value.0.WellFormed() && r.value.1 <= |s|
  {
    var y :- Run(s, i, 4, IsDigit);
    var p :- Char(s, y.1, IsDashOrUnderscore);
    var m :- ShortDigits(s, p);
    var q :- Char(s, m.1, IsDashOrUnderscore);
    var d :- ShortDigits(s, q);
    Some((Ymd(y.0, m.0, d.0), d.1))
  }

  /** `(\d{1,2})[.](\d{1,2})[.](\d{1,2})` */
  function HmsAt(s: string, i: nat): (r: Option<Hms>)
    ensures r.Some? ==> r.value.WellFormed()
  {
    var h :- ShortDigits(s, i);
    var p :- Char(s, h.1, IsDot);
    var m :- ShortDigits(s, p);
    var q :- Char(s, m.1, IsDot);
    var sec :- ShortDigits(s, q);
    Some(Hms(h.0, m.0, sec.0))
  }

  /** `(\d{4})[-_](\d{1,2})[-_](\d{1,2})[-_](\d{1,2})[.](\d{1,2})[.](\d{1,2})` */
  function StampAt(s: string, i: nat): (r: Option<Stamp>)
    ensures r.Some? ==> r.value.date.WellFormed() && r.value.time.WellFormed()
  {
    var d :- YmdAt(s, i);
    var p :- Char(s, d.1, IsDashOrUnderscore);
    var t :- HmsAt(s, p);
    Some(Stamp(d.0, t))
  }

  /** `Status_(\w{3})_(\d{1,2})_(\d{4})` */
  function StatusAt(s: string, i: nat): (r: Option<StatusDate>)
    ensures r.Some? ==> |r.value.month| == 3 && ShortGroup(r.value.day)
    ensures r.Some? ==> |r.value.year| == 4 && AllDigits(r.value.year)
  {
    var p :- Literal(s, i, "Status_");
    var w :- Run(s, p, 3, IsWordChar);
    var q :- Char(s, w.1, IsUnderscore);
    var d :- ShortDigits(s, q);
    var r :- Char(s, d.1, IsUnderscore);
    var y :- Run(s, r, 4, IsDigit);
    Some(StatusDate(w.0, d.0, y.0))
  }

  /** `_(\d{9})$`; Python's `$` also matches just before a final newline. */
  function TailNineAt(s: string, i: nat): (r: Option<string>)
    ensures r.Some? ==> |r.value| == 9 && AllDigits(r.value)
  {
    var p :- Char(s, i, IsUnderscore);
    var t :- Run(s, p, 9, IsDigit);
    if t.1 == |s| || (t.1 + 1 == |s| && s[t.1] == '\n') then Some(t.0) else None
  }

  /** `_(\d{6})[-\.]` */
  function SixAt(s: string, i: nat): (r: Option<string>)
    ensures r.Some? ==> |r.value| == 6 && AllDigits(r.value)
  {
    var p :- Char(s, i, IsUnderscore);
    var t :- Run(s, p, 6, IsDigit);
    var q :- Char(s, t.1, IsDashOrDot);
    Some(t.0)
  }

  // ---------------------------------------------------------------------
  // Date helpers
  // ---------------------------------------------------------------------

  const MonthAbbreviations: seq<string> :=
    ["Jan", "Feb", "Mar", "Apr", "May", "Jun", "Jul", "Aug", "Sep", "Oct", "Nov", "Dec"]

  const MonthCodes: map<string, string> :=
    map["Jan" := "01", "Feb" := "02", "Mar" := "03", "Apr" := "04",
        "May" := "05", "Jun" := "06", "Jul" := "07", "Aug" := "08",
        "Sep" := "09", "Oct" := "10", "Nov" := "11", "Dec" := "12"]

  /** `month_dict.get(abbr, '01')` */
  function MonthCode(abbr: string): string {
    if abbr in MonthCodes then MonthCodes[abbr] else "01"
  }

  function StatusExif(d: StatusDate): string {
    d.year + ":" + MonthCode(d.month) + ":" + ZeroPad2(d.day)
  }

  /** `f"{t[:2]}:{t[2:4]}:{t[4:6]}"` */
  function DigitsClock(t: string): string {
    Slice(t, 0, 2) + ":" + Slice(t, 2, 4) + ":" + Slice(t, 4, 6)
  }

  /** `is_persian_date`: the three `int()` conversions happen before any
      test, so a string whose year, month or day slice is not an integer is
      not Persian. A year of 1300-1500 with a valid month and day is Persian
      unless months 7-12 have day 31; a year of 2000-2050 is not; every
      other year (including 1300-1500 with an invalid month or day) is. */
  function IsPersianDate(s: string): bool {
    match (ParseInt(Slice(s, 0, 4)), ParseInt(Slice(s, 4, 6)), ParseInt(Slice(s, 6, 8)))
    case (Some(year), Some(month), Some(day)) => PersianRule(year, month, day)
    case _ => false
  }

  /** The decision once the year, the month and the day are read. */
  function PersianRule(year: int, month: int, day: int): bool {
    if 1300 <= year <= 1500 && 1 <= month <= 12 && 1 <= day <= 31 then
      if month <= 6 then day <= 31
      else if month <= 11 then day <= 30
      else day <= 30
    else
      !(2000 <= year <= 2050)
  }

  /** `gregorian_date_to_exif_format`: slicing never raises on a string, so
      the `except` branch of the source is unreachable. On eight characters
      the result is those characters with ':' after the year and the month. */
  function GregorianToExif(s: string): (r: string)
    ensures |s| == 8 ==> |r| == 10 && r[4] == ':' && r[7] == ':'
    ensures |s| == 8 ==> r[..4] + r[5..7] + r[8..] == s
  {
    var year, month, day := Slice(s, 0, 4), Slice(s, 4, 6), Slice(s, 6, 8);
    var r := year + ":" + month + ":" + day;
    assert |s| == 8 ==> r[..4] == year && r[5..7] == month && r[8..] == day && year + month + day == s;
    r
  }

  // ---------------------------------------------------------------------
  // extract_datetime_from_filename
  // ---------------------------------------------------------------------

  /** Date of the first eight-digit run, through the Persian heuristic. */
  function EightDigitDate(b: string, toGregorian: string -> Option<string>): Option<string> {
    match Find(b, EightAt)
    case None => None
    case Some(m) => if IsPersianDate(m.1) then toGregorian(m.1) else Some(GregorianToExif(m.1))
  }

  /** The date when no full timestamp matched: a `Status_` date overrides a
      `Y-M-D` date, which overrides the eight-digit date. */
  function FallbackDate(b: string, toGregorian: string -> Option<string>): Option<string> {
    match Find(b, StatusAt)
    case Some(st) => Some(StatusExif(st.1))
    case None =>
      match Find(b, YmdAt)
      case Some(d) => Some(d.1.0.Exif())
      case None => EightDigitDate(b, toGregorian)
  }

  /** The time when no full timestamp matched: `h.m.s`, then a final `_`
      with nine digits, then `_` with six digits and a '-' or '.'. */
  function FallbackTime(b: string): Option<string> {
    match Find(b, HmsAt)
    case Some(t) => Some(t.1.Clock())
    case None =>
      match Find(b, TailNineAt)
      case Some(t) => Some(DigitsClock(t.1))
      case None =>
        match Find(b, SixAt)
        case Some(t) => Some(DigitsClock(t.1))
        case None => None
  }

  /** The date and time recovered from a stem (a base name without extension). */
  function FromStem(b: string, toGregorian: string -> Option<string>): (Option<string>, Option<string>) {
    match Find(b, StampAt)
    case Some(st) => (Some(st.1.date.Exif()), Some(st.1.time.Clock()))
    case None => (FallbackDate(b, toGregorian), FallbackTime(b))
  }

  /** `extract_datetime_from_filename`; `f` is the `os.path` flavour of the host. */
  function ExtractDateTime(f: Paths.Flavor, filename: string, toGregorian: string -> Option<string>)
    : (r: (Option<string>, Option<string>))
    ensures r.1.Some? ==> IsClockTime(r.1.value)
  {
    TimeIsClock(Paths.Stem(f, filename), toGregorian);
    FromStem(Paths.Stem(f, filename), toGregorian)
  }

  // ---------------------------------------------------------------------
  // Properties
  // ---------------------------------------------------------------------

  /** `HH:MM:SS` */
  predicate IsClockTime(t: string) {
    && |t| == 8 && t[2] == ':' && t[5] == ':'
    && IsDigit(t[0]) && IsDigit(t[1]) && IsDigit(t[3]) && IsDigit(t[4]) && IsDigit(t[6]) && IsDigit(t[7])
  }

  /** `YYYY:MM:DD` */
  predicate IsExifDate(d: string) {
    && |d| == 10 && d[4] == ':' && d[7] == ':'
    && IsDigit(d[0]) && IsDigit(d[1]) && IsDigit(d[2]) && IsDigit(d[3])
    && IsDigit(d[5]) && IsDigit(d[6]) && IsDigit(d[8]) && IsDigit(d[9])
  }

  predicate IsTwoDigits(g: string) {
    |g| == 2 && AllDigits(g)
  }

  lemma PadShortGroup(g: string)
    requires ShortGroup(g)
    ensures IsTwoDigits(ZeroPad2(g))
  {
  }

  /** Zero padding keeps the digits of the group at the right. */
  lemma PadKeepsDigits(g: string)
    requires ShortGroup(g)
    ensures ZeroPad2(g)[2 - |g|..] == g
    ensures |g| == 1 ==> ZeroPad2(g)[0] == '0'
  {
  }

  lemma ThreeTwos(a: string, b: string, c: string)
    requires IsTwoDigits(a) && IsTwoDigits(b) && IsTwoDigits(c)
    ensures IsClockTime(a + ":" + b + ":" + c)
  {
    var t := a + ":" + b + ":" + c;
    assert t[0] == a[0] && t[1] == a[1] && t[3] == b[0] && t[4] == b[1] && t[6] == c[0] && t[7] == c[1];
  }

  lemma HmsClockShape(h: Hms)
    requires h.WellFormed()
    ensures IsClockTime(h.Clock())
  {
    PadShortGroup(h.hour);
    PadShortGroup(h.minute);
    PadShortGroup(h.second);
    ThreeTwos(ZeroPad2(h.hour), ZeroPad2(h.minute), ZeroPad2(h.second));
  }

  lemma DigitsClockShape(t: string)
    requires |t| >= 6 && AllDigits(t)
    ensures IsClockTime(DigitsClock(t))
  {
    assert Slice(t, 0, 2) == t[0..2] && Slice(t, 2, 4) == t[2..4] && Slice(t, 4, 6) == t[4..6];
    ThreeTwos(t[0..2], t[2..4], t[4..6]);
  }

  lemma FourTwoTwo(y: string, m: string, d: string)
    requires |y| == 4 && AllDigits(y) && IsTwoDigits(m) && IsTwoDigits(d)
    ensures IsExifDate(y + ":" + m + ":" + d)
  {
    var r := y + ":" + m + ":" + d;
    assert r[0] == y[0] && r[1] == y[1] && r[2] == y[2] && r[3] == y[3];
    assert r[5] == m[0] && r[6] == m[1] && r[8] == d[0] && r[9] == d[1];
  }

  lemma YmdExifShape(d: Ymd)
    requires d.WellFormed()
    ensures IsExifDate(d.Exif())
  {
    PadShortGroup(d.month);
    PadShortGroup(d.day);
    FourTwoTwo(d.year, ZeroPad2(d.month), ZeroPad2(d.day));
  }

  /** Every month code is two digits; any text other than the twelve
      abbreviations maps to January. */
  lemma MonthTable(abbr: string)
    ensures IsTwoDigits(MonthCode(abbr))
    ensures abbr !in MonthAbbreviations ==> MonthCode(abbr) == "01"
  {
  }

  /** The table maps the n-th abbreviation to the two-digit rendering of n + 1. */
  lemma MonthOrder(n: nat)
    requires n < 12
    ensures MonthCode(MonthAbbreviations[n]) == TwoDigits(n + 1)
  {
  }

  /** An eight-digit date that is not Persian becomes `YYYY:MM:DD`, and
      dropping the two colons gives the digits back. */
  lemma GregorianShape(s: string)
    requires |s| == 8 && AllDigits(s)
    ensures IsExifDate(GregorianToExif(s))
  {
    var r := GregorianToExif(s);
    assert r[..4] + r[5..7] + r[8..] == s;
    assert r[0] == s[0] && r[1] == s[1] && r[2] == s[2] && r[3] == s[3];
    assert r[5] == s[4] && r[6] == s[5] && r[8] == s[6] && r[9] == s[7];
  }

  /** Every time the extractor reports is `HH:MM:SS`: each path either
      zero-pads one- or two-digit groups or cuts the first six of a run of digits. */
  lemma {:induction false} TimeIsClock(b: string, g: string -> Option<string>)
    ensures FromStem(b, g).1.Some? ==> IsClockTime(FromStem(b, g).1.value)
  {
    match Find(b, StampAt)
    case Some(st) => HmsClockShape(st.1.time);
    case None =>
      match Find(b, HmsAt)
      case Some(t) => HmsClockShape(t.1);
      case None =>
        match Find(b, TailNineAt)
        case Some(t) => DigitsClockShape(t.1);
        case None =>
          match Find(b, SixAt)
          case Some(t) => DigitsClockShape(t.1);
          case None =>
  }

  /** Every date the extractor reports is `YYYY:MM:DD`, provided the Persian
      conversion only ever returns dates of that shape. */
  lemma {:induction false} DateIsExif(b: string, g: string -> Option<string>)
    requires forall x :: g(x).Some? ==> IsExifDate(g(x).value)
    ensures FromStem(b, g).0.Some? ==> IsExifDate(FromStem(b, g).0.value)
  {
    match Find(b, StampAt)
    case Some(st) => YmdExifShape(st.1.date);
    case None =>
      match Find(b, StatusAt)
      case Some(st) =>
        MonthTable(st.1.month);
        PadShortGroup(st.1.day);
        FourTwoTwo(st.1.year, MonthCode(st.1.month), ZeroPad2(st.1.day));
      case None =>
        match Find(b, YmdAt)
        case Some(d) => YmdExifShape(d.1.0);
        case None =>
          match Find(b, EightAt)
          case Some(e) => GregorianShape(e.1);
          case None =>
  }

  /** A time is reported exactly when one of the four time patterns occurs
      somewhere in the stem. */
  lemma TimeIffPattern(b: string, g: string -> Option<string>)
    ensures FromStem(b, g).1.Some? <==>
              Occurs(b, StampAt) || Occurs(b, HmsAt) || Occurs(b, TailNineAt) || Occurs(b, SixAt)
  {
    FindIsLeftmost(b, StampAt);
    FindIsLeftmost(b, HmsAt);
    FindIsLeftmost(b, TailNineAt);
    FindIsLeftmost(b, SixAt);
  }

  /** The leftmost full `Y-M-D-h.m.s` timestamp decides both fields, whatever
      other patterns occur, earlier or later. */
  lemma TimestampWins(b: string, g: string -> Option<string>, k: nat)
    requires LeftmostAt(b, StampAt, k)
    ensures FromStem(b, g) == (Some(StampAt(b, k).value.date.Exif()), Some(StampAt(b, k).value.time.Clock()))
  {
    FindIsLeftmost(b, StampAt);
  }

  /** Without a full timestamp, the date comes from the leftmost `Status_`
      date, else the leftmost `Y-M-D`, else the leftmost eight-digit run. */
  lemma DatePrecedence(b: string, g: string -> Option<string>)
    requires !Occurs(b, StampAt)
    ensures forall k: nat :: LeftmostAt(b, StatusAt, k) ==>
              FromStem(b, g).0 == Some(StatusExif(StatusAt(b, k).value))
    ensures !Occurs(b, StatusAt) ==> forall k: nat :: LeftmostAt(b, YmdAt, k) ==>
              FromStem(b, g).0 == Some(YmdAt(b, k).value.0.Exif())
    ensures !Occurs(b, StatusAt) && !Occurs(b, YmdAt) ==> forall k: nat :: LeftmostAt(b, EightAt, k) ==>
              FromStem(b, g).0 == (var e := EightAt(b, k).value;
                                   if IsPersianDate(e) then g(e) else Some(GregorianToExif(e)))
    ensures !Occurs(b, StatusAt) && !Occurs(b, YmdAt) && !Occurs(b, EightAt) ==> FromStem(b, g).0.None?
  {
    FindIsLeftmost(b, StampAt);
    FindIsLeftmost(b, StatusAt);
    FindIsLeftmost(b, YmdAt);
    FindIsLeftmost(b, EightAt);
  }

  /** Without a full timestamp, the time comes from the leftmost `h.m.s`,
      else a final `_` and nine digits, else the leftmost `_`, six digits and
      '-' or '.'; with none of them there is no time. */
  lemma TimePrecedence(b: string, g: string -> Option<string>)
    requires !Occurs(b, StampAt)
    ensures forall k: nat :: LeftmostAt(b, HmsAt, k) ==> FromStem(b, g).1 == Some(HmsAt(b, k).value.Clock())
    ensures !Occurs(b, HmsAt) ==> forall k: nat :: LeftmostAt(b, TailNineAt, k) ==>
              FromStem(b, g).1 == Some(DigitsClock(TailNineAt(b, k).value))
    ensures !Occurs(b, HmsAt) && !Occurs(b, TailNineAt) ==> forall k: nat :: LeftmostAt(b, SixAt, k) ==>
              FromStem(b, g).1 == Some(DigitsClock(SixAt(b, k).value))
    ensures !Occurs(b, HmsAt) && !Occurs(b, TailNineAt) && !Occurs(b, SixAt) ==> FromStem(b, g).1.None?
  {
    FindIsLeftmost(b, StampAt);
    FindIsLeftmost(b, HmsAt);
    FindIsLeftmost(b, TailNineAt);
    FindIsLeftmost(b, SixAt);
  }

  /** Only the stem counts: the folder and the extension of a path never
      change what is extracted. */
  lemma FolderAndExtensionIgnored(f: Paths.Flavor, dir: string, stem: string, ext: string,
                                  g: string -> Option<string>)
    requires dir == [] || Paths.IsSep(f, dir[|dir| - 1])
    requires Paths.NoSep(f, stem)
    requires exists i :: 0 <= i < |stem| && stem[i] != '.'
    requires |ext| > 0 && ext[0] == '.'
    requires forall i :: 1 <= i < |ext| ==> ext[i] != '.' && !Paths.IsSep(f, ext[i])
    ensures ExtractDateTime(f, dir + stem + ext, g) == FromStem(stem, g)
  {
    Paths.StemOfComposed(f, dir, stem, ext);
  }

  /** `is_persian_date` on eight digits, in terms of the year, month and day they spell. */
  lemma PersianHeuristic(s: string)
    requires |s| == 8 && AllDigits(s)
    ensures var y, m, d := DigitValue(s[0..4]), DigitValue(s[4..6]), DigitValue(s[6..8]);
            IsPersianDate(s) == if 1300 <= y <= 1500 && 1 <= m <= 12 && 1 <= d <= 31 then m <= 6 || d <= 30
                                else !(2000 <= y <= 2050)
  {
    SliceParses(s, 0, 4);
    SliceParses(s, 4, 6);
    SliceParses(s, 6, 8);
    PersianOfParts(s, DigitValue(s[0..4]), DigitValue(s[4..6]), DigitValue(s[6..8]));
  }

  /** A slice of a run of digits reads as its decimal value. */
  lemma SliceParses(s: string, i: nat, j: nat)
    requires i < j <= |s| && AllDigits(s)
    ensures ParseInt(Slice(s, i, j)) == Some(DigitValue(s[i..j]))
  {
    var t := s[i..j];
    assert Slice(s, i, j) == t;
    forall k | 0 <= k < |t| ensures IsDigit(t[k]) {
      assert t[k] == s[i + k];
    }
    ParseDigits(t);
  }

  lemma PersianOfParts(s: string, y: int, m: int, d: int)
    requires ParseInt(Slice(s, 0, 4)) == Some(y)
    requires ParseInt(Slice(s, 4, 6)) == Some(m)
    requires ParseInt(Slice(s, 6, 8)) == Some(d)
    ensures IsPersianDate(s) == if 1300 <= y <= 1500 && 1 <= m <= 12 && 1 <= d <= 31 then m <= 6 || d <= 30
                                else !(2000 <= y <= 2050)
  {
  }

  /** A letter among the first eight characters makes one of the three
      `int()` conversions raise, so the string is not Persian. */
  lemma LetterIsNotPersian(s: string, i: int)
    requires 0 <= i < |s| && i < 8 && IsLetter(s[i])
    ensures !IsPersianDate(s)
  {
    if i < 4 {
      assert Slice(s, 0, 4)[i] == s[i];
      LetterIsNotInt(Slice(s, 0, 4), i);
    } else if i < 6 {
      assert Slice(s, 4, 6)[i - 4] == s[i];
      LetterIsNotInt(Slice(s, 4, 6), i - 4);
    } else {
      assert Slice(s, 6, 8)[i - 6] == s[i];
      LetterIsNotInt(Slice(s, 6, 8), i - 6);
    }
  }

  /** Six characters or fewer leave the day slice empty, and `int("")` raises. */
  lemma ShortIsNotPersian(s: string)
    requires |s| <= 6
    ensures !IsPersianDate(s)
  {
    assert Slice(s, 6, 8) == "";
    EmptyIsNotInt();
  }
}

=== FILE: paths.dfy ===
/** The parts of Python's `os.path` the core relies on. `posixpath` separates
    path components with '/', `ntpath` with both '/' and '\'. Windows drive
    prefixes (`C:name`) and UNC shares are not modelled. */
module Paths {
  import opened Text

  datatype Flavor = Posix | Windows {
    /** The separator `os.path.join` inserts. */
    function Separator(): char {
      if Posix? then '/' else '\\'
    }
  }

  predicate IsSep(f: Flavor, c: char) {
    c == '/' || (f.Windows? && c == '\\')
  }

  predicate NoSep(f: Flavor, s: string) {
    forall i :: 0 <= i < |s| ==> !IsSep(f, s[i])
  }

  /** Index of the last separator, or -1. */
  function LastSep(f: Flavor, p: string): (r: int)
    ensures -1 <= r < |p|
    ensures 0 <= r ==> IsSep(f, p[r])
    ensures forall k :: r < k < |p| ==> !IsSep(f, p[k])
  {
    if |p| == 0 then -1
    else if IsSep(f, p[|p| - 1]) then |p| - 1
    else LastSep(f, p[..|p| - 1])
  }

  /** `os.path.basename`: the longest suffix free of separators. */
  function Basename(f: Flavor, p: string): (r: string)
    ensures |r| <= |p| && p[|p| - |r|..] == r
    ensures NoSep(f, r)
    ensures |r| < |p| ==> IsSep(f, p[|p| - |r| - 1])
  {
    if |p| == 0 || IsSep(f, p[|p| - 1]) then []
    else
      var r' := Basename(f, p[..|p| - 1]);
      SnocSuffix(p, r');
      r' + [p[|p| - 1]]
  }

  /** The basename starts right after the last separator (`p[p.rfind(sep) + 1:]`). */
  lemma BasenameAt(f: Flavor, p: string)
    ensures Basename(f, p) == p[LastSep(f, p) + 1..]
  {
    BasenameLength(f, p);
  }

  lemma {:induction false} BasenameLength(f: Flavor, p: string)
    ensures |Basename(f, p)| == |p| - 1 - LastSep(f, p)
  {
    if |p| > 0 && !IsSep(f, p[|p| - 1]) {
      var q := p[..|p| - 1];
      BasenameLength(f, q);
      assert LastSep(f, p) == LastSep(f, q);
    }
  }

  /** `os.path.splitext`: the extension runs from the last dot of the last
      component to the end, provided that component has something other than
      dots before that dot; otherwise there is no extension. */
  function SplitExt(f: Flavor, p: string): (r: (string, string))
    ensures r.0 + r.1 == p
    ensures r.1 != [] ==> r.1[0] == '.' && forall i :: 1 <= i < |r.1| ==> r.1[i] != '.' && !IsSep(f, r.1[i])
  {
    var sep := LastSep(f, p);
    var dot := LastIndex(p, '.');
    SplitExtTail(f, p, sep, dot);
    SplitAt(p, sep, dot)
  }

  /** When `splitext` finds an extension: exactly when the last component has
      a dot after something other than a dot, and then the extension is shorter
      than that component, which keeps a non-dot before it. */
  lemma SplitExtSpec(f: Flavor, p: string)
    ensures var r := SplitExt(f, p);
            var b := Basename(f, p);
            r.1 != [] ==> |r.1| < |b| && exists i :: 0 <= i < |b| - |r.1| && b[i] != '.'
    ensures var b := Basename(f, p);
            (exists i, j :: 0 <= i < j < |b| && b[i] != '.' && b[j] == '.') ==> SplitExt(f, p).1 != []
  {
    var sep := LastSep(f, p);
    var dot := LastIndex(p, '.');
    BasenameAt(f, p);
    SplitExtStem(p, sep, dot, Basename(f, p));
    SplitExtFound(p, sep, dot, Basename(f, p));
  }

  /** The last dot `dot` lies in the last component, after something other than a dot. */
  predicate HasExtension(p: string, sep: int, dot: int)
    requires -1 <= sep && dot < |p|
  {
    sep < dot && exists k :: sep < k < dot && p[k] != '.'
  }

  function SplitAt(p: string, sep: int, dot: int): (string, string)
    requires -1 <= sep && -1 <= dot < |p|
  {
    if HasExtension(p, sep, dot) then (p[..dot], p[dot..]) else (p, [])
  }

  lemma SplitExtTail(f: Flavor, p: string, sep: int, dot: int)
    requires sep == LastSep(f, p) && dot == LastIndex(p, '.')
    ensures var r := SplitAt(p, sep, dot);
            r.0 + r.1 == p
            && (r.1 != [] ==> r.1[0] == '.' && forall i :: 1 <= i < |r.1| ==> r.1[i] != '.' && !IsSep(f, r.1[i]))
  {
  }

  lemma SplitExtStem(p: string, sep: int, dot: int, b: string)
    requires -1 <= sep < |p| && -1 <= dot < |p| && b == p[sep + 1..]
    ensures var r := SplitAt(p, sep, dot);
            r.1 != [] ==> |r.1| < |b| && exists i :: 0 <= i < |b| - |r.1| && b[i] != '.'
  {
    if HasExtension(p, sep, dot) {
      var k :| sep < k < dot && p[k] != '.';
      assert b[k - sep - 1] == p[k];
    }
  }

  lemma SplitExtFound(p: string, sep: int, dot: int, b: string)
    requires -1 <= sep < |p| && -1 <= dot < |p| && b == p[sep + 1..]
    requires forall k :: dot < k < |p| ==> p[k] != '.'
    ensures (exists i, j :: 0 <= i < j < |b| && b[i] != '.' && b[j] == '.') ==> SplitAt(p, sep, dot).1 != []
  {
    if exists i, j :: 0 <= i < j < |b| && b[i] != '.' && b[j] == '.' {
      var i, j :| 0 <= i < j < |b| && b[i] != '.' && b[j] == '.';
      assert p[sep + 1 + j] == b[j];
      assert p[sep + 1 + i] == b[i];
      assert sep + 1 + j <= dot;
      assert sep < sep + 1 + i < dot && p[sep + 1 + i] != '.';
      assert HasExtension(p, sep, dot);
    }
  }

  /** The last component without its extension: `splitext(basename(p))[0]`. */
  function Stem(f: Flavor, p: string): string {
    SplitExt(f, Basename(f, p)).0
  }

  function TrimTrailingSeps(f: Flavor, s: string): string {
    if |s| > 0 && IsSep(f, s[|s| - 1]) then TrimTrailingSeps(f, s[..|s| - 1]) else s
  }

  /** `os.path.dirname`: everything up to the last separator, with trailing
      separators removed unless nothing else is left. */
  function Dirname(f: Flavor, p: string): string {
    var head := p[..LastSep(f, p) + 1];
    var trimmed := TrimTrailingSeps(f, head);
    if trimmed == [] then head else trimmed
  }

  /** `os.path.join(a, b)`. */
  function Join(f: Flavor, a: string, b: string): string {
    if |b| > 0 && IsSep(f, b[0]) then b
    else if a == [] || IsSep(f, a[|a| - 1]) then a + b
    else a + [f.Separator()] + b
  }

  /** The contract of `LastSep` pins it down. */
  lemma LastSepIs(f: Flavor, s: string, i: int)
    requires -1 <= i < |s|
    requires 0 <= i ==> IsSep(f, s[i])
    requires forall k :: i < k < |s| ==> !IsSep(f, s[k])
    ensures LastSep(f, s) == i
  {
  }

  /** The basename of `dir + name` is `name` when `name` has no separator and
      `dir` is empty or ends with one. */
  lemma BasenameOf(f: Flavor, dir: string, name: string)
    requires dir == [] || IsSep(f, dir[|dir| - 1])
    requires NoSep(f, name)
    ensures Basename(f, dir + name) == name
  {
    var p := dir + name;
    LastSepIs(f, p, |dir| - 1);
    BasenameAt(f, p);
    assert p[|dir|..] == name;
  }

  /** Directory components and the extension never reach the stem. */
  lemma StemOfComposed(f: Flavor, dir: string, stem: string, ext: string)
    requires dir == [] || IsSep(f, dir[|dir| - 1])
    requires NoSep(f, stem)
    requires exists i :: 0 <= i < |stem| && stem[i] != '.'
    requires |ext| > 0 && ext[0] == '.'
    requires forall i :: 1 <= i < |ext| ==> ext[i] != '.' && !IsSep(f, ext[i])
    ensures Stem(f, dir + stem + ext) == stem
  {
    var name := stem + ext;
    ExtNoSep(f, ext);
    JoinNoSep(f, stem, ext);
    assert dir + stem + ext == dir + name;
    StemBehindDir(f, dir, name);
    SplitStemExt(f, stem, ext);
  }

  /** A directory in front of a separator-free name does not change its stem. */
  lemma StemBehindDir(f: Flavor, dir: string, name: string)
    requires dir == [] || IsSep(f, dir[|dir| - 1])
    requires NoSep(f, name)
    ensures Stem(f, dir + name) == SplitExt(f, name).0
  {
    BasenameOf(f, dir, name);
  }

  /** A separator-free `stem + ext`, where `ext` is a dot and no further dots,
      splits between the two when the stem has a non-dot. */
  lemma SplitStemExt(f: Flavor, stem: string, ext: string)
    requires NoSep(f, stem + ext)
    requires exists i :: 0 <= i < |stem| && stem[i] != '.'
    requires |ext| > 0 && ext[0] == '.'
    requires forall i :: 1 <= i < |ext| ==> ext[i] != '.'
    ensures SplitExt(f, stem + ext).0 == stem
  {
    var name := stem + ext;
    NoDotInExt(stem, ext);
    var i :| 0 <= i < |stem| && stem[i] != '.';
    SplitAtLastDot(f, name, |stem|, i);
    assert name[..|stem|] == stem;
  }

  lemma ExtNoSep(f: Flavor, ext: string)
    requires |ext| > 0 && ext[0] == '.'
    requires forall i :: 1 <= i < |ext| ==> ext[i] != '.' && !IsSep(f, ext[i])
    ensures NoSep(f, ext)
  {
  }

  lemma NoDotInExt(stem: string, ext: string)
    requires forall i :: 1 <= i < |ext| ==> ext[i] != '.'
    ensures forall k :: |stem| < k < |stem + ext| ==> (stem + ext)[k] != '.'
  {
    forall k | |stem| < k < |stem + ext| ensures (stem + ext)[k] != '.' {
      assert (stem + ext)[k] == ext[k - |stem|];
    }
  }

  /** A separator-free name whose last dot is at `d`, with a non-dot at `i`
      before it, splits at `d`. */
  lemma SplitAtLastDot(f: Flavor, name: string, d: int, i: int)
    requires NoSep(f, name)
    requires 0 <= i < d < |name| && name[i] != '.' && name[d] == '.'
    requires forall k :: d < k < |name| ==> name[k] != '.'
    ensures SplitExt(f, name) == (name[..d], name[d..])
  {
    LastSepIs(f, name, -1);
    LastIndexIs(name, '.', d);
  }

  /** `stem.ext` with a dot-free, separator-free stem and extension splits
      at its only dot. */
  lemma SplitSimpleName(f: Flavor, stem: string, ext: string)
    requires stem != [] && '.' !in stem && NoSep(f, stem)
    requires '.' !in ext && NoSep(f, ext)
    ensures SplitExt(f, stem + "." + ext) == (stem, "." + ext)
  {
    var name := stem + "." + ext;
    var dotted := "." + ext;
    assert name == stem + dotted;
    assert NoSep(f, dotted) by {
      forall i | 0 <= i < |dotted| ensures !IsSep(f, dotted[i]) {
        if i > 0 { assert dotted[i] == ext[i - 1]; }
      }
    }
    JoinNoSep(f, stem, dotted);
    forall k | |stem| < k < |name| ensures name[k] != '.' {
      assert name[k] == ext[k - |stem| - 1];
    }
    SplitAtLastDot(f, name, |stem|, 0);
    assert name[..|stem|] == stem && name[|stem|..] == dotted;
  }

  lemma PrefixNoSep(f: Flavor, s: string, t: string)
    requires NoSep(f, s) && |t| <= |s| && t == s[..|t|]
    ensures NoSep(f, t)
  {
    forall i | 0 <= i < |t| ensures !IsSep(f, t[i]) {
      assert t[i] == s[i];
    }
  }

  /** The stem of a path holds no separator. */
  lemma StemNoSep(f: Flavor, p: string)
    ensures NoSep(f, Stem(f, p))
  {
    var b := Basename(f, p);
    var parts := SplitExt(f, b);
    assert parts.0 + parts.1 == b;
    PrefixNoSep(f, b, parts.0);
  }

  lemma JoinNoSep(f: Flavor, a: string, b: string)
    requires NoSep(f, a) && NoSep(f, b)
    ensures NoSep(f, a + b)
  {
    forall i | 0 <= i < |a + b| ensures !IsSep(f, (a + b)[i]) {
      if i < |a| {
        assert (a + b)[i] == a[i];
      } else {
        assert (a + b)[i] == b[i - |a|];
      }
    }
  }

  /** Joining a separator-free name onto a directory yields a path whose
      basename is that name. */
  lemma BasenameOfJoin(f: Flavor, dir: string, name: string)
    requires NoSep(f, name)
    ensures Basename(f, Join(f, dir, name)) == name
  {
    if name != [] && IsSep(f, name[0]) {
      assert false;
    } else if dir == [] || IsSep(f, dir[|dir| - 1]) {
      BasenameOf(f, dir, name);
    } else {
      var d := dir + [f.Separator()];
      assert Join(f, dir, name) == d + name;
      BasenameOf(f, d, name);
    }
  }
}

=== FILE: server.dfy ===
/** The request handlers of the web backend (app.py): the upload of a batch,
    the per-item rules of `process_batch`, and the catch-all router that turns
    a session id into a download. Writes to the file system and calls to the
    metadata tools are returned as data; the clock, the uuid, Werkzeug's
    `secure_filename` and the Persian calendar conversion are parameters. */
module Server {
  import opened Wrappers
  import opened Text
  import Paths
  import FilenameDate
  import opened FileTypes

  const UploadFolder: string := "/tmp/uploads"
  const ProcessedFolder: string := "/tmp/processed"

  /** The time used when an item has a date but no time. */
  const DefaultTime: string := "12:00:00"

  datatype HttpError = HttpError(status: nat, message: string)

  // ---------------------------------------------------------------------
  // upload_files
  // ---------------------------------------------------------------------

  /** One part of the multipart `files` field: the name the client sent, its
      `content_type` (`""` when absent) and its bytes. */
  datatype Part = Part(filename: string, contentType: string, content: seq<Byte>)

  /** What an upload takes from outside: the uuid4 session id, the
      `%Y%m%d_%H%M%S` time stamp, `secure_filename` and the Persian
      calendar conversion. */
  datatype UploadEnv = UploadEnv(sessionId: string, stamp: string, secure: string -> string,
                                 toGregorian: string -> Option<string>)
  {
    /** A time stamp has no '/' and `secure_filename` never returns one. */
    ghost predicate Valid() {
      '/' !in stamp && forall x :: '/' !in secure(x)
    }
  }

  /** One entry of `batch_metadata`; the thumbnail is left out. */
  datatype Uploaded = Uploaded(path: string, filename: string, fecha: string, hora: string,
                               fileType: MediaType, sessionId: string)

  datatype UploadResponse = UploadResponse(batchMetadata: seq<Uploaded>, sessionId: string)

  function SessionFolder(root: string, sessionId: string): string {
    Paths.Join(Paths.Posix, root, sessionId)
  }

  /** The parts `if file:` keeps: a part with an empty name is falsy. */
  function Named(parts: seq<Part>): (r: seq<Part>)
    ensures |r| <= |parts|
    ensures forall p :: p in r <==> p in parts && p.filename != ""
  {
    if parts == [] then []
    else (if parts[0].filename != "" then [parts[0]] else []) + Named(parts[1..])
  }

  /** The name a part is stored under, and its record (app.py:182-252). */
  function UploadOne(p: Part, env: UploadEnv): (r: Uploaded)
    ensures r.sessionId == env.sessionId
    ensures |r.filename| >= 3
    ensures Contains(p.contentType, "image/") ==> r.fileType == Image
    ensures !Contains(p.contentType, "image/") && Contains(p.contentType, "video/") ==> r.fileType == Video
    ensures r.hora == "" || FilenameDate.IsClockTime(r.hora)
    // with a MIME type that names neither kind: the stored name's extension, then the content
    ensures !Contains(p.contentType, "image/") && !Contains(p.contentType, "video/") && AllowedFile(r.filename, None) ==>
              r.fileType == GetFileType(r.filename)
    ensures !Contains(p.contentType, "image/") && !Contains(p.contentType, "video/") && !AllowedFile(r.filename, None) ==>
              r.fileType == DetectFromContent(Some(p.content))
    // the date and time are those the stored name spells, or empty
    ensures var found := FilenameDate.ExtractDateTime(Paths.Posix, r.filename, env.toGregorian);
            r.fecha == found.0.OrElse("") && r.hora == found.1.OrElse("")
  {
    var original := MobileRename(ClientBasename(p.filename), env.stamp);
    var filename := StoredName(original, env.secure, env.stamp);
    var path := Paths.Join(Paths.Posix, SessionFolder(UploadFolder, env.sessionId), filename);
    var found := FilenameDate.ExtractDateTime(Paths.Posix, filename, env.toGregorian);
    Uploaded(path, filename, found.0.OrElse(""), found.1.OrElse(""),
             UploadType(p.contentType, filename, Some(p.content)), env.sessionId)
  }

  /** `upload_files`. `parts` is `None` when the request has no `files` field. */
  function UploadFiles(parts: Option<seq<Part>>, env: UploadEnv): (r: Result<UploadResponse, HttpError>)
    ensures parts.None? ==> r == Err(HttpError(400, "No files provided"))
    ensures parts.Some? && (forall p :: p in parts.value ==> p.filename == "") ==>
              r == Err(HttpError(400, "No files selected"))
    ensures parts.Some? && (exists p :: p in parts.value && p.filename != "") ==> r.Ok?
    ensures r.Ok? ==> r.value.sessionId == env.sessionId
                      && |r.value.batchMetadata| == |Named(parts.value)| > 0
                      && forall i :: 0 <= i < |r.value.batchMetadata| ==>
                           r.value.batchMetadata[i] == UploadOne(Named(parts.value)[i], env)
  {
    match parts
    case None => Err(HttpError(400, "No files provided"))
    case Some(files) =>
      var named := Named(files);
      assert named != [] ==> named[0] in named;
      if named == [] then Err(HttpError(400, "No files selected"))
      else Ok(UploadResponse(seq(|named|, i requires 0 <= i < |named| => UploadOne(named[i], env)), env.sessionId))
  }

  /** Filtering empty names keeps the order: it distributes over concatenation. */
  lemma {:induction false} NamedKeepsOrder(a: seq<Part>, b: seq<Part>)
    ensures Named(a + b) == Named(a) + Named(b)
    decreases |a|
  {
    if a == [] {
      assert a + b == b;
    } else {
      assert (a + b)[1..] == a[1..] + b;
      NamedKeepsOrder(a[1..], b);
    }
  }

  /** Every stored file sits directly in the session's upload folder under
      its stored name, and carries the session id. */
  lemma UploadedInSession(p: Part, env: UploadEnv)
    requires env.Valid()
    ensures var r := UploadOne(p, env);
            Paths.Basename(Paths.Posix, r.path) == r.filename && r.sessionId == env.sessionId
  {
    var original := MobileRename(ClientBasename(p.filename), env.stamp);
    MobileRenameHasNoSlash(ClientBasename(p.filename), env.stamp);
    var filename := StoredName(original, env.secure, env.stamp);
    StoredNameHasNoSlash(original, env);
    Paths.BasenameOfJoin(Paths.Posix, SessionFolder(UploadFolder, env.sessionId), filename);
  }

  lemma SuffixHasNoSlash(s: string, t: string)
    requires '/' !in s && |t| <= |s| && t == s[|s| - |t|..]
    ensures '/' !in t
  {
    forall k | 0 <= k < |t| ensures t[k] != '/' {
      assert t[k] == s[|s| - |t| + k];
    }
  }

  lemma MobileRenameHasNoSlash(name: string, stamp: string)
    requires '/' !in name && '/' !in stamp
    ensures '/' !in MobileRename(name, stamp)
  {
    SuffixHasNoSlash(name, AfterLast(name, '.'));
  }

  lemma StoredNameHasNoSlash(original: string, env: UploadEnv)
    requires env.Valid() && '/' !in original
    ensures Paths.NoSep(Paths.Posix, StoredName(original, env.secure, env.stamp))
  {
    SuffixHasNoSlash(original, AfterLast(original, '.'));
    var r := StoredName(original, env.secure, env.stamp);
    assert '/' !in env.secure(original);
    assert '/' !in r;
  }

  // ---------------------------------------------------------------------
  // process_batch
  // ---------------------------------------------------------------------

  /** One entry of `files` as the client sent it; an absent key is `None`. */
  datatype FileData = FileData(path: Option<string>, filename: Option<string>, fecha: Option<string>,
                               hora: Option<string>, accion: Option<string>, fileType: Option<string>)

  datatype ItemResult = ItemResult(filename: string, success: bool, message: string)

  /** The file-system and tool calls an item makes, in order. */
  datatype Effect =
    | Copy(source: string, target: string)
    | ApplyImage(target: string, datetime: string)
    | ApplyVideo(target: string, datetime: string)

  /** What the handler observes of the world: whether a path exists, and the
      message of the exception (if any) each effect raises. */
  datatype Host = Host(pathExists: string -> bool, fails: Effect -> Option<string>)

  /** The first key `process_batch` reads with `[...]` that is missing, in the
      order it reads them; `accion` is read with `.get` and never missing. */
  function MissingKey(d: FileData): (r: Option<string>)
    ensures r.None? <==> d.path.Some? && d.filename.Some? && d.fecha.Some? && d.hora.Some? && d.fileType.Some?
  {
    if d.path.None? then Some("path")
    else if d.filename.None? then Some("filename")
    else if d.fecha.None? then Some("fecha")
    else if d.hora.None? then Some("hora")
    else if d.fileType.None? then Some("file_type")
    else None
  }

  /** `f"{fecha} {hora or '12:00:00'}"`. */
  function ExifDateTime(fecha: string, hora: string): (r: string)
    ensures |r| > |fecha| && r[|fecha|] == ' '
  {
    fecha + " " + (if hora == "" then DefaultTime else hora)
  }

  /** The date and time handed to the tool come back out of the string:
      the text before the first space is the date, the rest is the time or
      the default. */
  lemma ExifDateTimeSplits(fecha: string, hora: string)
    requires ' ' !in fecha
    ensures var r := ExifDateTime(fecha, hora);
            BeforeFirst(r, ' ') == fecha
            && r[|fecha| + 1..] == (if hora == "" then DefaultTime else hora)
  {
    var r := ExifDateTime(fecha, hora);
    forall k | 0 <= k < |fecha| ensures r[k] != ' ' {
      assert r[k] == fecha[k];
    }
  }

  predicate Supported(fileType: string) {
    fileType == "image" || fileType == "video"
  }

  /** The body of the `for` loop of `process_batch` for one item, writing
      into `folder`: its result and the effects it had. */
  function ProcessItem(d: FileData, folder: string, host: Host): (r: (ItemResult, seq<Effect>))
    ensures d.filename.Some? ==> r.0.filename == d.filename.value
    ensures r.0.success <==>
              MissingKey(d).None? && host.pathExists(d.path.value) && d.fecha.value != ""
              && Supported(d.fileType.value) && r.1 != [] && host.fails(r.1[0]).None?
              && |r.1| == 2 && host.fails(r.1[1]).None?
    ensures r.0.success ==> EndsWith(r.0.message, d.filename.value)
    ensures MissingKey(d).None? && !host.pathExists(d.path.value) ==> r.0.message == "Archivo no encontrado"
    ensures MissingKey(d).None? && host.pathExists(d.path.value) && d.fecha.value == "" ==>
              r.0.message == "Fecha requerida"
    ensures MissingKey(d).Some? || !host.pathExists(d.path.value) || d.fecha.value == "" ==> r.1 == []
    ensures r.1 != [] ==>
              r.1[0] == Copy(d.path.value, Paths.Join(Paths.Posix, folder, d.filename.value))
              && (|r.1| == 2 ==> !r.1[1].Copy? && r.1[1].target == r.1[0].target
                                  && r.1[1].datetime == ExifDateTime(d.fecha.value, d.hora.value))
              && |r.1| <= 2
  {
    match MissingKey(d)
    case Some(key) => (ItemResult(d.filename.OrElse("unknown"), false, "Error: '" + key + "'"), [])
    case None =>
      var filename := d.filename.value;
      if !host.pathExists(d.path.value) then (ItemResult(filename, false, "Archivo no encontrado"), [])
      else if d.fecha.value == "" then (ItemResult(filename, false, "Fecha requerida"), [])
      else
        var datetime := ExifDateTime(d.fecha.value, d.hora.value);
        var target := Paths.Join(Paths.Posix, folder, filename);
        var copy := Copy(d.path.value, target);
        match host.fails(copy)
        case Some(e) => (ItemResult(filename, false, "Error: " + e), [copy])
        case None =>
          if !Supported(d.fileType.value) then (ItemResult(filename, false, "Tipo de archivo no soportado"), [copy])
          else
            var image := d.fileType.value == "image";
            var apply := if image then ApplyImage(target, datetime) else ApplyVideo(target, datetime);
            var kind := if image then "imagen" else "video";
            match host.fails(apply)
            case Some(e) => (ItemResult(filename, false, "Error: " + e), [copy, apply])
            case None => (ItemResult(filename, true, "Metadatos aplicados a " + kind + ": " + filename), [copy, apply])
  }

  /** Only an image or a video can succeed; any other type is reported as
      unsupported (after it has been copied). */
  lemma UnsupportedNeverSucceeds(d: FileData, folder: string, host: Host)
    requires MissingKey(d).None? && host.pathExists(d.path.value) && d.fecha.value != ""
    requires !Supported(d.fileType.value)
    requires host.fails(Copy(d.path.value, Paths.Join(Paths.Posix, folder, d.filename.value))).None?
    ensures ProcessItem(d, folder, host).0 == ItemResult(d.filename.value, false, "Tipo de archivo no soportado")
  {
  }

  /** The client's `accion` never changes what happens to an item. */
  lemma ActionIgnored(d: FileData, a: Option<string>, folder: string, host: Host)
    ensures ProcessItem(d.(accion := a), folder, host) == ProcessItem(d, folder, host)
  {
  }

  /** The results of a list of items, one per item, in order. */
  function ProcessAll(items: seq<FileData>, folder: string, host: Host): (r: seq<ItemResult>)
    ensures |r| == |items|
    ensures forall i :: 0 <= i < |items| ==> r[i] == ProcessItem(items[i], folder, host).0
  {
    if items == [] then []
    else [ProcessItem(items[0], folder, host).0] + ProcessAll(items[1..], folder, host)
  }

  /** The JSON body of a `process_batch` request; `files` and `session_id`
      are `None` when absent. */
  datatype BatchRequest = BatchRequest(files: Option<seq<FileData>>, sessionId: Option<string>)

  datatype BatchResponse = BatchResponse(results: seq<ItemResult>, downloadUrl: string)

  function DownloadUrl(sessionId: string): string {
    "/api/download/" + sessionId
  }

  /** `process_batch`. `body` is `None` when the request carries no JSON
      object. */
  function ProcessBatch(body: Option<BatchRequest>, host: Host): (r: Result<BatchResponse, HttpError>)
    ensures body.None? || body.value.files.None? ==> r == Err(HttpError(400, "No files data provided"))
    ensures body.Some? && body.value.files.Some? && body.value.sessionId.OrElse("") == "" ==>
              r == Err(HttpError(400, "Session ID required"))
    ensures r.Ok? <==> body.Some? && body.value.files.Some? && body.value.sessionId.OrElse("") != ""
    ensures r.Ok? ==>
              var sid := body.value.sessionId.value;
              var items := body.value.files.value;
              && |r.value.results| == |items|
              && (forall i :: 0 <= i < |items| ==>
                    r.value.results[i] == ProcessItem(items[i], SessionFolder(ProcessedFolder, sid), host).0)
              && StartsWith(r.value.downloadUrl, "/api/download/")
              && r.value.downloadUrl[|"/api/download/"|..] == sid
  {
    match body
    case None => Err(HttpError(400, "No files data provided"))
    case Some(req) =>
      match req.files
      case None => Err(HttpError(400, "No files data provided"))
      case Some(items) =>
        var sid := req.sessionId.OrElse("");
        if sid == "" then Err(HttpError(400, "Session ID required"))
        else Ok(BatchResponse(ProcessAll(items, SessionFolder(ProcessedFolder, sid), host), DownloadUrl(sid)))
  }

  /** An item's result depends on that item alone: the same item gives the
      same result wherever it sits in a batch. */
  lemma ResultPerItem(items: seq<FileData>, others: seq<FileData>, folder: string, host: Host, i: nat, j: nat)
    requires i < |items| && j < |others| && items[i] == others[j]
    ensures ProcessAll(items, folder, host)[i] == ProcessAll(others, folder, host)[j]
  {
  }

  // ---------------------------------------------------------------------
  // catch_all
  // ---------------------------------------------------------------------

  datatype Redirect = ToDownload(sessionId: string) | ToIndex

  /** Thirty-six characters, four of them dashes: what a uuid4 string looks like. */
  predicate LooksLikeUuid(s: string) {
    |s| == 36 && Count(s, '-') == 4
  }

  /** `catch_all` (app.py:422-437). */
  function CatchAll(path: string): (r: Redirect)
    ensures r.ToDownload? ==> LooksLikeUuid(r.sessionId)
    ensures LooksLikeUuid(path) ==> r == ToDownload(path)
    ensures !LooksLikeUuid(path) && !EndsWith(path, ".txt") && !EndsWith(path, ".json") ==> r == ToIndex
    ensures r.ToDownload? <==>
              || LooksLikeUuid(path)
              || ((EndsWith(path, ".txt") || EndsWith(path, ".json")) && LooksLikeUuid(Paths.Stem(Paths.Posix, path)))
    ensures r.ToDownload? ==> r.sessionId == path || r.sessionId == Paths.Stem(Paths.Posix, path)
  {
    if LooksLikeUuid(path) then ToDownload(path)
    else if EndsWith(path, ".txt") || EndsWith(path, ".json") then
      var name := Paths.Stem(Paths.Posix, path);
      if LooksLikeUuid(name) then ToDownload(name) else ToIndex
    else ToIndex
  }

  /** A session id, alone or saved as a `.txt` or `.json` file in any folder,
      routes to that session's download. */
  lemma SessionFileRoutes(dir: string, sid: string, ext: string)
    requires LooksLikeUuid(sid) && '/' !in sid && '.' !in sid
    requires ext == ".txt" || ext == ".json"
    requires dir == [] || dir[|dir| - 1] == '/'
    ensures CatchAll(sid) == ToDownload(sid)
    ensures CatchAll(dir + sid + ext) == ToDownload(sid)
  {
    var p := dir + sid + ext;
    assert EndsWith(p, ext);
    assert sid[0] != '.';
    Paths.StemOfComposed(Paths.Posix, dir, sid, ext);
    assert |p| != 36 by {
      assert |p| >= 36 + 4;
    }
  }
}

=== FILE: text.dfy ===
/** Character classes and string operations shared by the model.

    The source's regular expressions use Python's `\d` and `\w`, and it lower-cases
    with Python's `str.lower` and JavaScript's `toLowerCase`; all of these also
    accept or map non-ASCII characters. This model uses their ASCII subsets. */
module Text {
  import opened Wrappers

  predicate IsDigit(c: char) {
    '0' <= c <= '9'
  }

  predicate AllDigits(s: string) {
    forall i :: 0 <= i < |s| ==> IsDigit(s[i])
  }

  /** ASCII part of Python's `\w`. */
  predicate IsWordChar(c: char) {
    IsDigit(c) || 'a' <= c <= 'z' || 'A' <= c <= 'Z' || c == '_'
  }

  /** The characters Python's `str.isspace` accepts, which `str.strip()` removes. */
  predicate IsSpace(c: char) {
    var n := c as int;
    n == 0x20 || 0x09 <= n <= 0x0D || 0x1C <= n <= 0x1F || n == 0x85 || n == 0xA0
    || n == 0x1680 || 0x2000 <= n <= 0x200A || n == 0x2028 || n == 0x2029
    || n == 0x202F || n == 0x205F || n == 0x3000
  }

  function LowerChar(c: char): char {
    if 'A' <= c <= 'Z' then (c as int + 32) as char else c
  }

  function Lower(s: string): string {
    seq(|s|, i requires 0 <= i < |s| => LowerChar(s[i]))
  }

  /** Lower-casing twice is lower-casing once. */
  lemma LowerIdempotent(s: string)
    ensures Lower(Lower(s)) == Lower(s)
  {
  }

  function Min(a: int, b: int): int {
    if a <= b then a else b
  }

  /** Python's slice `s[i:j]` for `0 <= i <= j`: out-of-range bounds are clamped. */
  function Slice<T>(s: seq<T>, i: nat, j: nat): seq<T>
    requires i <= j
  {
    s[Min(i, |s|)..Min(j, |s|)]
  }

  /** Index of the last `c`, or -1 when there is none (Python's `rfind`,
      JavaScript's `lastIndexOf`). */
  function LastIndex(s: string, c: char): (r: int)
    ensures -1 <= r < |s|
    ensures 0 <= r ==> s[r] == c
    ensures forall k :: r < k < |s| ==> s[k] != c
  {
    if |s| == 0 then -1
    else if s[|s| - 1] == c then |s| - 1
    else LastIndex(s[..|s| - 1], c)
  }

  /** The contract of `LastIndex` pins it down. */
  lemma LastIndexIs(s: string, c: char, i: int)
    requires -1 <= i < |s|
    requires 0 <= i ==> s[i] == c
    requires forall k :: i < k < |s| ==> s[k] != c
    ensures LastIndex(s, c) == i
  {
  }

  /** Index of the first `c`, or -1 (JavaScript's `indexOf`). */
  function FirstIndex(s: string, c: char): (r: int)
    ensures -1 <= r < |s|
    ensures 0 <= r ==> s[r] == c
    ensures forall k :: 0 <= k < |s| && (r < 0 || k < r) ==> s[k] != c
  {
    if |s| == 0 then -1
    else if s[0] == c then 0
    else
      var r := FirstIndex(s[1..], c);
      if r < 0 then -1 else r + 1
  }

  /** A suffix of `s` without its last element, extended by that element,
      is a suffix of `s`. */
  lemma SnocSuffix<T>(s: seq<T>, r: seq<T>)
    requires |s| > 0 && |r| < |s| && r == s[..|s| - 1][|s| - 1 - |r|..]
    ensures r + [s[|s| - 1]] == s[|s| - 1 - |r|..]
    ensures |r| < |s| - 1 ==> s[|s| - |r| - 2] == s[..|s| - 1][|s| - 1 - |r| - 1]
  {
  }

  /** The text after the last `c`, or all of `s` when it has none: Python's
      `s.split(c)[-1]` and `s.rsplit(c, 1)[-1]`, JavaScript's `s.split(c).pop()`. */
  function AfterLast(s: string, c: char): (r: string)
    ensures |r| <= |s| && r == s[|s| - |r|..]
    ensures c !in r
    ensures |r| < |s| ==> s[|s| - |r| - 1] == c
  {
    if |s| == 0 || s[|s| - 1] == c then []
    else
      var r' := AfterLast(s[..|s| - 1], c);
      SnocSuffix(s, r');
      r' + [s[|s| - 1]]
  }

  /** The piece after the last `c` of `a + c + b` is `b` when `b` has no `c`. */
  lemma {:induction false} AfterLastOfJoin(a: string, c: char, b: string)
    requires c !in b
    ensures AfterLast(a + [c] + b, c) == b
  {
    var s := a + [c] + b;
    if b == [] {
      assert s[|s| - 1] == c;
    } else {
      var b' := b[..|b| - 1];
      assert s[..|s| - 1] == a + [c] + b';
      assert s[|s| - 1] == b[|b| - 1];
      assert c !in b';
      AfterLastOfJoin(a, c, b');
      assert b' + [b[|b| - 1]] == b;
    }
  }

  /** A string without `c` is its own piece after the last `c`. */
  lemma AfterLastOfNone(s: string, c: char)
    requires c !in s
    ensures AfterLast(s, c) == s
  {
  }

  /** The text before the first `c`, or all of `s` (the first piece of a split). */
  function BeforeFirst(s: string, c: char): string {
    var i := FirstIndex(s, c);
    if i < 0 then s else s[..i]
  }

  /** JavaScript's `s.replace(/a/g, b)` for single characters. */
  function ReplaceAll(s: string, a: char, b: char): string {
    seq(|s|, i requires 0 <= i < |s| => if s[i] == a then b else s[i])
  }

  /** Python's `str.count` for one character. */
  function Count(s: string, c: char): nat {
    multiset(s)[c]
  }

  predicate StartsWith(s: string, prefix: string) {
    prefix <= s
  }

  predicate EndsWith(s: string, suffix: string) {
    |suffix| <= |s| && s[|s| - |suffix|..] == suffix
  }

  /** Substring test: Python's `t in s`, JavaScript's `s.includes(t)`. */
  predicate Contains(s: string, t: string)
    decreases |s|
  {
    if t <= s then true
    else if |s| == 0 then false
    else Contains(s[1..], t)
  }

  /** A text without the first character of `t` does not contain `t`. */
  lemma {:induction false} ContainsNeedsHead(s: string, t: string)
    requires t != [] && t[0] !in s
    ensures !Contains(s, t)
  {
    if |s| > 0 {
      assert t[0] != s[0];
      assert forall c :: c in s[1..] ==> c in s;
      ContainsNeedsHead(s[1..], t);
    }
  }

  /** A match cannot start inside a prefix that lacks the first character
      of `t`, so it lies wholly in the rest. */
  lemma {:induction false} ContainsPastPrefix(a: string, b: string, t: string)
    requires t != [] && t[0] !in a
    ensures Contains(a + b, t) <==> Contains(b, t)
  {
    if |a| > 0 {
      assert (a + b)[0] == a[0] != t[0];
      assert !(t <= a + b);
      assert (a + b)[1..] == a[1..] + b;
      assert forall c :: c in a[1..] ==> c in a;
      ContainsPastPrefix(a[1..], b, t);
    } else {
      assert a + b == b;
    }
  }

  function DigitChar(d: nat): char
    requires d < 10
  {
    ('0' as int + d) as char
  }

  /** `n` written with two digits, as `strftime('%m')` or `padStart(2, "0")` would. */
  function TwoDigits(n: nat): string
    requires n < 100
  {
    [DigitChar(n / 10), DigitChar(n % 10)]
  }

  /** Python's `zfill(2)` on a run of digits. */
  function ZeroPad2(s: string): string {
    if |s| == 0 then "00" else if |s| == 1 then "0" + s else s
  }

  /** The first index at or after `i` that does not hold a space, or `|s|`. */
  function SkipSpaces(s: string, i: nat): (r: nat)
    requires i <= |s|
    ensures i <= r <= |s|
    ensures forall k :: i <= k < r ==> IsSpace(s[k])
    ensures r < |s| ==> !IsSpace(s[r])
    decreases |s| - i
  {
    if i < |s| && IsSpace(s[i]) then SkipSpaces(s, i + 1) else i
  }

  /** The last index at or before `j` that follows a non-space, or 0. */
  function SkipSpacesBack(s: string, j: nat): (r: nat)
    requires j <= |s|
    ensures r <= j
    ensures forall k :: r <= k < j ==> IsSpace(s[k])
    ensures 0 < r ==> !IsSpace(s[r - 1])
  {
    if 0 < j && IsSpace(s[j - 1]) then SkipSpacesBack(s, j - 1) else j
  }

  function TrimStart(s: string): (r: string)
    ensures |r| <= |s| && r == s[|s| - |r|..]
    ensures forall i :: 0 <= i < |s| - |r| ==> IsSpace(s[i])
    ensures r != [] ==> !IsSpace(r[0])
  {
    s[SkipSpaces(s, 0)..]
  }

  function TrimEnd(s: string): (r: string)
    ensures |r| <= |s| && r == s[..|r|]
    ensures forall i :: |r| <= i < |s| ==> IsSpace(s[i])
    ensures r != [] ==> !IsSpace(r[|r| - 1])
  {
    s[..SkipSpacesBack(s, |s|)]
  }

  /** Python's `str.strip()`. */
  function Strip(s: string): string {
    TrimEnd(TrimStart(s))
  }

  /** Digits of `b` read as a decimal number, underscores skipped. */
  function DigitValue(b: string): nat {
    if |b| == 0 then 0
    else if IsDigit(b[|b| - 1]) then DigitValue(b[..|b| - 1]) * 10 + (b[|b| - 1] as int - '0' as int)
    else DigitValue(b[..|b| - 1])
  }

  /** Digits, optionally with single underscores between them. */
  predicate IsDigitBody(b: string) {
    && |b| > 0 && IsDigit(b[0]) && IsDigit(b[|b| - 1])
    && (forall i :: 0 <= i < |b| ==> IsDigit(b[i]) || b[i] == '_')
    && (forall i :: 0 <= i < |b| - 1 ==> !DoubleUnderscoreAt(b, i))
  }

  predicate DoubleUnderscoreAt(b: string, i: nat)
    requires i < |b| - 1
  {
    b[i] == '_' && b[i + 1] == '_'
  }

  /** Python's `int(text)` in base 10: surrounding whitespace, an optional sign,
      then digits with optional single underscores between them; anything else
      raises `ValueError`, modelled as `None`. */
  function ParseInt(text: string): Option<int> {
    var t := Strip(text);
    var negative := |t| > 0 && t[0] == '-';
    var body := if |t| > 0 && (t[0] == '+' || t[0] == '-') then t[1..] else t;
    var magnitude: int := DigitValue(body);
    if IsDigitBody(body) then Some(if negative then -magnitude else magnitude)
    else None
  }

  lemma {:induction false} TrimOfNoSpace(s: string)
    requires forall i :: 0 <= i < |s| ==> !IsSpace(s[i])
    ensures Strip(s) == s
  {
    if |s| > 0 {
      assert !IsSpace(s[0]) && !IsSpace(s[|s| - 1]);
    }
  }

  /** A non-empty run of ASCII digits is exactly what `int()` reads as its decimal value. */
  lemma ParseDigits(s: string)
    requires |s| > 0 && AllDigits(s)
    ensures ParseInt(s) == Some(DigitValue(s))
  {
    DigitsAreNotSpaces(s);
    TrimOfNoSpace(s);
    DigitsAreDigitBody(s);
    assert IsDigit(s[0]);
  }

  lemma DigitsAreNotSpaces(s: string)
    requires AllDigits(s)
    ensures forall i :: 0 <= i < |s| ==> !IsSpace(s[i])
  {
    forall i | 0 <= i < |s| ensures !IsSpace(s[i]) {
      assert IsDigit(s[i]);
    }
  }

  lemma DigitsAreDigitBody(s: string)
    requires |s| > 0 && AllDigits(s)
    ensures IsDigitBody(s)
  {
    forall i | 0 <= i < |s| - 1 ensures !DoubleUnderscoreAt(s, i) {
      assert IsDigit(s[i]);
    }
  }

  predicate IsLetter(c: char) {
    'a' <= c <= 'z' || 'A' <= c <= 'Z'
  }

  /** `int()` rejects any text that contains a letter. */
  lemma LetterIsNotInt(t: string, i: int)
    requires 0 <= i < |t| && IsLetter(t[i])
    ensures ParseInt(t).None?
  {
    var u := TrimStart(t);
    var a := |t| - |u|;
    var r := TrimEnd(u);
    assert !IsSpace(t[i]);
    assert a <= i < a + |r|;
    assert r[i - a] == t[i];
    var body := if |r| > 0 && (r[0] == '+' || r[0] == '-') then r[1..] else r;
    var j := if body == r then i - a else i - a - 1;
    assert body[j] == t[i];
    assert !IsDigit(body[j]) && body[j] != '_';
  }

  /** `int("")` raises. */
  lemma EmptyIsNotInt()
    ensures ParseInt("").None?
  {
  }
}

=== FILE: web_ui.dfy ===
/** The browser front end of the Flask server (`static/app.js`): file
    icons, the table's pre-filled inputs, the `process_batch` request, the
    result counts with the download link, and the batch state. */
module WebUi {
  import opened Wrappers
  import opened Text
  import opened FileTypes
  import Server
  import DesktopUi

  // ---------------------------------------------------------------------
  // getFileIcon
  // ---------------------------------------------------------------------

  const IconMap: map<string, string> :=
    map["jpg" := "fa-image", "jpeg" := "fa-image", "png" := "fa-image", "gif" := "fa-image",
        "bmp" := "fa-image", "mp4" := "fa-video", "mov" := "fa-video", "avi" := "fa-video",
        "default" := "fa-file"]

  const ImageIconExtensions: set<string> := {"jpg", "jpeg", "png", "gif", "bmp"}
  const VideoIconExtensions: set<string> := {"mp4", "mov", "avi"}

  /** `iconMap[extension] || iconMap.default`: a lookup that does not fold case. */
  function FileIcon(extension: string): (r: string)
    ensures r == "fa-image" <==> extension in ImageIconExtensions
    ensures r == "fa-video" <==> extension in VideoIconExtensions
    ensures r == "fa-file" <==> extension !in ImageIconExtensions + VideoIconExtensions
  {
    if extension in IconMap then IconMap[extension] else IconMap["default"]
  }

  /** The icon of a table row: the extension is lower-cased by the caller. */
  function RowIcon(filename: string): (r: string)
    ensures r == "fa-image" <==> Lower(AfterLast(filename, '.')) in ImageIconExtensions
    ensures r == "fa-video" <==> Lower(AfterLast(filename, '.')) in VideoIconExtensions
  {
    FileIcon(Lower(AfterLast(filename, '.')))
  }

  /** Unlike the desktop front end's, this lookup is case-sensitive. */
  lemma IconIsCaseSensitive()
    ensures FileIcon("JPG") == "fa-file"
    ensures DesktopUi.FileIcon("JPG") == "fa-file-image"
  {
    assert Lower("JPG") == "jpg";
  }

  /** Where this front end shows an image or a video icon, the desktop one
      shows the same kind of icon. */
  lemma IconsAgree(extension: string)
    ensures FileIcon(extension) == "fa-image" ==> DesktopUi.FileIcon(extension) == "fa-file-image"
    ensures FileIcon(extension) == "fa-video" ==> DesktopUi.FileIcon(extension) == "fa-file-video"
  {
    if extension in ImageIconExtensions + VideoIconExtensions {
      LowerOfLower(extension);
    }
  }

  /** The extensions of the icon table are already in lower case. */
  lemma LowerOfLower(extension: string)
    requires extension in ImageIconExtensions + VideoIconExtensions
    ensures Lower(extension) == extension
  {
  }

  // ---------------------------------------------------------------------
  // The batch state and table
  // ---------------------------------------------------------------------

  /** `currentBatchData` and `currentSessionId`. */
  datatype State = State(batch: seq<Server.Uploaded>, sessionId: Option<string>)

  /** The state after `uploadFiles` reads the response of `/api/upload`: a
      successful upload replaces the batch and the session, an error leaves
      both as they were. */
  function AfterUpload(s: State, response: Result<Server.UploadResponse, Server.HttpError>): (r: State)
    ensures response.Err? ==> r == s
    ensures response.Ok? ==>
              r.batch == response.value.batchMetadata && r.sessionId == Some(response.value.sessionId)
  {
    match response
    case Ok(u) => State(u.batchMetadata, Some(u.sessionId))
    case Err(_) => s
  }

  /** The options of the select drawn on video rows, the first selected. */
  const SelectOptions: set<string> := {"modificar_video", "extraer_frame"}

  /** The editable cells as `renderBatchTable` draws them: the new date and
      time pre-filled with the extracted ones, and a select on video rows. */
  function Prefill(batch: seq<Server.Uploaded>): (r: seq<DesktopUi.RowInputs>)
    ensures |r| == |batch|
    ensures forall i :: 0 <= i < |batch| ==> r[i].fecha == batch[i].fecha && r[i].hora == batch[i].hora
    ensures forall i :: 0 <= i < |batch| ==>
              (r[i].accion.Some? <==> batch[i].fileType == Video)
              && (r[i].accion.Some? ==> r[i].accion.value in SelectOptions)
  {
    seq(|batch|, i requires 0 <= i < |batch| =>
      DesktopUi.RowInputs(batch[i].fecha, batch[i].hora,
                          if batch[i].fileType == Video then Some("modificar_video") else None))
  }

  /** A table the user has edited: same rows, and a select, showing one of
      its options, exactly on the video rows. */
  predicate Edited(batch: seq<Server.Uploaded>, table: seq<DesktopUi.RowInputs>) {
    && |table| == |batch|
    && forall i :: 0 <= i < |batch| ==>
         (table[i].accion.Some? <==> batch[i].fileType == Video)
         && (table[i].accion.Some? ==> table[i].accion.value in SelectOptions)
  }

  /** The entry `processBatch` sends for one row. */
  function Entry(item: Server.Uploaded, row: DesktopUi.RowInputs): (r: Server.FileData)
    ensures r.path == Some(item.path) && r.filename == Some(item.filename)
    ensures r.fileType == Some(item.fileType.Name())
    ensures r.fecha == Some(row.fecha) && r.hora == Some(row.hora)
    ensures row.accion.None? ==> r.accion == Some("modificar")
  {
    Server.FileData(Some(item.path), Some(item.filename), Some(row.fecha), Some(row.hora),
                    Some(row.accion.OrElse("modificar")), Some(item.fileType.Name()))
  }

  /** `processBatch`: an error message and no request when the batch is
      empty, otherwise the JSON body it posts to `/api/process_batch`, one
      entry per row, in order. */
  function ProcessBatch(s: State, table: seq<DesktopUi.RowInputs>): (r: Result<Server.BatchRequest, string>)
    requires |s.batch| <= |table|
    ensures r.Err? <==> s.batch == []
    ensures r.Err? ==> r.error == "No hay archivos para procesar"
    ensures r.Ok? ==> r.value.sessionId == s.sessionId && r.value.files.Some?
    ensures r.Ok? ==> |r.value.files.value| == |s.batch|
                      && forall i :: 0 <= i < |s.batch| ==> r.value.files.value[i] == Entry(s.batch[i], table[i])
  {
    if s.batch == [] then Err("No hay archivos para procesar")
    else
      Ok(Server.BatchRequest(Some(seq(|s.batch|, i requires 0 <= i < |s.batch| => Entry(s.batch[i], table[i]))),
                             s.sessionId))
  }

  /** A table sent as drawn carries the dates and times extracted at upload. */
  lemma UneditedSendsExtracted(s: State, i: nat)
    requires i < |s.batch|
    ensures var r := ProcessBatch(s, Prefill(s.batch));
            r.Ok? && r.value.files.value[i].fecha == Some(s.batch[i].fecha)
            && r.value.files.value[i].hora == Some(s.batch[i].hora)
  {
  }

  /** The select sends `modificar_video` or `extraer_frame` on video rows,
      and every other row sends `modificar`. */
  lemma ActionsSent(s: State, table: seq<DesktopUi.RowInputs>, i: nat)
    requires Edited(s.batch, table) && i < |s.batch|
    ensures var a := ProcessBatch(s, table).value.files.value[i].accion.value;
            (s.batch[i].fileType == Video ==> a in SelectOptions)
            && (s.batch[i].fileType != Video ==> a == "modificar")
  {
  }

  /** With a session, the server answers with one result per row, in order,
      each under its row's file name. */
  lemma OneResultPerRow(s: State, table: seq<DesktopUi.RowInputs>, host: Server.Host)
    requires s.batch != [] && |s.batch| <= |table|
    requires s.sessionId.Some? && s.sessionId.value != ""
    ensures var r := Server.ProcessBatch(Some(ProcessBatch(s, table).value), host);
            && r.Ok? && |r.value.results| == |s.batch|
            && forall i :: 0 <= i < |s.batch| ==> r.value.results[i].filename == s.batch[i].filename
  {
  }

  /** The action the user picks never changes what the server does. */
  lemma SelectIgnored(s: State, t1: seq<DesktopUi.RowInputs>, t2: seq<DesktopUi.RowInputs>, host: Server.Host)
    requires s.batch != [] && |s.batch| <= |t1| && |s.batch| <= |t2|
    requires forall i :: 0 <= i < |s.batch| ==> t1[i].fecha == t2[i].fecha && t1[i].hora == t2[i].hora
    ensures Server.ProcessBatch(Some(ProcessBatch(s, t1).value), host)
              == Server.ProcessBatch(Some(ProcessBatch(s, t2).value), host)
  {
    var f1 := ProcessBatch(s, t1).value.files.value;
    var f2 := ProcessBatch(s, t2).value.files.value;
    var folder := Server.SessionFolder(Server.ProcessedFolder, s.sessionId.OrElse(""));
    forall i | 0 <= i < |s.batch|
      ensures Server.ProcessItem(f1[i], folder, host) == Server.ProcessItem(f2[i], folder, host)
    {
      assert f1[i] == f2[i].(accion := f1[i].accion);
      Server.ActionIgnored(f2[i], f1[i].accion, folder, host);
    }
    if s.sessionId.OrElse("") != "" {
      assert Server.ProcessAll(f1, folder, host) == Server.ProcessAll(f2, folder, host);
    }
  }

  // ---------------------------------------------------------------------
  // showBatchResults and clearBatch
  // ---------------------------------------------------------------------

  /** `results.filter((r) => r.success == want).length` */
  function CountWhere(results: seq<Server.ItemResult>, want: bool): (r: nat)
    ensures r <= |results|
    ensures r == 0 <==> forall i :: 0 <= i < |results| ==> results[i].success != want
  {
    if results == [] then 0
    else (if results[0].success == want then 1 else 0) + CountWhere(results[1..], want)
  }

  /** The successes and the failures together are all the results. */
  lemma {:induction false} CountsCoverAll(results: seq<Server.ItemResult>)
    ensures CountWhere(results, true) + CountWhere(results, false) == |results|
  {
    if results != [] {
      CountsCoverAll(results[1..]);
    }
  }

  /** The summary under the results: the two counts and the download link. */
  datatype ResultsView = ResultsView(successCount: nat, errorCount: nat, download: Option<string>)

  /** `showBatchResults`: the link to the ZIP is drawn only when something
      succeeded. */
  function ShowBatchResults(results: seq<Server.ItemResult>, downloadUrl: string): (r: ResultsView)
    ensures r.successCount + r.errorCount == |results|
    ensures r.download.Some? <==> r.successCount > 0
    ensures r.download.Some? <==> exists i :: 0 <= i < |results| && results[i].success
    ensures r.download.Some? ==> r.download.value == downloadUrl
  {
    CountsCoverAll(results);
    var successCount := CountWhere(results, true);
    ResultsView(successCount, CountWhere(results, false), if successCount > 0 then Some(downloadUrl) else None)
  }

  /** `clearBatch`. */
  function ClearBatch(s: State): (r: State)
    ensures r.batch == [] && r.sessionId.None?
  {
    State([], None)
  }

  /** After clearing, processing shows an error and sends nothing. */
  lemma ClearedSendsNothing(s: State, table: seq<DesktopUi.RowInputs>)
    ensures ProcessBatch(ClearBatch(s), table) == Err("No hay archivos para procesar")
  {
  }
}

=== FILE: wrappers.dfy ===
/** Failure-compatible wrappers used throughout the model: `Option` stands for
    Python's `None`-or-value and JavaScript's missing field, `Result` for an
    HTTP handler that either answers or rejects the request. */
module Wrappers {

  datatype Option<+T> = None | Some(value: T) {

    predicate IsFailure() {
      None?
    }

    function PropagateFailure<U>(): Option<U>
      requires None?
    {
      None
    }

    function Extract(): T
      requires Some?
    {
      value
    }

    /** Python's `x or fallback` when `x` may be `None`. */
    function OrElse(fallback: T): T {
      match this
      case Some(v) => v
      case None => fallback
    }
  }

  datatype Result<+T, +E> = Ok(value: T) | Err(error: E)
}
